=== FILE: README.md ===
# BLANX notifications, posts and comments in Dafny

This project models the server and client core of BLANX, a social feed built
on Express, MongoDB (through Mongoose), Socket.IO and React. It covers five
parts:

- **The notification store.** The schema, the controller operations (listing
  with paging, scoped mark-read, the unread count, scoped delete) and
  `createNotification`. That function writes a row and pushes it, with the
  recipient's refreshed unread count, into the recipient's socket room.
- **Both notification routers.** `routes/notifications.js` holds two
  versions of the router, one after the other: one binds the controller
  operations, the other carries inline handlers for a recent-50 listing,
  mark-one and mark-all. Each version is modelled as a route table of its own
  (see "Left out" for why the file as a whole is not).
- **The server glue.** Socket rooms keyed by user id, the two emitters and
  their fan-out to member sockets, and the image upload gate: an image-only
  filter and a 5 MiB limit. Upload errors map to HTTP statuses in two places.
- **The post and comment endpoints.** Like/unlike toggling, deletion and
  paged listing of posts; listing, creation and deletion of comments.
  `createPost` covers validation, the 60-second per-user cooldown, tag parsing
  and defaults. `updatePost` covers the authorisation check and the field
  overwrite. All of these run over one database whose invariant
  (`Database.Consistent`) ties each post's `likeCount` and `commentCount` to
  the like and comment collections.
- **Three client components as pure state machines.** The notification badge
  (unread counter, poll, socket events, "new" flag), the notification dropdown
  (list, local read marks, navigation, text) and the post card (optimistic
  like/save with rollback, two-step delete, in-place edit). Requests, timers
  and the socket are effects the machines emit; their outcomes are events fed
  back in.

Collections are sequences in insertion order, and every query is a filter over
them. The database assigns ids and timestamps, which appear here as
parameters. Where a handler can fail part-way (`createNotification`'s `try`
block, a `fetch` that throws), the failure point is a parameter too, so each
contract covers every outcome.

The modules follow the program's layout:

- Shared: `Common`, `Text`, `Sorting`.
- Schemas: `NotificationModel`, `PostModel`, `LikeModel`, `CommentModel`,
  `UserModel`.
- Server: `NotificationStore`, `Producer` (which is `createNotification`),
  `Rooms`, `Upload`, `NotificationRoutes`, `Database`, `PostRoutes`,
  `CommentRoutes`, `PostController`.
- Client: `Badge`, `Dropdown`, `PostCard`.

## Model

| member | source | states |
|---|---|---|
| NotificationModel.Create | models/Notification.js:3-38 | a row is created exactly when recipient, sender and a type from the enum are given; it carries the given fields, starts unread, and its content defaults to "" |
| NotificationModel.ParseKindName | models/Notification.js:15-19 | every enum spelling validates and names its own kind, so spelling and parsing are inverse on the enum |
| Producer.CreateNotification | controllers/notificationControllers.js:5-42 | self-notification writes and pushes nothing and returns null; otherwise at most one unread row with the requested fields is appended, and it is written unless the type is invalid or the insert fails; any failure returns null; only the recipient's unread count moves, by exactly one; on success the pushes are the notification, then the count recomputed from the store, both to the recipient's room; a failing count query still leaves the first push; nothing is pushed about a row that was not written |
| Producer.UnreadAppend | controllers/notificationControllers.js:31-34 | appending an unread row for a user raises that user's count by one and nobody else's |
| NotificationStore.GetUnreadCount | controllers/notificationControllers.js:97-109 | the scan returns the number of the caller's rows that are unread |
| NotificationStore.GetUserNotifications | controllers/notificationControllers.js:45-68 | only the caller's rows, newest first, at most `limit`, and exactly as many as remain after the skip up to `limit` (all that remain when `limit` is 0); item i is row `(page-1)*limit + i` of the caller's newest-first rows; `total` counts all the caller's rows; `hasMore` holds iff total > page*limit; the reply is an error exactly when page 0 makes the skip negative |
| NotificationStore.HasMoreIffNextPage | controllers/notificationControllers.js:55-63 | with a positive page size, `hasMore` holds exactly when the next page is non-empty |
| NotificationStore.MarkAsRead | controllers/notificationControllers.js:71-94 | only `read` changes, only from false to true, never on another recipient's row; a non-empty id list marks exactly the caller's rows with those ids; an absent or empty list marks all the caller's rows |
| NotificationStore.MarkAsReadIdempotent | controllers/notificationControllers.js:76-88 | repeating a mark-read request changes nothing |
| NotificationStore.MarkAllClearsUnread | controllers/notificationControllers.js:84-87 | after mark-all the caller's unread count is zero |
| NotificationStore.MarkAsReadKeepsOthersCount | controllers/notificationControllers.js:76-88 | marking never changes another user's unread count |
| NotificationStore.MarkForeignIdsNoop | controllers/notificationControllers.js:78-81 | ids belonging to other recipients select nothing, so the store is unchanged |
| NotificationStore.DeleteNotification | controllers/notificationControllers.js:112-126 | removes one row when a row with that id belongs to the caller, and otherwise leaves the store unchanged; the row removed is the first such row, and every other row stays, in order |
| NotificationStore.DeleteKeepsOthers | controllers/notificationControllers.js:117-120 | deleting never touches another recipient's rows |
| NotificationStore.DeleteRemovesRow | controllers/notificationControllers.js:117-120 | under unique ids the deleted row is gone for good and ids stay unique |
| NotificationRoutes.ListRecent | routes/notifications.js:25-38 | the caller's rows newest first, capped at 50; a caller with at most 50 rows gets all of them |
| NotificationRoutes.MarkOne | routes/notifications.js:41-52 | marks read at most one row, the first with that id and the caller as recipient; changes nothing when there is none |
| NotificationRoutes.MarkOneIsMarkAsRead | routes/notifications.js:43-46 | under unique ids, PUT /:id/read does what the controller's mark-read does with a one-element id list |
| NotificationRoutes.MarkAll | routes/notifications.js:55-66 | the caller's rows all become read, so their unread count is zero; every other row and user count is unchanged |
| NotificationRoutes.Resolve | routes/notifications.js:7-16 | Express dispatch: the first route whose verb and path pattern match, or none when no route matches; literal segments match regardless of letter case |
| NotificationRoutes.Run | routes/notifications.js:7-66 | the listing and count handlers leave the store alone; the count handler answers the caller's unread count; no handler touches another user's rows; mark-all leaves the caller nothing unread |
| NotificationRoutes.Serve | routes/notifications.js:4-16 | routing comes before token verification: a request no route matches is passed on whoever sends it (a GET reaches the catch-all page, anything else is 404); a matched route without a user is 401; neither changes the store, and no request changes another user's rows |
| NotificationRoutes.UnmatchedSkipsAuth | routes/notifications.js:41-55 | without a user, POST /x/read on the inline router is 404, GET /x on the controller router reaches the catch-all page, and only the matched PUT /read-all is 401 |
| NotificationRoutes.ResolveIgnoresCase | routes/notifications.js:2 | a path and its lower-cased form resolve to the same route on any table |
| NotificationRoutes.UpperCaseCountResolves | routes/notifications.js:13 | GET /UNREAD-COUNT reaches the controller router's unread-count handler and answers the caller's unread count |
| NotificationRoutes.PutReadResolves | routes/notifications.js:41-47 | PUT /{id}/read on the inline router reaches mark-one with the id from the path |
| NotificationRoutes.PutReadAllResolves | routes/notifications.js:55-61 | PUT /read-all on the inline router reaches mark-all and is not taken for an id |
| NotificationRoutes.ControllerRoutesResolve | routes/notifications.js:13-16 | GET /unread-count and DELETE /{id} on the controller router reach the count and the scoped delete |
| Rooms.Join | server.js:74-77 | the socket enters the named room and no other room changes |
| Rooms.JoinIdempotent | server.js:74-77 | joining a room one is already in changes nothing |
| Rooms.Disconnect | server.js:79-81 | a disconnected socket leaves every room, and only it leaves |
| Rooms.DisconnectKeepsOthers | server.js:79-81 | one socket leaving never affects another socket's membership |
| Rooms.EmitNotification | server.js:85-87 | pushes `new_notification` to the recipient's room |
| Rooms.EmitUnreadCount | server.js:89-91 | pushes `unread_count_update` to the recipient's room |
| Rooms.Deliveries | server.js:86 | a push reaches exactly the members of its room, each with the pushed event |
| Rooms.EmptyRoomDeliversNothing | server.js:85-91 | a push to a room nobody joined reaches nobody |
| Rooms.Emit | server.js:86 | the fan-out makes one delivery per member and no socket twice, and what it delivers is exactly `Deliveries` |
| Rooms.Dispatch | server.js:85-91 | the delivery log only grows, and what it gains is exactly the deliveries of the pushes |
| Upload.Check | server.js:26-36 | no file passes; a file passes iff its mimetype starts with "image/" and it is at most 5 MiB; a non-image is refused as such whatever its size |
| Upload.AsServerError | server.js:28-33 | the filter's error is a plain error and the size error a multer error, both with the same message as the gate |
| Upload.HandleError | server.js:99-106 | a multer size error is 400 "File too large"; anything else is 500 with the error's message |
| Upload.RouteUpload | routes/posts.js:10-13 | the create route answers every refused upload with 400 and the error's message, and lets a passing one through |
| Upload.OversizeReportedAlike | server.js:99-106 | an oversized image is 400 "File too large" both on the route and at the application-wide handler |
| Upload.NonImageStatus | server.js:29-35 | a non-image is 400 on the route but would be 500 at the application-wide handler |
| Upload.ImagesWithinLimitPass | server.js:28-35 | any image of at most 5 MiB passes, and so does a request without a file |
| PostModel.CheckText | models/Post.js:6-16 | passes iff the trimmed title has 1 to 200 UTF-16 code units and the untrimmed content has 1 to 2000 |
| PostModel.WideTitleTooLong | models/Post.js:6-11 | the title bound counts code units, so 150 emoji (300 units) are refused |
| PostModel.Create | models/Post.js:4-48 | a post is created iff title, content and poster are given and pass the text checks; it is valid, the title is trimmed, the tags are the given tags each trimmed, in order, image and location default to "", counters start at 0 and `edited` at false |
| PostModel.Save | models/Post.js:6-29 | saving an edited post validates as creation does and re-trims title and tags, leaving every other field as it was |
| LikeModel.Insert | models/Like.js:20-21 | a like is created iff that (post, user) pair has none; it adds exactly that key and keeps the index unique |
| LikeModel.Remove | routes/posts.js:69-73 | drops one row iff the pair has a like, and otherwise changes nothing; the row dropped is the first with that pair, and every other row stays, in order |
| LikeModel.KeysRemove | models/Like.js:20-21 | under the unique index, removing a pair takes exactly that key away and keeps the index unique |
| LikeModel.RemoveAppended | routes/posts.js:71-78 | unliking a like just made restores the like rows |
| Common.FilterSnoc | routes/posts.js:78-79 | a new row adds one to the count of the rows about its post and to no other post's count; both the like and the comment counters rest on it |
| LikeModel.CountRemove | routes/posts.js:73-74 | removing an existing like takes one off its post's like count and off no other post's |
| CommentModel.Create | models/Comment.js:4-28 | a comment is created iff content, post and author are given and the trimmed content has 1 to 500 UTF-16 code units; the content is stored trimmed, `edited` starts false |
| CommentModel.Find | routes/comments.js:68-71 | finds a comment iff the id is present, and the comment found has that id |
| CommentModel.RemoveId | routes/comments.js:77 | drops one row iff the id is present, and otherwise changes nothing; the row dropped is the first with that id, and every other row stays, in order |
| CommentModel.RemoveAppended | routes/comments.js:77 | deleting the comment just created under a fresh id restores the comments |
| CommentModel.CountRemove | routes/comments.js:77-78 | removing a comment takes one off its own post's comment count and off no other post's |
| UserModel.Check | models/User.js:6-39 | a draft passes iff username trims to 3..30 UTF-16 code units, email is non-blank, password has at least 6 code units, full name is non-blank and bio has at most 500 |
| UserModel.Create | models/User.js:4-54 | a user is created iff the checks pass; the user is valid, the username is trimmed, the email trimmed and lower-cased, avatar and bio default to "", `isAdmin` defaults to false, the follow lists start empty |
| UserModel.NormalEmailIdempotent | models/User.js:14-20 | normalising a stored email changes nothing |
| UserModel.Register | models/User.js:6-20 | registration succeeds iff the draft passes and neither normalised username nor email is taken; it appends the new user and keeps both unique |
| Database.FindPost | routes/posts.js:38-52 | finds a post iff its id is present, and the post found has that id and is stored |
| Database.Adjust | routes/posts.js:74 | `$inc` moves the counters of the rows with that id and leaves every other row, and the key, as it was |
| Database.AdjustTwice | routes/posts.js:74-79 | two increments on one post compose into one |
| Database.FindAdjusted | routes/posts.js:74-79 | under the primary key, looking the adjusted post up finds it with its counters moved |
| Database.RemovePost | routes/posts.js:107 | drops one row iff the id is present, and otherwise changes nothing |
| Database.RemovePostExact | routes/posts.js:107 | under the primary key, deleting removes exactly that id and every other post is found as before |
| Database.AdjustKeepsAgreement | models/Post.js:34-41 | moving one post's counters by exactly as much as its likes and comments moved keeps every counter in step |
| Database.AppendPostConsistent | models/Post.js:34-41 | a fresh post with zero counters and no likes or comments keeps the database consistent |
| PostRoutes.LikeStep | routes/posts.js:69-87 | a toggle removes the user's like and drops the counter by one when there is a like, and otherwise adds one and raises the counter by one; the reply's `liked` says which; only that post's counts move |
| PostRoutes.ToggleMovesCount | routes/posts.js:69-86 | on an existing post, the stored like counter moves by exactly one, down when the user had liked it and up otherwise, and the reply's `liked` says which |
| PostRoutes.LikeStepTwice | routes/posts.js:69-87 | two toggles restore the set of likes and every counter and answer opposite flags; like-then-unlike restores the rows exactly |
| PostRoutes.ToggleLike | routes/posts.js:55-91 | a missing post is 404 with nothing changed; a like notifies the poster unless the poster is the liker; an unlike notifies nobody; comments are untouched; a consistent database stays consistent |
| PostRoutes.ToggleTwiceRestores | routes/posts.js:55-91 | two toggles through the endpoint restore likes and counters, answering `liked` then its opposite |
| PostRoutes.DeletePost | routes/posts.js:94-112 | 404 for a missing post and 403 unless the caller is its poster; otherwise exactly that post is removed, with likes, comments and notifications left alone; consistency is kept |
| PostRoutes.DeleteKeepsConsistent | routes/posts.js:107 | after the removal the database is consistent, the post is gone and every other post is found as before |
| PostRoutes.ListPosts | routes/posts.js:20-35 | newest first, at most `limit`, and exactly as many as remain after the skip up to `limit`; item i is post `(page-1)*limit + i` of the newest-first order; the reply is an error exactly when page 0 makes the skip negative |
| PostRoutes.PagesArePrefix | routes/posts.js:25-29 | reading pages 1 to k in turn yields the newest k*limit posts in order, none skipped and none repeated |
| CommentRoutes.ListComments | routes/comments.js:7-18 | exactly the post's comments, as a permutation, newest first |
| CommentRoutes.ListingMatchesCounter | routes/comments.js:10-12 | in a consistent database a post's listing is as long as its comment counter says |
| CommentRoutes.CreateComment | routes/comments.js:21-60 | 400 without content or post id; 404 for a missing post; a schema failure changes nothing; otherwise exactly one valid comment by the caller is appended, the post's counter rises by one, and the poster is notified unless they wrote it; consistency is kept |
| CommentRoutes.AppendCommentConsistent | routes/comments.js:39-46 | appending a comment together with one more on its post's counter keeps every counter equal to its rows |
| CommentRoutes.DeleteComment | routes/comments.js:63-84 | 404 for a missing comment and 403 unless the caller wrote it; otherwise that comment is removed and its post's counter drops by one; consistency is kept |
| CommentRoutes.RemoveCommentConsistent | routes/comments.js:77-78 | removing an existing comment together with one less on its post's counter keeps every counter equal to its rows |
| CommentRoutes.CreateThenDeleteRestores | routes/comments.js:39-78 | creating a comment and deleting it as its author restores the comments and every counter |
| PostController.Expire | controllers/postControllers.js:23-25 | the timer takes exactly that user out of the cooldown set |
| PostController.SplitTags | controllers/postControllers.js:50 | the fallback keeps exactly the non-blank space-separated pieces |
| PostController.SplitTagsCons | controllers/postControllers.js:50 | piece by piece, in order: a non-blank first piece is the first tag, a blank one is dropped, and the rest of the string gives the rest of the tags |
| PostController.SplitTagsLast | controllers/postControllers.js:50 | a string without spaces is one tag, or none when blank |
| PostController.SplitTagsCount | controllers/postControllers.js:50 | each non-blank piece appears as often as the split produces it, and no blank piece appears |
| PostController.ParseTags | controllers/postControllers.js:45-52 | no tags when `tags` is falsy; otherwise the parsed JSON list, or the split fallback when parsing throws |
| PostController.TagsRoundTrip | controllers/postControllers.js:50 | words joined by single spaces come back as those words |
| PostController.CreatePost | controllers/postControllers.js:7-70 | a missing title or content, or a user already in the cooldown set, is refused with nothing changed; past those checks the user enters the cooldown set even if a later step fails; a post is stored iff the image and schema checks pass, with the fields and defaults as given |
| PostController.CooldownWindow | controllers/postControllers.js:16-25 | after an accepted request, a second one from the same user is refused until the timer fires, and after that it is accepted again |
| PostController.Replace | controllers/postControllers.js:109 | the save replaces the row with that id, and only it |
| PostController.UpdatePost | controllers/postControllers.js:72-114 | a missing post, or a caller who is neither poster nor admin, is refused with nothing saved; otherwise the truthy fields overwrite the stored ones (tags parsed as on create, an uploaded image's path replacing the image), title and tags are re-trimmed, a failed image step is refused with its message, `edited` becomes true, and id, poster, counters and creation time stay |
| PostController.UpdateKeepsConsistent | controllers/postControllers.js:84-109 | an edit keeps the database consistent |
| PostController.RouteCreatePost | routes/posts.js:8-17 | a refused upload is 400 with nothing done; otherwise the author is the authenticated caller whatever the body claims, and consistency is kept |
| Badge.Initial | client/src/components/NotificationBadge.js:40-44 | the count starts at 0, with no flag and a closed dropdown |
| Badge.Step | client/src/components/NotificationBadge.js:47-116 | with the subscription made once per mount: a logged-out badge ignores every event; a socket notification adds one, raises the flag and arms a 3 s reset; a pushed or fetched count replaces the count; a failed fetch changes nothing; only a notification raises the flag and opening clears it; a count is fetched exactly on mount, poll and read callback; only the mount connects, and nothing tears the subscription down |
| Badge.ConnectsOnce | client/src/components/NotificationBadge.js:47-82 | with the subscription made once per mount, a mount opens one socket and one poll, and no later event reconnects or disconnects |
| Badge.Run | client/src/components/NotificationBadge.js:45-116 | a logged-out badge is never changed by any sequence of events |
| Badge.LastCountWins | client/src/components/NotificationBadge.js:70-72 | a pushed count overrides whatever increments came before |
| Badge.ArrivalsAdd | client/src/components/NotificationBadge.js:61-67 | k notifications in a row raise the count by exactly k and raise the flag |
| Badge.OpenSilencesFlag | client/src/components/NotificationBadge.js:101-105 | once cleared, the flag stays down until the next notification |
| Badge.OnSocket | client/src/components/NotificationBadge.js:61-72 | each server event becomes the matching badge event, carrying the pushed count |
| Badge.ReceivedCounts | client/src/components/NotificationBadge.js:61-72 | a notification followed by a pushed count leaves the badge at that count; a notification alone raises it by one |
| Badge.BadgeFollowsServer | controllers/notificationControllers.js:22-35 | a badge in agreement with the server stays in agreement through any `createNotification` whose pushes it receives; when the row was written but nothing was pushed it lags by one; the next fetch restores agreement |
| Badge.ConnectAsWritten | client/src/components/NotificationBadge.js:52-56 | connecting as written changes no room |
| Badge.AsWrittenMissesPushes | client/src/components/NotificationBadge.js:52-56 | a badge connected as written receives nothing pushed to any room |
| Badge.ConnectJoined | server.js:74-77 | connecting and then joining puts the socket in its user's room and changes no other room |
| Badge.JoinedReceivesPushes | server.js:74-77 | a joined badge receives every push made to its user's room |
| Badge.RenderAsWritten | client/src/components/NotificationBadge.js:45-82 | each render re-reads the login; the previous run is cleaned up (poll stopped, socket closed) exactly when it subscribed, and the effect connects and fetches again exactly when logged in |
| Badge.StepAsWritten | client/src/components/NotificationBadge.js:45-82 | as written, a mount, a stored socket or any event that changes the state re-renders and so re-subscribes; an event that changes nothing leaves the subscription alone |
| Badge.AsWrittenMountSubscribes | client/src/components/NotificationBadge.js:47-58 | as written, a logged-in mount subscribes and connects, which stores a socket |
| Badge.AsWrittenReconnectsForever | client/src/components/NotificationBadge.js:45-82 | as written, once subscribed, every stored socket leads to a disconnect, a fetch and a new connect, returning to the same state, so k turns request the cycle k times |
| Badge.TurnsStopEveryPoll | client/src/components/NotificationBadge.js:75-80 | in that loop every poll started is stopped by the very next request, before its 30 s elapse |
| Dropdown.MarkLocal | client/src/components/NotificationDropdown.js:121-127 | exactly the items with that id become read |
| Dropdown.MarkAllLocal | client/src/components/NotificationDropdown.js:148-150 | every item becomes read |
| Dropdown.MarkAllClearsCount | client/src/components/NotificationDropdown.js:148-150 | after mark-all the derived count is zero and the mark-all control hides |
| Dropdown.MarkLocalCount | client/src/components/NotificationDropdown.js:121-127 | marking one never raises the count and lowers it when a matching item was unread |
| Dropdown.MarkLocalSettled | client/src/components/NotificationDropdown.js:121-127 | marking an id with no unread item changes nothing, and marking twice is marking once |
| Dropdown.MarkOneRequest | routes/notifications.js:41 | the corrected request is PUT /{id}/read |
| Dropdown.Destination | client/src/components/NotificationDropdown.js:169-179 | like and comment go to the post; follow goes to the sender's profile, or throws when the sender is missing; other kinds stay put |
| Dropdown.TextQuotesTitle | client/src/components/NotificationDropdown.js:195-200 | a like or comment line names its post: the title it quotes can be read back from the line |
| Dropdown.AsWrittenText | client/src/components/NotificationDropdown.js:195-206 | as written, every like line reads `liked your post "undefined"` and every comment line `commented on your post "undefined"`; a mention line is empty |
| Dropdown.Step | client/src/components/NotificationDropdown.js:85-180 | opening fetches; a settled fetch replaces the list or keeps it and stops the spinner; a click always closes the popover and asks to mark the item iff it shows unread; a local mark and the badge refetch follow only a request that settled without throwing |
| Dropdown.LoadAsWritten | client/src/components/NotificationDropdown.js:163 | as written, every key the component reads beyond `_id` and `type` is missing from a stored row |
| Dropdown.Load | models/Notification.js:28-31 | the intended item shows unread iff the row is unread |
| Dropdown.AsWrittenAllUnread | client/src/components/NotificationDropdown.js:208 | as written, every fetched item counts as unread |
| Dropdown.AsWrittenCountsReadRow | client/src/components/NotificationDropdown.js:208 | as written, a single read row counts as one unread and offers mark-all; the corrected load counts zero |
| Dropdown.LoadedUnread | client/src/components/NotificationDropdown.js:208 | with the intended load, the derived count is the number of unread rows in the list |
| Dropdown.DropdownMatchesServer | routes/notifications.js:25-38 | for a user with at most 50 notifications, the dropdown's count equals the server's unread count |
| Dropdown.MarkOneRequestAsWritten | client/src/components/NotificationDropdown.js:114-115 | the client sends POST /{id}/read |
| Dropdown.AsWrittenMarksAreLost | client/src/components/NotificationDropdown.js:111-160 | as written, both mark requests are 404 on either router and the store is unchanged |
| Dropdown.MarkRequestsReachServer | routes/notifications.js:41-66 | with PUT, mark-one marks the caller's row and mark-all leaves the caller nothing unread |
| PostCard.Init | client/src/components/PostCard.js:108-114 | liked, saved and the count come from the post with `false`/`0` defaults; nothing is being edited, loaded or confirmed |
| PostCard.Merge | client/src/components/PostCard.js:196 | every key of the reply wins and every other key of the shown post is kept |
| PostCard.Step | client/src/components/PostCard.js:119-204 | without a user, like and save do nothing; otherwise like flips the flag, moves the count by one and sends; a throw writes back the captured flag; a delete is sent exactly on a click while armed and not loading; the author's first click arms it; only the author opens the editor; a 2xx edit merges and closes |
| PostCard.StepGuards | client/src/components/PostCard.js:116-134 | only a card passing the author check arms a delete or opens the editor, and no event changes the logged-in user or the poster |
| PostCard.AsWrittenNobodyIsAuthor | client/src/components/PostCard.js:115-116 | as written the author check fails on every card, including the author's own |
| PostCard.LikeRollsBack | client/src/components/PostCard.js:141-175 | a like or save whose request throws leaves the card as before the click |
| PostCard.LikeTwiceRestores | client/src/components/PostCard.js:145-146 | two successful like clicks restore the flag and the count |
| PostCard.DoubleFailureLeavesFlagFlipped | client/src/components/PostCard.js:154-157 | two rapid clicks whose requests both throw restore the count but leave the flag flipped |
| PostCard.TwoStepDelete | client/src/components/PostCard.js:119-134 | for the post's author by id, one click only arms; the second sends exactly one delete; a cancel in between means no delete |
| PostCard.OthersNeverDelete | client/src/components/PostCard.js:116-134 | a card whose author check fails never sends a delete and never opens its editor, whatever is clicked |
| PostCard.AsWrittenNeverDeletes | client/src/components/PostCard.js:116-250 | as written, no card ever sends a delete or opens its editor |
| PostCard.OptimisticLikeMatchesServer | client/src/components/PostCard.js:141-158 | if the card agreed with the database, after a like click it shows exactly the flag the endpoint answers and the counter it stores; as written a card agrees only for posts the user has not liked (see PostCard.AsWrittenLikeAgreesOnlyIfUnliked) |
| PostCard.AsWrittenLikeAgreesOnlyIfUnliked | client/src/components/PostCard.js:112-114 | given a post as the routes send it (no `isLiked`), a fresh card's click shows a filled heart, and it agrees with the endpoint's answer iff the user had not liked the post; otherwise it shows two more likes than the endpoint stores |
| PostCard.InformedLikeMatchesServer | client/src/components/PostCard.js:141-158 | given a post carrying the user's like state and the stored counter, a fresh card's click shows exactly what the endpoint answers and stores |

## Left out

- The network, timers and the socket transport are left out. Requests, timer arms and socket connections are effects; replies, timer firings and pushes are events. Ordering between concurrent handlers and between two in-flight requests is left out, except where a lemma fixes an order (`PostCard.DoubleFailureLeavesFlagFlipped`).
- Handlers that await several database calls are modelled as atomic. Interleaving with other requests is not modelled.
- Image resizing and saving with sharp, the uploads directory and the random file name are not modelled. Their outcome is a parameter: a path, or an error.
- `JSON.parse(tags)` is an oracle parameter: the list of strings it yields, or `None` when it throws. A JSON value that is not a list of strings is not modelled.
- Producer.CreateNotification: the populated payload (sender name, post title, comment text) is the stored row. The populate joins are not modelled, and neither is the `socketServer` module the function requires. Its absence is one of the `Fault` cases.
- The auth middleware is not part of this model. The caller is an authenticated id or absent. The controller router reads `req.user._id` and the inline router `req.user.id`; both are taken to be the same id.
- Ids are compared by value. The cooldown set keys whatever `userId` the body carried. An ObjectId key would compare by reference in a JavaScript `Set`; the auth middleware that supplies the id is outside this model.
- `updatedAt`, the `timestamps` bookkeeping, is not modelled. `createdAt` is a parameter. The text, sort and compound indexes on posts, users and notifications affect only performance, except the unique ones, which are modelled.
- The sort is one fixed newest-first order (`Sorting.SortDesc`, an insertion sort). The database may return rows with equal `createdAt` in any order. The sortedness and permutation clauses hold for every tie order, but the positional clauses of NotificationStore.GetUserNotifications, NotificationRoutes.ListRecent and PostRoutes.ListPosts (item i is element skip+i of the sorted rows) fix this one order among ties.
- Query strings are natural numbers. Non-numeric or negative `page` and `limit` values are not modelled.
- The user, search and follow endpoints are not part of this model. `UserModel` covers only the schema the other parts rely on.
- PostRoutes.DeletePost: the deleted post's likes and comments are not removed, because the handler does not remove them. The counter invariant concerns only posts that exist, so it still holds.
- The like endpoint is PostRoutes.ToggleLike. The client also calls POST /:id/save and PATCH /:id, which no router in routes/ binds. `PostCard` models the client's side of both. `updatePost` is not exported, so `PostController.UpdatePost` is modelled but unreachable from a route.
- `PostController.UpdatePost` trusts the body's `isAdmin` and `userId`, as the source does. The model states that trust rather than closing it.
- Server.js's catch-all `GET *` (server.js:94-96) is modelled only as the answer `AppPage` to a GET that no notification route matches; the file it sends, and its status when the build is missing, are not modelled.
- NotificationRoutes.Resolve: paths are given as segments with no trailing slash. Express's non-strict routing also accepts a trailing slash (`/read-all/`), and it decodes percent-escapes in parameters; neither is modelled.
- NotificationRoutes: `routes/notifications.js` is two versions of one router written one after the other. As a single CommonJS module it does not load: `express` and `router` are declared with `const` twice (lines 1-2 and 19-20), a SyntaxError when server.js requires it at line 67, so as written no notification endpoint is served at all. Had the first declarations been removed, the second `module.exports` (line 68) would win and only the inline version would be served. The model keeps each version as a route table of its own (`NotificationRoutes.ControllerRoutes`, `NotificationRoutes.InlineRoutes`) and states every router contract per table. The inline version passes the whole `auth` module as middleware (lines 22, 25); the model takes it to be the authenticating function. With the controller version, GET / answers an object, not an array; the dropdown stores it and calls `.filter` on it while rendering (client/src/components/NotificationDropdown.js:102, 208), which throws. The dropdown is modelled against the inline version's bare array.
- Malformed ids: an id that is not a valid ObjectId makes Mongoose throw a CastError, and every handler's `catch` answers 500. This concerns `findById` (routes/posts.js:64, 99; routes/comments.js:34, 68), `findOneAndDelete` (controllers/notificationControllers.js:117), `findOneAndUpdate` (routes/notifications.js:43) and the `$in` list of mark-read (controllers/notificationControllers.js:78). The model treats every id as well-formed: a missing one is 404, `CommentNotFound` or a no-op success, never 500.
- UserModel.Create: `lowercase: true` lower-cases the email with JavaScript's full Unicode `toLowerCase`; the model lower-cases ASCII letters only (`Text.ToLower`), so an email with a non-ASCII capital (`É@x.com`) is stored and compared unchanged where the source would lower-case it.
- UserModel.Register: the uniqueness of emails is checked on the ASCII-only normal form, so two emails that differ only in a non-ASCII capital count as different here, though the source's unique index would see one address.
- UserModel.Check: a failed check names only the first failing field, in schema order. A Mongoose `ValidationError` lists every failing path, joined with ", ", so a draft with a blank username and a blank email is reported with both messages by the source and with the username's alone here. The pass-or-fail verdict is exact.
- PostModel.CheckText: as UserModel.Check, only the first failing path is named, so the 400 of `createPost` (through PostModel.Create) carries one message where the source's may carry two.
- CommentModel.Create: as UserModel.Check, only the first failing path is named, which reaches the client as the 500 of POST /api/comments.
- NotificationModel.Create: as UserModel.Check, only the first failing path is named.
- Lengths: `maxlength` and `minlength` count UTF-16 code units (`Text.Utf16Length`), as JavaScript's `length` does. Unpaired surrogates cannot occur in a Dafny string and are not modelled.
- Dropdown.Destination: the two navigation cases are stated one way only (the kind determines the path); the converse, that a path of that shape comes only from that kind, is not stated.
- Dropdown: the icon choice and the layout are not modelled, nor is `fromUser` beyond its `username`.
- Badge: the hover animation is not modelled. The as-written loop (`Badge.StepAsWritten`) tracks subscriptions and requests only; how fetch replies interleave with the loop is not modelled. Unmounting is not modelled: an unmounted badge simply receives no more events.

## Findings

| source | as written | input that shows it | evidently intended | confidence | as-written member | corrected member |
|---|---|---|---|---|---|---|
| client/src/components/NotificationDropdown.js:163 | the dropdown reads `isRead`, but stored rows carry `read` (models/Notification.js:28-31), so every fetched item shows as unread | a user with one notification, already read: the header says "1 unread" and offers mark-all | read the row's `read` flag | not executed | Dropdown.AsWrittenCountsReadRow | Dropdown.DropdownMatchesServer |
| client/src/components/NotificationDropdown.js:114-115 | mark-one (lines 114-115) and mark-all (lines 141-142) are sent with POST, but the routes are PUT (routes/notifications.js:41, 55), so both are 404 while the client still marks the items locally | clicking any unread item, or mark-all, for any user: the store is unchanged | send PUT | not executed | Dropdown.AsWrittenMarksAreLost | Dropdown.MarkRequestsReachServer |
| client/src/components/NotificationBadge.js:52-56 | the badge connects but never emits `join`, and the server only adds a socket to a room on `join` (server.js:74-77), so no push reaches it | a freshly connected badge and any `createNotification` for its user: the socket receives nothing | emit `join` with the user's id after connecting | not executed | Badge.AsWrittenMissesPushes | Badge.JoinedReceivesPushes |
| client/src/components/NotificationBadge.js:45-82 | `user = isLoggedIn()` is a fresh `{ id }` object on every render (client/src/helpers/authHelper.js:12) and is the effect's only dependency, so every render cleans up (clears the poll, disconnects) and subscribes again; `setSocket(newSocket)` renders once more, so the badge loops through disconnect, fetch and connect without end and the 30 s poll never fires | any logged-in mount: the first render connects, storing that socket renders, and the render disconnects it and connects a new one, forever | subscribe once per logged-in user (depend on the user's id, not on a new object) | not executed | Badge.AsWrittenReconnectsForever | Badge.ConnectsOnce |
| client/src/components/PostCard.js:112 | the card's `liked` starts from `post.isLiked`, but no route sends it: the listing and single-post routes answer stored posts (routes/posts.js:25-31, 41-48), so every card starts unliked; for a post the user already liked, a click shows a filled heart and one more like while the endpoint unlikes and stores one fewer, and the card never reads the reply | a user who liked a post reloads the feed and clicks its heart | send the user's like state with each post (or set the card from the endpoint's `liked` reply) | not executed | PostCard.AsWrittenLikeAgreesOnlyIfUnliked | PostCard.InformedLikeMatchesServer |
| client/src/components/PostCard.js:115-116 | `isAuthor` compares `user.username` with the poster's username, but `isLoggedIn()` returns `{ id }` only, so the check is `undefined === name` and fails on every card; the edit and delete controls (lines 237-250) never render | the post's own author viewing it: no edit or delete button appears | compare the logged-in id with the poster's id | not executed | PostCard.AsWrittenNeverDeletes | PostCard.TwoStepDelete |

Other behaviour the model makes explicit:

- The badge fetches `/unread-count`, which only the controller router binds. The dropdown expects a bare array from GET /, which only the inline router returns.
- The dropdown reads `postId`, `fromUser`, `postTitle` and `message`. A stored row carries `post`, `sender` and `content` instead.
- Two rapid like clicks whose requests both throw leave the heart flipped with the count restored (`PostCard.DoubleFailureLeavesFlagFlipped`).
- The `join` handler trusts whatever user id the client sends.
- An image outside the filter is a 400 on the create route, but would be a 500 at the application-wide error handler (`Upload.NonImageStatus`).

=== FILE: badge.dfy ===
/** The notification bell: an unread counter kept in step with the server by
    an initial fetch, a 30-second poll, and two socket events, plus a
    three-second "new" flag and the open/closed state of its dropdown. The
    component is a pure state machine here; fetches, timers and the socket are
    effects it requests and events it is fed. */
module Badge {
  import opened Common
  import opened NotificationStore
  import Rooms
  import NotificationModel
  import opened Producer

  /** `setInterval(fetchUnreadCount, 30000)`. */
  const PollIntervalMs: nat := 30000

  /** `setTimeout(() => setHasNewNotification(false), 3000)`. */
  const FlagResetMs: nat := 3000

  /** The component's state. `loggedIn` is what `isLoggedIn()` returned when
      it rendered; `count` starts at 0 and nothing else is shown until the
      first fetch or event arrives. */
  datatype State = State(loggedIn: bool, count: nat, hasNew: bool, open: bool)

  function Initial(loggedIn: bool): (s: State)
    ensures s.count == 0 && !s.hasNew && !s.open
  {
    State(loggedIn, 0, false, false)
  }

  /** What can happen to the badge: it mounts; a socket event arrives; a
      count fetch answers (`None` when the response was not ok or the request
      threw); the poll or the flag timer fires; the bell is clicked; the
      dropdown is closed; the dropdown reports that something was marked
      read; the socket just opened is stored with `setSocket`. */
  datatype Event =
    | Mount
    | NewNotification
    | CountUpdate(count: nat)
    | FetchReply(reply: Option<nat>)
    | PollTick
    | FlagTimeout
    | Open
    | Close
    | ReadCallback
    | SocketStored

  /** What the badge asks its environment to do: GET the unread count, open
      the socket, start the poll, arm the flag timer; and, in the effect's
      clean-up, stop the poll and close the socket. */
  datatype Effect = FetchUnreadCount | Connect | StartPoll(ms: nat) | ArmFlagReset(ms: nat) | StopPoll | Disconnect

  /** The count fetch is requested on mount, on every poll tick and whenever
      the dropdown reports a read. */
  predicate Refetches(e: Event) {
    e == Mount || e == PollTick || e == ReadCallback
  }

  /** One event, with the subscription made once per mount (an effect whose
      dependency stays the same while the same user is logged in). A
      logged-out badge renders nothing and subscribes to nothing, so no event
      changes it and it requests nothing. */
  function Step(s: State, e: Event): (r: (State, seq<Effect>))
    ensures !s.loggedIn ==> r == (s, [])
    ensures r.0.loggedIn == s.loggedIn
    ensures s.loggedIn && e == NewNotification ==>
      r.0.count == s.count + 1 && r.0.hasNew && r.1 == [ArmFlagReset(FlagResetMs)]
    ensures s.loggedIn && e.CountUpdate? ==> r.0.count == e.count
    ensures s.loggedIn && e.FetchReply? ==> r.0.count == e.reply.GetOr(s.count)
    ensures e.FetchReply? && e.reply.None? ==> r.0 == s
    // only the new-notification event raises the flag; the timer and a click clear it
    ensures r.0.hasNew && !s.hasNew ==> s.loggedIn && e == NewNotification
    ensures s.loggedIn && (e == FlagTimeout || e == Open) ==> !r.0.hasNew
    ensures s.loggedIn && e == Open ==> r.0.open && r.0.count == s.count
    ensures s.loggedIn && e == Close ==> !r.0.open && r.0.count == s.count && r.0.hasNew == s.hasNew
    // the count moves only on a socket event or a fetch reply
    ensures r.0.count != s.count ==> e == NewNotification || e.CountUpdate? || e.FetchReply?
    ensures FetchUnreadCount in r.1 <==> s.loggedIn && Refetches(e)
    ensures s.loggedIn && e == Mount ==> r.1 == [FetchUnreadCount, Connect, StartPoll(PollIntervalMs)]
    ensures Connect in r.1 <==> s.loggedIn && e == Mount
    ensures StopPoll !in r.1 && Disconnect !in r.1
  {
    if !s.loggedIn then (s, [])
    else match e
      case Mount => (s, [FetchUnreadCount, Connect, StartPoll(PollIntervalMs)])
      case NewNotification => (s.(count := s.count + 1, hasNew := true), [ArmFlagReset(FlagResetMs)])
      case CountUpdate(c) => (s.(count := c), [])
      case FetchReply(reply) =>
        (match reply
         case Some(c) => (s.(count := c), [])
         case None => (s, []))
      case PollTick => (s, [FetchUnreadCount])
      case FlagTimeout => (s.(hasNew := false), [])
      case Open => (s.(open := true, hasNew := false), [])
      case Close => (s.(open := false), [])
      case ReadCallback => (s, [FetchUnreadCount])
      case SocketStored => (s, [])
  }

  /** The state after a sequence of events, in order. */
  function Run(s: State, es: seq<Event>): (r: State)
    ensures r.loggedIn == s.loggedIn
    ensures !s.loggedIn ==> r == s
    decreases |es|
  {
    if |es| == 0 then s else Run(Step(s, es[0]).0, es[1..])
  }

  /** Every effect requested along a sequence of events, in order. */
  function Requests(s: State, es: seq<Event>): (r: seq<Effect>)
    ensures !s.loggedIn ==> r == []
    decreases |es|
  {
    if |es| == 0 then []
    else
      var step := Step(s, es[0]);
      step.1 + Requests(step.0, es[1..])
  }

  /** With the one-shot effect, a mount opens exactly one socket and starts
      exactly one poll: no later event that is not a mount connects again or
      tears the subscription down. */
  lemma {:induction false} ConnectsOnce(s: State, es: seq<Event>)
    requires forall i :: 0 <= i < |es| ==> es[i] != Mount
    ensures Connect !in Requests(s, es) && Disconnect !in Requests(s, es) && StopPoll !in Requests(s, es)
    ensures s.loggedIn ==>
      Requests(s, [Mount] + es) == [FetchUnreadCount, Connect, StartPoll(PollIntervalMs)] + Requests(s, es)
    decreases |es|
  {
    if |es| > 0 {
      ConnectsOnce(Step(s, es[0]).0, es[1..]);
    }
    assert ([Mount] + es)[1..] == es;
  }

  /** Running a sequence and then one more event is one more step. */
  lemma {:induction false} RunSnoc(s: State, es: seq<Event>, e: Event)
    ensures Run(s, es + [e]) == Step(Run(s, es), e).0
    decreases |es|
  {
    if |es| > 0 {
      assert (es + [e])[1..] == es[1..] + [e];
      RunSnoc(Step(s, es[0]).0, es[1..], e);
    }
  }

  /** A count pushed by the server replaces whatever the badge had counted
      before, however many increments came first. */
  lemma LastCountWins(s: State, es: seq<Event>, c: nat)
    requires s.loggedIn
    ensures Run(s, es + [CountUpdate(c)]).count == c
  {
    RunSnoc(s, es, CountUpdate(c));
  }

  /** `k` new-notification events in a row raise the count by exactly `k`. */
  function Arrivals(k: nat): (es: seq<Event>)
    ensures |es| == k && forall i :: 0 <= i < k ==> es[i] == NewNotification
  {
    if k == 0 then [] else [NewNotification] + Arrivals(k - 1)
  }

  lemma {:induction false} ArrivalsAdd(s: State, k: nat)
    requires s.loggedIn
    ensures Run(s, Arrivals(k)).count == s.count + k
    ensures k > 0 ==> Run(s, Arrivals(k)).hasNew
    decreases k
  {
    if k > 0 {
      var es := Arrivals(k);
      assert es[0] == NewNotification && es[1..] == Arrivals(k - 1);
      var t := Step(s, NewNotification).0;
      ArrivalsAdd(t, k - 1);
      if k - 1 == 0 {
        assert Run(t, Arrivals(0)) == t;
      }
    }
  }

  /** Once the bell is clicked, the "new" flag stays down until the next
      new-notification event. */
  lemma {:induction false} OpenSilencesFlag(s: State, es: seq<Event>)
    requires s.loggedIn && !s.hasNew
    requires forall i :: 0 <= i < |es| ==> es[i] != NewNotification
    ensures !Run(s, es).hasNew
    decreases |es|
  {
    if |es| > 0 {
      OpenSilencesFlag(Step(s, es[0]).0, es[1..]);
    }
  }

  /** The badge's view of a server push. */
  function OnSocket(e: Rooms.Event): (r: Event)
    ensures e.NewNotification? <==> r == NewNotification
    ensures e.UnreadCountUpdate? ==> r == CountUpdate(e.count)
  {
    match e
    case NewNotification(_) => NewNotification
    case UnreadCountUpdate(c) => CountUpdate(c)
  }

  /** The events a sequence of pushes delivers to one socket in the room. */
  function Received(ps: seq<Rooms.Push>): (es: seq<Event>)
    ensures |es| == |ps| && forall i :: 0 <= i < |ps| ==> es[i] == OnSocket(ps[i].event)
  {
    if |ps| == 0 then [] else [OnSocket(ps[0].event)] + Received(ps[1..])
  }

  /** A badge whose count agrees with the server stays in agreement through
      any `createNotification` for its user, provided it receives the pushes:
      on success the pushed count lands last, and when only the count query
      failed the increment alone is exact. When the row was written but
      nothing was pushed the badge lags by one until its next fetch answers. */
  lemma BadgeFollowsServer(b: State, s: Store, recipient: Id, sender: Id, kind: string, post: Option<Id>,
                           comment: Option<Id>, content: Option<string>, id: Id, now: nat, fault: Fault)
    requires id !in Ids(s)
    requires b.loggedIn && b.count == Unread(s, recipient)
    ensures var o := CreateNotification(s, recipient, sender, kind, post, comment, content, id, now, fault);
            var after := Run(b, Received(o.pushes));
            && (fault in {NoFault, CountFails, CreateFails} ==> after.count == Unread(o.store, recipient))
            && (o.store != s && fault in {EmitterMissing, PopulateFails} ==>
                  after.count + 1 == Unread(o.store, recipient))
            && Run(after, [FetchReply(Some(Unread(o.store, recipient)))]).count == Unread(o.store, recipient)
  {
    var o := CreateNotification(s, recipient, sender, kind, post, comment, content, id, now, fault);
    var c := Unread(o.store, recipient);
    if o.result.Some? {
      ReceivedCounts(b, o.pushes, o.result.value, recipient, c);
    } else if fault == CountFails && o.store != s {
      ReceivedCounts(b, o.pushes, o.store[|s|], recipient, c);
    } else {
      assert o.pushes == [] by {
        if fault == NoFault || fault == CountFails {
          assert o.store == s;
        }
      }
      assert Received(o.pushes) == [];
    }
    var after := Run(b, Received(o.pushes));
    assert Run(after, [FetchReply(Some(c))]) == Step(after, FetchReply(Some(c))).0;
  }

  /** The two push shapes `createNotification` produces, as the badge sees
      them: the notification and then the count leave it at that count; the
      notification alone raises it by one. */
  lemma ReceivedCounts(b: State, ps: seq<Rooms.Push>, n: NotificationModel.Notification, room: Id, c: nat)
    requires b.loggedIn
    ensures ps == [Rooms.Push(room, Rooms.NewNotification(n)), Rooms.Push(room, Rooms.UnreadCountUpdate(c))] ==>
      Run(b, Received(ps)).count == c
    ensures ps == [Rooms.Push(room, Rooms.NewNotification(n))] ==> Run(b, Received(ps)).count == b.count + 1
  {
    if ps == [Rooms.Push(room, Rooms.NewNotification(n)), Rooms.Push(room, Rooms.UnreadCountUpdate(c))] {
      assert Received(ps) == [NewNotification, CountUpdate(c)];
      LastCountWins(b, [NewNotification], c);
    } else if ps == [Rooms.Push(room, Rooms.NewNotification(n))] {
      assert Received(ps) == Arrivals(1);
      ArrivalsAdd(b, 1);
    }
  }


  /** The badge's socket as the client is written: it connects (with a token
      the server never reads) and sends nothing, so the server's rooms are as
      they were and the socket is in none of them. */
  function ConnectAsWritten(reg: Rooms.Registry, socket: Rooms.SocketId, user: Id): (r: Rooms.Registry)
    ensures forall room :: Rooms.Members(r, room) == Rooms.Members(reg, room)
  {
    reg
  }

  /** As written, a freshly connected badge never receives anything pushed to
      its user's room (or any room): only the initial fetch and the poll move
      its count. */
  lemma {:induction false} AsWrittenMissesPushes(reg: Rooms.Registry, socket: Rooms.SocketId, user: Id, ps: seq<Rooms.Push>)
    requires forall room :: socket !in Rooms.Members(reg, room)
    ensures forall d :: d in Rooms.AllDeliveries(ConnectAsWritten(reg, socket, user), ps) ==> d.socket != socket
    decreases |ps|
  {
    if |ps| > 0 {
      AsWrittenMissesPushes(reg, socket, user, ps[1..]);
    }
  }

  /** The evidently intended connection: once connected, the socket sends
      `join` with the user's id and so enters that user's room. */
  function ConnectJoined(reg: Rooms.Registry, socket: Rooms.SocketId, user: Id): (r: Rooms.Registry)
    ensures Rooms.Members(r, user) == Rooms.Members(reg, user) + {socket}
    ensures forall room :: room != user ==> Rooms.Members(r, room) == Rooms.Members(reg, room)
  {
    Rooms.Join(reg, socket, user)
  }

  /** A joined badge receives every push made to its user's room, so the
      events `BadgeFollowsServer` feeds it do arrive. */
  lemma {:induction false} JoinedReceivesPushes(reg: Rooms.Registry, socket: Rooms.SocketId, user: Id, ps: seq<Rooms.Push>)
    requires forall i :: 0 <= i < |ps| ==> ps[i].room == user
    ensures forall i :: 0 <= i < |ps| ==>
      Rooms.Delivery(socket, ps[i].event) in Rooms.AllDeliveries(ConnectJoined(reg, socket, user), ps)
    decreases |ps|
  {
    if |ps| > 0 {
      JoinedReceivesPushes(reg, socket, user, ps[1..]);
      var r := ConnectJoined(reg, socket, user);
      forall i | 0 <= i < |ps|
        ensures Rooms.Delivery(socket, ps[i].event) in Rooms.AllDeliveries(r, ps)
      {
        if i > 0 {
          assert ps[1..][i - 1] == ps[i];
        }
      }
    }
  }

  /** The mounted component as written: its state and whether the last run
      of the effect subscribed (and so left a clean-up behind). */
  datatype Mounted = Mounted(state: State, subscribed: bool)

  /** One render as written. `user` is what `isLoggedIn()` returns at this
      render; it is a fresh object every time, so the effect's one dependency
      always differs from the last render's and React runs the previous
      clean-up (stop the poll, close the socket) and then the effect again. */
  function RenderAsWritten(m: Mounted, user: bool): (r: (Mounted, seq<Effect>))
    ensures r.0.state == m.state.(loggedIn := user) && r.0.subscribed == user
    ensures Connect in r.1 <==> user
    ensures FetchUnreadCount in r.1 <==> user
    ensures Disconnect in r.1 <==> m.subscribed
    ensures m.subscribed ==> |r.1| >= 2 && r.1[..2] == [StopPoll, Disconnect]
  {
    var cleanup := if m.subscribed then [StopPoll, Disconnect] else [];
    var run := if user then [FetchUnreadCount, Connect, StartPoll(PollIntervalMs)] else [];
    assert (cleanup + run)[..|cleanup|] == cleanup;
    (Mounted(m.state.(loggedIn := user), user), cleanup + run)
  }

  /** One event as written: the handler's update as in `Step`, then a render
      whenever that update changed the state. Mounting renders, and storing
      the new socket always changes the state (a new object), so it renders
      too. */
  function StepAsWritten(m: Mounted, e: Event, user: bool): (r: (Mounted, seq<Effect>))
    ensures (e == Mount || e == SocketStored || Step(m.state, e).0 != m.state) ==>
      (Connect in r.1 <==> user) && (Disconnect in r.1 <==> m.subscribed) && r.0.subscribed == user
    ensures !(e == Mount || e == SocketStored || Step(m.state, e).0 != m.state) ==>
      r.0 == m && Connect !in r.1 && Disconnect !in r.1
  {
    var step := Step(m.state, e);
    if e == Mount then RenderAsWritten(m, user)
    else if step.0 != m.state || e == SocketStored then
      var render := RenderAsWritten(m.(state := step.0), user);
      (render.0, step.1 + render.1)
    else (m.(state := step.0), step.1)
  }

  /** The requests one turn of the as-written loop makes: tear down the last
      subscription and make a new one. */
  const Resubscribe: seq<Effect> := [StopPoll, Disconnect, FetchUnreadCount, Connect, StartPoll(PollIntervalMs)]

  /** `k` turns of the loop. */
  function Turns(k: nat): (r: seq<Effect>)
    ensures |r| == 5 * k
  {
    if k == 0 then [] else Resubscribe + Turns(k - 1)
  }

  /** The state and requests after `k` socket-stored events, each of which the
      previous turn's `Connect` causes. */
  function StoredAsWritten(m: Mounted, k: nat, user: bool): (r: (Mounted, seq<Effect>))
    decreases k
  {
    if k == 0 then (m, [])
    else
      var first := StepAsWritten(m, SocketStored, user);
      var rest := StoredAsWritten(first.0, k - 1, user);
      (rest.0, first.1 + rest.1)
  }

  /** As written the badge never settles: once subscribed, storing the socket
      renders, the render disconnects and connects again, and that `Connect`
      stores another socket. Every turn fetches the count, so `k` turns make
      `k` fetches, and every poll is stopped by the next turn before its 30
      seconds can pass. */
  lemma {:induction false} AsWrittenReconnectsForever(m: Mounted, k: nat)
    requires m.subscribed && m.state.loggedIn
    ensures StoredAsWritten(m, k, true) == (m, Turns(k))
    decreases k
  {
    if k > 0 {
      var step := Step(m.state, SocketStored);
      assert step == (m.state, []);
      assert m.state.(loggedIn := true) == m.state;
      assert m.(state := m.state) == m && Mounted(m.state, true) == m;
      assert [] + ([StopPoll, Disconnect] + [FetchUnreadCount, Connect, StartPoll(PollIntervalMs)]) == Resubscribe;
      assert StepAsWritten(m, SocketStored, true) == (m, Resubscribe);
      AsWrittenReconnectsForever(m, k - 1);
    }
  }

  /** The loop starts at mount: a logged-in first render subscribes, and its
      `Connect` is what stores the first socket. */
  lemma AsWrittenMountSubscribes(loggedIn: bool)
    ensures var r := StepAsWritten(Mounted(Initial(loggedIn), false), Mount, true);
            r.0.subscribed && r.0.state.loggedIn && Connect in r.1
  {
  }

  /** In the loop every poll that is started is stopped by the next request. */
  lemma {:induction false} TurnsStopEveryPoll(k: nat)
    ensures forall i :: 0 <= i < |Turns(k)| - 1 && Turns(k)[i].StartPoll? ==> Turns(k)[i + 1] == StopPoll
    decreases k
  {
    if k > 0 {
      TurnsStopEveryPoll(k - 1);
      var t := Turns(k);
      forall i | 0 <= i < |t| - 1 && t[i].StartPoll? ensures t[i + 1] == StopPoll {
        if i >= 5 {
          assert t[i] == Turns(k - 1)[i - 5] && t[i + 1] == Turns(k - 1)[i - 4];
        } else {
          assert i == 4;
        }
      }
    }
  }
}

=== FILE: comment_model.dfy ===
/** The comment document and the comment collection's queries. */
module CommentModel {
  import opened Common
  import opened Text

  const ContentMaxLength: nat := 500

  datatype Comment = Comment(
    id: Id,
    content: string,
    post: Id,
    author: Id,
    edited: bool,
    createdAt: nat)

  /** What the schema guarantees of every stored comment. */
  predicate Valid(c: Comment) {
    c.content == Trim(c.content) && 0 < Utf16Length(c.content) <= ContentMaxLength
  }

  /** The fields handed to `Comment.create`; absent fields are `None`. */
  datatype Draft = Draft(content: Option<string>, post: Option<Id>, author: Option<Id>)

  /** Schema validation and defaults: content is trimmed, required and at most
      500 UTF-16 code units; post and author are required; `edited` starts false. */
  function Create(d: Draft, id: Id, now: nat): (r: Result<Comment>)
    ensures r.Ok? <==>
      && d.content.Some? && d.post.Some? && d.author.Some?
      && 0 < Utf16Length(Trim(d.content.value)) <= ContentMaxLength
    ensures r.Ok? ==>
      && Valid(r.value)
      && r.value.id == id
      && r.value.content == Trim(d.content.value)
      && Some(r.value.post) == d.post
      && Some(r.value.author) == d.author
      && !r.value.edited
      && r.value.createdAt == now
  {
    if d.content.None? || |Trim(d.content.value)| == 0 then
      Err("comment validation failed: content: Path `content` is required.")
    else if Utf16Length(Trim(d.content.value)) > ContentMaxLength then
      Err("comment validation failed: content: longer than the maximum allowed length (500).")
    else if d.post.None? then Err("comment validation failed: post: Path `post` is required.")
    else if d.author.None? then Err("comment validation failed: author: Path `author` is required.")
    else
      TrimIdempotent(d.content.value);
      Ok(Comment(id, Trim(d.content.value), d.post.value, d.author.value, false, now))
  }

  /** The ids present in the collection. */
  function Ids(cs: seq<Comment>): set<Id> {
    if |cs| == 0 then {} else {cs[0].id} + Ids(cs[1..])
  }

  /** `Comment.findById(id)`. */
  function Find(cs: seq<Comment>, id: Id): (r: Option<Comment>)
    ensures r.Some? <==> id in Ids(cs)
    ensures r.Some? ==> r.value.id == id && r.value in cs
  {
    if |cs| == 0 then None
    else if cs[0].id == id then Some(cs[0])
    else Find(cs[1..], id)
  }

  /** `c => c.id == id`. */
  function IdIs(id: Id): Comment -> bool {
    (c: Comment) => c.id == id
  }

  /** `Comment.findByIdAndDelete(id)`: drops the first row with that id. */
  function RemoveId(cs: seq<Comment>, id: Id): (r: seq<Comment>)
    ensures |r| == if id in Ids(cs) then |cs| - 1 else |cs|
    ensures id !in Ids(cs) ==> r == cs
    ensures var k := Position(cs, IdIs(id)); k < |cs| ==> r == cs[..k] + cs[k + 1..]
  {
    if |cs| == 0 then []
    else if cs[0].id == id then
      assert cs[..0] + cs[1..] == cs[1..];
      cs[1..]
    else
      var t, rest := cs[1..], RemoveId(cs[1..], id);
      var k := Position(t, IdIs(id));
      DropAfterHead(cs, k);
      [cs[0]] + rest
  }


  /** Appending a row adds exactly its id. */
  lemma {:induction false} IdsAppend(cs: seq<Comment>, c: Comment)
    ensures Ids(cs + [c]) == Ids(cs) + {c.id}
  {
    if |cs| > 0 {
      assert (cs + [c])[1..] == cs[1..] + [c];
      IdsAppend(cs[1..], c);
    }
  }

  /** Removing the row just appended under a fresh id restores the
      collection. */
  lemma {:induction false} RemoveAppended(cs: seq<Comment>, c: Comment)
    requires c.id !in Ids(cs)
    ensures RemoveId(cs + [c], c.id) == cs
  {
    if |cs| > 0 {
      assert (cs + [c])[1..] == cs[1..] + [c];
      RemoveAppended(cs[1..], c);
    }
  }

  /** `c => c.post == post`: rows about one post. */
  function OnPost(post: Id): Comment -> bool {
    (c: Comment) => c.post == post
  }

  /** How many comments a post has, as the comment collection records it. */
  function CountOn(cs: seq<Comment>, post: Id): nat {
    |Filter(cs, OnPost(post))|
  }


  /** Removing the comment `Find` returns takes one off its post's count only. */
  lemma {:induction false} CountRemove(cs: seq<Comment>, id: Id, q: Id)
    requires id in Ids(cs)
    ensures CountOn(RemoveId(cs, id), q) == CountOn(cs, q) - (if Find(cs, id).value.post == q then 1 else 0)
  {
    assert cs == [cs[0]] + cs[1..];
    FilterAppend([cs[0]], cs[1..], OnPost(q));
    if cs[0].id != id {
      CountRemove(cs[1..], id, q);
      FilterAppend([cs[0]], RemoveId(cs[1..], id), OnPost(q));
    }
  }
}

=== FILE: comment_routes.dfy ===
/** The comment endpoints: listing a post's comments, creating a comment
    (which bumps the post's counter and notifies its poster), and deleting
    one's own comment. */
module CommentRoutes {
  import opened Common
  import opened Sorting
  import opened Text
  import PostModel
  import LikeModel
  import opened CommentModel
  import NotificationStore
  import Rooms
  import opened Database
  import opened Producer

  /** The sort key of the listing. */
  function CommentCreatedAt(c: Comment): int {
    c.createdAt
  }

  /** GET /post/:postId: the post's comments, newest first. */
  function ListComments(comments: seq<Comment>, postId: Id): (r: seq<Comment>)
    ensures forall i :: 0 <= i < |r| ==> r[i].post == postId
    ensures SortedDesc(r, CommentCreatedAt)
    ensures multiset(r) == multiset(Filter(comments, OnPost(postId)))
    ensures |r| == CountOn(comments, postId)
  {
    var rows := Filter(comments, OnPost(postId));
    var r := SortDesc(rows, CommentCreatedAt);
    forall i | 0 <= i < |r| ensures r[i].post == postId {
      assert r[i] in multiset(rows);
    }
    r
  }

  /** In a consistent database, a post's listing is as long as its counter
      says. */
  lemma ListingMatchesCounter(db: Db, postId: Id)
    requires Consistent(db)
    requires FindPost(db.posts, postId).Some?
    ensures |ListComments(db.comments, postId)| == FindPost(db.posts, postId).value.commentCount
  {
    var p := FindPost(db.posts, postId).value;
    var i :| 0 <= i < |db.posts| && db.posts[i] == p;
  }

  /** Replies of POST /. */
  datatype CreateReply =
    | MissingFields        // 400 "Content and post ID are required"
    | CreatePostNotFound   // 404 "Post not found"
    | Invalid(message: string)  // 500, the schema's validation error
    | Created(comment: Comment) // 201

  /** POST /: the comment's content and post id must be truthy (400) and the
      post must exist (404); the schema then validates the content (500 when
      it is blank after trimming or too long). On success exactly one comment
      is added with the caller as author, the post's comment counter rises by
      one, and the poster is notified unless they commented on their own
      post. `cid`, `nid` and `now` are what the database assigns to new rows;
      `fault` is where `createNotification` fails, if it does. */
  function CreateComment(db: Db, content: Option<string>, postId: Option<Id>, user: Id,
                         cid: Id, nid: Id, now: nat, fault: Fault): (r: (Db, CreateReply, seq<Rooms.Push>))
    requires cid !in Ids(db.comments)
    requires nid !in NotificationStore.Ids(db.notifications)
    ensures !(Truthy(content) && Truthy(postId)) ==> r == (db, MissingFields, [])
    ensures Truthy(content) && Truthy(postId) && FindPost(db.posts, postId.value).None? ==> r == (db, CreatePostNotFound, [])
    ensures r.1.Invalid? ==> r.0 == db && r.2 == []
    ensures r.1.Invalid? <==> Truthy(content) && Truthy(postId) && FindPost(db.posts, postId.value).Some?
                              && !(0 < Utf16Length(Trim(content.value)) <= ContentMaxLength)
    ensures r.0.likes == db.likes
    ensures r.1.Created? ==>
      && r.0.comments == db.comments + [r.1.comment]
      && r.1.comment.id == cid && r.1.comment.author == user && Some(r.1.comment.post) == postId
      && r.1.comment.content == Trim(content.value) && Valid(r.1.comment)
      && r.0.posts == Adjust(db.posts, postId.value, 0, 1)
    ensures r.1.Created? ==>
      var poster := FindPost(db.posts, postId.value).value.poster;
      var o := CreateNotification(db.notifications, poster, user, "comment", postId, Some(cid), None, nid, now, fault);
      if poster != user then (r.0.notifications, r.2) == (o.store, o.pushes)
      else r.0.notifications == db.notifications && r.2 == []
    ensures Consistent(db) ==> Consistent(r.0)
  {
    if !(Truthy(content) && Truthy(postId)) then (db, MissingFields, [])
    else match FindPost(db.posts, postId.value)
      case None => (db, CreatePostNotFound, [])
      case Some(post) =>
        match CommentModel.Create(Draft(content, postId, Some(user)), cid, now)
        case Err(msg) => (db, Invalid(msg), [])
        case Ok(c) =>
          var o := if post.poster != user
                   then CreateNotification(db.notifications, post.poster, user, "comment", postId, Some(cid), None, nid, now, fault)
                   else Outcome(db.notifications, None, []);
          var db' := db.(comments := db.comments + [c], posts := Adjust(db.posts, c.post, 0, 1));
          assert Consistent(db) ==> Consistent(db') by {
            if Consistent(db) {
              AppendCommentConsistent(db, c);
            }
          }
          (db'.(notifications := o.store), Created(c), o.pushes)
  }

  /** Appending a comment and raising its post's counter by one keeps the
      database consistent. */
  lemma AppendCommentConsistent(db: Db, c: Comment)
    requires Consistent(db)
    ensures Consistent(db.(comments := db.comments + [c], posts := Adjust(db.posts, c.post, 0, 1)))
  {
    var comments := db.comments + [c];
    forall q ensures CountOn(comments, q) == CountOn(db.comments, q) + (if q == c.post then 1 else 0) {
      FilterSnoc(db.comments, c, OnPost(q));
    }
    AdjustKeepsAgreement(db.posts, db.likes, db.comments, db.likes, comments, c.post, 0, 1);
  }

  /** Replies of DELETE /:id. */
  datatype DeleteReply = CommentNotFound | NotAuthorized | CommentDeleted

  /** DELETE /:id: 404 for an unknown comment, 403 unless the caller wrote
      it; otherwise the comment is removed and its post's counter drops by
      one. */
  function DeleteComment(db: Db, id: Id, caller: Id): (r: (Db, DeleteReply))
    ensures Find(db.comments, id).None? ==> r == (db, CommentNotFound)
    ensures Find(db.comments, id).Some? && Find(db.comments, id).value.author != caller ==> r == (db, NotAuthorized)
    ensures r.1 == CommentDeleted <==> Find(db.comments, id).Some? && Find(db.comments, id).value.author == caller
    ensures r.1 == CommentDeleted ==>
      && r.0.comments == RemoveId(db.comments, id)
      && |r.0.comments| == |db.comments| - 1
      && r.0.posts == Adjust(db.posts, Find(db.comments, id).value.post, 0, -1)
    ensures r.0.likes == db.likes && r.0.notifications == db.notifications
    ensures Consistent(db) ==> Consistent(r.0)
  {
    match Find(db.comments, id)
    case None => (db, CommentNotFound)
    case Some(c) =>
      if c.author != caller then (db, NotAuthorized)
      else
        var db' := db.(comments := RemoveId(db.comments, id), posts := Adjust(db.posts, c.post, 0, -1));
        assert Consistent(db) ==> Consistent(db') by {
          if Consistent(db) {
            RemoveCommentConsistent(db, id, c);
          }
        }
        (db', CommentDeleted)
  }

  /** Removing an existing comment and lowering its post's counter by one
      keeps the database consistent. */
  lemma RemoveCommentConsistent(db: Db, id: Id, c: Comment)
    requires Consistent(db)
    requires Find(db.comments, id) == Some(c)
    ensures Consistent(db.(comments := RemoveId(db.comments, id), posts := Adjust(db.posts, c.post, 0, -1)))
  {
    var comments := RemoveId(db.comments, id);
    forall q ensures CountOn(comments, q) == CountOn(db.comments, q) + (if q == c.post then -1 else 0) {
      CountRemove(db.comments, id, q);
    }
    AdjustKeepsAgreement(db.posts, db.likes, db.comments, db.likes, comments, c.post, 0, -1);
  }

  /** Creating a comment and then deleting it as its author restores the
      comment collection and every post's counters. (The notification stays.) */
  lemma CreateThenDeleteRestores(db: Db, content: string, postId: Id, user: Id, cid: Id, nid: Id, now: nat, fault: Fault)
    requires cid !in Ids(db.comments)
    requires nid !in NotificationStore.Ids(db.notifications)
    requires CreateComment(db, Some(content), Some(postId), user, cid, nid, now, fault).1.Created?
    ensures var created := CreateComment(db, Some(content), Some(postId), user, cid, nid, now, fault).0;
            var deleted := DeleteComment(created, cid, user);
            && deleted.1 == CommentDeleted
            && deleted.0.comments == db.comments
            && deleted.0.posts == db.posts
  {
    var r := CreateComment(db, Some(content), Some(postId), user, cid, nid, now, fault);
    var c := r.1.comment;
    IdsAppend(db.comments, c);
    assert Find(r.0.comments, cid).Some?;
    FindAppended(db.comments, c);
    RemoveAppended(db.comments, c);
    AdjustTwice(db.posts, postId, 0, 1, 0, -1);
    AdjustZero(db.posts, postId);
  }

  /** The appended comment is the one found under its fresh id. */
  lemma {:induction false} FindAppended(cs: seq<Comment>, c: Comment)
    requires c.id !in Ids(cs)
    ensures Find(cs + [c], c.id) == Some(c)
  {
    if |cs| > 0 {
      assert (cs + [c])[1..] == cs[1..] + [c];
      FindAppended(cs[1..], c);
    }
  }
}

=== FILE: common.dfy ===
/** Shared vocabulary: optional values, identifiers and order-preserving filters
    over the in-memory collections that stand in for database queries. */
module Common {

  /** A value that may be absent (a missing request field, a `null` reference). */
  datatype Option<+T> = None | Some(value: T) {

    /** The carried value, or `default` when absent. */
    function GetOr(default: T): T {
      match this
      case Some(v) => v
      case None => default
    }
  }

  /** The outcome of a step that may raise: its value, or the error's message. */
  datatype Result<+T> = Ok(value: T) | Err(message: string)

  /** Identifiers of users, posts, comments and notifications, compared by
      their string form (`toString()` in the source). */
  type Id = string

  /** JavaScript truthiness of an optional string field: present and non-empty. */
  predicate Truthy(s: Option<string>) {
    s.Some? && |s.value| > 0
  }

  /** The index of the first element of `xs` that satisfies `p`, or `|xs|`
      when none does. */
  function Position<T>(xs: seq<T>, p: T -> bool): (k: nat)
    ensures k <= |xs|
    ensures k < |xs| ==> p(xs[k])
    ensures forall j :: 0 <= j < k ==> !p(xs[j])
  {
    if |xs| == 0 then 0 else if p(xs[0]) then 0 else 1 + Position(xs[1..], p)
  }

  /** Dropping index `k + 1` of a sequence keeps its head and drops index `k`
      of its tail. */
  lemma DropAfterHead<T>(xs: seq<T>, k: nat)
    ensures k + 1 < |xs| ==> xs[..k + 1] + xs[k + 2..] == [xs[0]] + (xs[1..][..k] + xs[1..][k + 1..])
  {
  }

  /** The elements of `xs` that satisfy `p`, in their original order
      (a `find` over a collection). */
  function Filter<T>(xs: seq<T>, p: T -> bool): (r: seq<T>)
    ensures |r| <= |xs|
    ensures forall i :: 0 <= i < |r| ==> p(r[i])
    ensures forall i :: 0 <= i < |r| ==> r[i] in xs
    ensures forall i :: 0 <= i < |xs| && p(xs[i]) ==> xs[i] in r
  {
    if |xs| == 0 then []
    else if p(xs[0]) then [xs[0]] + Filter(xs[1..], p)
    else Filter(xs[1..], p)
  }

  /** Filtering distributes over concatenation. */
  lemma {:induction false} FilterAppend<T>(xs: seq<T>, ys: seq<T>, p: T -> bool)
    ensures Filter(xs + ys, p) == Filter(xs, p) + Filter(ys, p)
  {
    if |xs| == 0 {
      assert xs + ys == ys;
    } else {
      assert (xs + ys)[1..] == xs[1..] + ys;
      FilterAppend(xs[1..], ys, p);
    }
  }
  /** Appending one element adds one to the count of the elements satisfying
      `p` exactly when it satisfies `p` itself. */
  lemma FilterSnoc<T>(xs: seq<T>, x: T, p: T -> bool)
    ensures |Filter(xs + [x], p)| == |Filter(xs, p)| + (if p(x) then 1 else 0)
  {
    FilterAppend(xs, [x], p);
  }


  /** Filtering keeps every element exactly as often as the original holds it
      when the predicate accepts it, and never more. */
  lemma {:induction false} FilterMultiset<T>(xs: seq<T>, p: T -> bool)
    ensures multiset(Filter(xs, p)) <= multiset(xs)
  {
    if |xs| > 0 {
      FilterMultiset(xs[1..], p);
      assert xs == [xs[0]] + xs[1..];
    }
  }

  /** Two predicates that agree on every element of `xs` select the same
      sub-sequence. */
  lemma {:induction false} FilterCongruent<T>(xs: seq<T>, p: T -> bool, q: T -> bool)
    requires forall i :: 0 <= i < |xs| ==> p(xs[i]) == q(xs[i])
    ensures Filter(xs, p) == Filter(xs, q)
  {
    if |xs| > 0 {
      FilterCongruent(xs[1..], p, q);
    }
  }

  /** A filter whose predicate rejects every element is empty. */
  lemma {:induction false} FilterNone<T>(xs: seq<T>, p: T -> bool)
    requires forall i :: 0 <= i < |xs| ==> !p(xs[i])
    ensures Filter(xs, p) == []
  {
    if |xs| > 0 {
      FilterNone(xs[1..], p);
    }
  }

  /** A filter whose predicate accepts every element keeps the sequence. */
  lemma {:induction false} FilterAll<T>(xs: seq<T>, p: T -> bool)
    requires forall i :: 0 <= i < |xs| ==> p(xs[i])
    ensures Filter(xs, p) == xs
  {
    if |xs| > 0 {
      FilterAll(xs[1..], p);
      assert xs == [xs[0]] + xs[1..];
    }
  }

  /** Each value occurs in a filter's result exactly as often as in the
      input when the predicate accepts it, and not at all otherwise. */
  lemma {:induction false} FilterMultiplicity<T>(xs: seq<T>, p: T -> bool, x: T)
    ensures multiset(Filter(xs, p))[x] == if p(x) then multiset(xs)[x] else 0
  {
    if |xs| > 0 {
      FilterMultiplicity(xs[1..], p, x);
      assert xs == [xs[0]] + xs[1..];
    }
  }

  /** Filtering two arrangements of the same elements selects the same
      elements, and so the same number of them. */
  lemma FilterPermutation<T>(xs: seq<T>, ys: seq<T>, p: T -> bool)
    requires multiset(xs) == multiset(ys)
    ensures multiset(Filter(xs, p)) == multiset(Filter(ys, p))
    ensures |Filter(xs, p)| == |Filter(ys, p)|
  {
    forall x ensures multiset(Filter(xs, p))[x] == multiset(Filter(ys, p))[x] {
      FilterMultiplicity(xs, p, x);
      FilterMultiplicity(ys, p, x);
    }
    assert multiset(Filter(xs, p)) == multiset(Filter(ys, p));
    assert |multiset(Filter(xs, p))| == |multiset(Filter(ys, p))|;
  }

  /** Two filters in a row are one filter by the conjunction. */
  lemma {:induction false} FilterFilter<T>(xs: seq<T>, p: T -> bool, q: T -> bool, pq: T -> bool)
    requires forall x :: pq(x) == (p(x) && q(x))
    ensures Filter(Filter(xs, p), q) == Filter(xs, pq)
  {
    if |xs| > 0 {
      FilterFilter(xs[1..], p, q, pq);
      if p(xs[0]) {
        assert ([xs[0]] + Filter(xs[1..], p))[1..] == Filter(xs[1..], p);
      }
    }
  }
}

=== FILE: database.dfy ===
/** The collections the action handlers share, the post-collection queries
    they issue, and the invariant that ties each post's denormalised counters
    to the like and comment collections. */
module Database {
  import opened Common
  import opened PostModel
  import LikeModel
  import CommentModel
  import NotificationStore

  datatype Db = Db(
    posts: seq<Post>,
    likes: seq<LikeModel.Like>,
    comments: seq<CommentModel.Comment>,
    notifications: NotificationStore.Store)

  /** The ids present in the post collection. */
  function PostIds(posts: seq<Post>): set<Id> {
    if |posts| == 0 then {} else {posts[0].id} + PostIds(posts[1..])
  }

  /** `_id` is the primary key. */
  predicate UniquePostIds(posts: seq<Post>) {
    |posts| == 0 || (posts[0].id !in PostIds(posts[1..]) && UniquePostIds(posts[1..]))
  }

  /** Every row's id is in the id set. */
  lemma {:induction false} InPostIds(posts: seq<Post>, i: nat)
    requires i < |posts|
    ensures posts[i].id in PostIds(posts)
  {
    if i > 0 {
      InPostIds(posts[1..], i - 1);
    }
  }

  /** `Post.findById(id)`. */
  function FindPost(posts: seq<Post>, id: Id): (r: Option<Post>)
    ensures r.Some? <==> id in PostIds(posts)
    ensures r.Some? ==> r.value.id == id && r.value in posts
  {
    if |posts| == 0 then None
    else if posts[0].id == id then Some(posts[0])
    else FindPost(posts[1..], id)
  }

  /** Where `FindPost` found its row. */
  function IndexOf(posts: seq<Post>, id: Id): (i: nat)
    requires FindPost(posts, id).Some?
    ensures i < |posts| && FindPost(posts, id) == Some(posts[i])
  {
    if posts[0].id == id then 0 else 1 + IndexOf(posts[1..], id)
  }

  /** `Post.findByIdAndUpdate(id, { $inc: { likeCount: dl, commentCount: dc } })`
      on a keyed collection: the row with that id moves its counters, no other
      row changes. */
  function Adjust(posts: seq<Post>, id: Id, dl: int, dc: int): (r: seq<Post>)
    ensures |r| == |posts| && PostIds(r) == PostIds(posts)
    ensures UniquePostIds(posts) ==> UniquePostIds(r)
    ensures forall i :: 0 <= i < |r| ==> r[i] == Bump(posts[i], id, dl, dc)
  {
    if |posts| == 0 then []
    else
      var rest := Adjust(posts[1..], id, dl, dc);
      assert ([Bump(posts[0], id, dl, dc)] + rest)[1..] == rest;
      [Bump(posts[0], id, dl, dc)] + rest
  }

  /** One row under the increment: the row with that id has its counters
      moved, any other row is as it was. */
  function Bump(p: Post, id: Id, dl: int, dc: int): (q: Post)
    ensures q.id == p.id
    ensures q.likeCount == if p.id == id then p.likeCount + dl else p.likeCount
    ensures q.commentCount == if p.id == id then p.commentCount + dc else p.commentCount
    ensures q == p.(likeCount := q.likeCount, commentCount := q.commentCount)
  {
    if p.id == id then p.(likeCount := p.likeCount + dl, commentCount := p.commentCount + dc) else p
  }

  /** Two increments compose into one. */
  lemma AdjustTwice(posts: seq<Post>, id: Id, dl1: int, dc1: int, dl2: int, dc2: int)
    ensures Adjust(Adjust(posts, id, dl1, dc1), id, dl2, dc2) == Adjust(posts, id, dl1 + dl2, dc1 + dc2)
  {
    var a := Adjust(Adjust(posts, id, dl1, dc1), id, dl2, dc2);
    var b := Adjust(posts, id, dl1 + dl2, dc1 + dc2);
    assert forall i :: 0 <= i < |a| ==> a[i] == b[i];
  }

  /** An increment of zero is no update. */
  lemma AdjustZero(posts: seq<Post>, id: Id)
    ensures Adjust(posts, id, 0, 0) == posts
  {
    var a := Adjust(posts, id, 0, 0);
    assert forall i :: 0 <= i < |a| ==> a[i] == posts[i];
  }

  /** An increment followed by its opposite is no update. */
  lemma AdjustUndo(posts: seq<Post>, id: Id, dl: int)
    ensures Adjust(Adjust(posts, id, dl, 0), id, -dl, 0) == posts
  {
    var a := Adjust(Adjust(posts, id, dl, 0), id, -dl, 0);
    assert forall i :: 0 <= i < |a| ==> a[i] == posts[i];
  }

  /** `Post.findByIdAndDelete(id)`: drops the row with that id. */
  function RemovePost(posts: seq<Post>, id: Id): (r: seq<Post>)
    ensures |r| == if id in PostIds(posts) then |posts| - 1 else |posts|
    ensures id !in PostIds(posts) ==> r == posts
    ensures forall i :: 0 <= i < |r| ==> r[i] in posts
    ensures PostIds(r) <= PostIds(posts)
  {
    if |posts| == 0 then []
    else if posts[0].id == id then posts[1..]
    else
      var rest := RemovePost(posts[1..], id);
      assert ([posts[0]] + rest)[1..] == rest;
      [posts[0]] + rest
  }

  /** Under the primary key, deleting a post removes exactly its id, keeps
      every other post findable as before, and keeps the key unique. */
  lemma {:induction false} RemovePostExact(posts: seq<Post>, id: Id)
    requires UniquePostIds(posts)
    ensures PostIds(RemovePost(posts, id)) == PostIds(posts) - {id}
    ensures UniquePostIds(RemovePost(posts, id))
    ensures forall q :: q != id ==> FindPost(RemovePost(posts, id), q) == FindPost(posts, q)
  {
    if |posts| > 0 && posts[0].id != id {
      RemovePostExact(posts[1..], id);
      var rest := RemovePost(posts[1..], id);
      assert ([posts[0]] + rest)[1..] == rest;
    }
  }

  /** Each post's counters agree with the rows that back them. */
  predicate CountersAgree(posts: seq<Post>, likes: seq<LikeModel.Like>, comments: seq<CommentModel.Comment>) {
    forall i :: 0 <= i < |posts| ==>
      && posts[i].likeCount == LikeModel.CountOn(likes, posts[i].id)
      && posts[i].commentCount == CommentModel.CountOn(comments, posts[i].id)
  }

  /** The database invariant the handlers keep: keys are unique and the
      counters are in step with the like and comment collections. */
  predicate Consistent(db: Db) {
    && UniquePostIds(db.posts)
    && LikeModel.Unique(db.likes)
    && CountersAgree(db.posts, db.likes, db.comments)
  }

  /** Moving one post's counters by exactly as much as its backing rows moved
      keeps the counters in step. */
  lemma AdjustKeepsAgreement(posts: seq<Post>, likes: seq<LikeModel.Like>, comments: seq<CommentModel.Comment>,
                             likes': seq<LikeModel.Like>, comments': seq<CommentModel.Comment>,
                             id: Id, dl: int, dc: int)
    requires CountersAgree(posts, likes, comments)
    requires forall q :: LikeModel.CountOn(likes', q) == LikeModel.CountOn(likes, q) + (if q == id then dl else 0)
    requires forall q :: CommentModel.CountOn(comments', q) == CommentModel.CountOn(comments, q) + (if q == id then dc else 0)
    ensures CountersAgree(Adjust(posts, id, dl, dc), likes', comments')
  {
    var r := Adjust(posts, id, dl, dc);
    forall i | 0 <= i < |r|
      ensures r[i].likeCount == LikeModel.CountOn(likes', r[i].id)
      ensures r[i].commentCount == CommentModel.CountOn(comments', r[i].id)
    {
      assert r[i].id == posts[i].id;
    }
  }

  /** A collection drawn from agreeing posts agrees too. */
  lemma CountersAgreeSubset(sub: seq<Post>, posts: seq<Post>, likes: seq<LikeModel.Like>, comments: seq<CommentModel.Comment>)
    requires CountersAgree(posts, likes, comments)
    requires forall i :: 0 <= i < |sub| ==> sub[i] in posts
    ensures CountersAgree(sub, likes, comments)
  {
    forall i | 0 <= i < |sub|
      ensures sub[i].likeCount == LikeModel.CountOn(likes, sub[i].id)
      ensures sub[i].commentCount == CommentModel.CountOn(comments, sub[i].id)
    {
      var j :| 0 <= j < |posts| && posts[j] == sub[i];
    }
  }

  /** Under the primary key, the row `FindPost` returns is the only row with
      that id. */
  lemma {:induction false} FindUnique(posts: seq<Post>, id: Id, i: nat)
    requires UniquePostIds(posts)
    requires i < |posts| && posts[i].id == id
    ensures FindPost(posts, id) == Some(posts[i])
  {
    if i > 0 {
      if posts[0].id == id {
        InPostIds(posts[1..], i - 1);
      } else {
        FindUnique(posts[1..], id, i - 1);
      }
    }
  }

  /** Appending a fresh post whose counters are zero, about which no like or
      comment exists yet, keeps the database consistent. */
  lemma {:induction false} AppendPostConsistent(db: Db, p: Post)
    requires Consistent(db)
    requires p.id !in PostIds(db.posts)
    requires p.likeCount == 0 == LikeModel.CountOn(db.likes, p.id)
    requires p.commentCount == 0 == CommentModel.CountOn(db.comments, p.id)
    ensures Consistent(db.(posts := db.posts + [p]))
  {
    AppendUnique(db.posts, p);
  }

  lemma {:induction false} AppendUnique(posts: seq<Post>, p: Post)
    requires UniquePostIds(posts) && p.id !in PostIds(posts)
    ensures UniquePostIds(posts + [p])
    ensures PostIds(posts + [p]) == PostIds(posts) + {p.id}
  {
    if |posts| > 0 {
      assert (posts + [p])[1..] == posts[1..] + [p];
      AppendUnique(posts[1..], p);
    }
  }

  /** Under the primary key, looking up the adjusted post finds it with its
      counters moved. */
  lemma FindAdjusted(posts: seq<Post>, id: Id, dl: int, dc: int, i: nat)
    requires UniquePostIds(posts)
    requires i < |posts| && posts[i].id == id
    ensures FindPost(Adjust(posts, id, dl, dc), id) ==
            Some(posts[i].(likeCount := posts[i].likeCount + dl, commentCount := posts[i].commentCount + dc))
  {
    var r := Adjust(posts, id, dl, dc);
    assert r[i] == posts[i].(likeCount := posts[i].likeCount + dl, commentCount := posts[i].commentCount + dc);
    FindUnique(r, id, i);
  }

  /** The same, for the row `FindPost` finds: its counters move by the
      increments. */
  lemma FindAdjustedFound(posts: seq<Post>, id: Id, dl: int, dc: int)
    requires UniquePostIds(posts)
    requires FindPost(posts, id).Some?
    ensures FindPost(Adjust(posts, id, dl, dc), id).Some?
    ensures FindPost(Adjust(posts, id, dl, dc), id).value.likeCount == FindPost(posts, id).value.likeCount + dl
    ensures FindPost(Adjust(posts, id, dl, dc), id).value.commentCount == FindPost(posts, id).value.commentCount + dc
  {
    var i := IndexOf(posts, id);
    FindAdjusted(posts, id, dl, dc, i);
  }
}

=== FILE: dropdown.dfy ===
/** The notification dropdown: the list it fetches when opened, the local
    read marks it sets after asking the server to mark, the unread count it
    derives from those marks, where a click on an item leads, and the line of
    text shown for each item. */
module Dropdown {
  import opened Common
  import opened NotificationModel
  import opened NotificationStore
  import opened NotificationRoutes
  import Strings = Text

  /** More items than this show the "View All Notifications" button. */
  const ViewAllThreshold: nat := 5

  /** An item as the component reads it. Besides `_id` and `type` it reads
      five keys; `None` is a key the object does not have (`undefined`).
      `fromUser` stands for `fromUser.username`. */
  datatype Item = Item(
    id: Id,
    kind: string,
    isRead: Option<bool>,
    postId: Option<Id>,
    fromUser: Option<string>,
    postTitle: Option<string>,
    message: Option<string>)

  /** `!notification.isRead`: a missing key counts as unread. */
  predicate ShownUnread(it: Item) {
    it.isRead != Some(true)
  }

  /** `notifications.filter(n => !n.isRead).length`. */
  function UnreadCount(items: seq<Item>): nat {
    |Filter(items, ShownUnread)|
  }

  /** The header's mark-all control and the footer's view-all button. */
  predicate ShowMarkAll(items: seq<Item>) {
    UnreadCount(items) > 0
  }

  predicate ShowViewAll(items: seq<Item>) {
    |items| > ViewAllThreshold
  }

  /** The local update after marking one: `isRead = true` on exactly the
      items with that `_id`. */
  function MarkLocal(items: seq<Item>, id: Id): (r: seq<Item>)
    ensures |r| == |items|
    ensures forall i :: 0 <= i < |items| && items[i].id == id ==> r[i] == items[i].(isRead := Some(true))
    ensures forall i :: 0 <= i < |items| && items[i].id != id ==> r[i] == items[i]
  {
    seq(|items|, i requires 0 <= i < |items| => if items[i].id == id then items[i].(isRead := Some(true)) else items[i])
  }

  /** The local update after marking all: `isRead = true` on every item. */
  function MarkAllLocal(items: seq<Item>): (r: seq<Item>)
    ensures |r| == |items|
    ensures forall i :: 0 <= i < |items| ==> r[i] == items[i].(isRead := Some(true))
  {
    seq(|items|, i requires 0 <= i < |items| => items[i].(isRead := Some(true)))
  }

  /** After mark-all nothing is unread, so the mark-all control disappears. */
  lemma MarkAllClearsCount(items: seq<Item>)
    ensures UnreadCount(MarkAllLocal(items)) == 0
    ensures !ShowMarkAll(MarkAllLocal(items))
  {
    FilterNone(MarkAllLocal(items), ShownUnread);
  }

  /** Marking one id never raises the count, and drops it when some item
      with that id was unread. */
  lemma {:induction false} MarkLocalCount(items: seq<Item>, id: Id)
    ensures UnreadCount(MarkLocal(items, id)) <= UnreadCount(items)
    ensures (exists i :: 0 <= i < |items| && items[i].id == id && ShownUnread(items[i])) ==>
      UnreadCount(MarkLocal(items, id)) < UnreadCount(items)
    decreases |items|
  {
    if |items| > 0 {
      MarkLocalCount(items[1..], id);
      assert MarkLocal(items, id)[1..] == MarkLocal(items[1..], id);
      if exists i :: 0 <= i < |items| && items[i].id == id && ShownUnread(items[i]) {
        var i :| 0 <= i < |items| && items[i].id == id && ShownUnread(items[i]);
        if i > 0 {
          assert items[1..][i - 1] == items[i];
        }
      }
    }
  }

  /** Marking an id none of whose items shows unread changes nothing, and
      marking the same id twice is marking it once. */
  lemma MarkLocalSettled(items: seq<Item>, id: Id)
    ensures (forall i :: 0 <= i < |items| && items[i].id == id ==> !ShownUnread(items[i])) ==>
      MarkLocal(items, id) == items
    ensures MarkLocal(MarkLocal(items, id), id) == MarkLocal(items, id)
  {
    var r := MarkLocal(items, id);
    if forall i :: 0 <= i < |items| && items[i].id == id ==> !ShownUnread(items[i]) {
      assert forall i :: 0 <= i < |items| ==> r[i] == items[i];
    }
    assert forall i :: 0 <= i < |r| ==> MarkLocal(r, id)[i] == r[i];
  }

  /** The list request and the two mark requests, as the server sees them. */
  const ListRequest: Request := Request(Get, [], None, None, None)

  function MarkOneRequest(id: Id): (req: Request)
    ensures req.verb == Put && req.segments == [id, "read"]
  {
    Request(Put, [id, "read"], None, None, None)
  }

  const MarkAllRequest: Request := Request(Put, ["read-all"], None, None, None)

  /** What the component asks of its environment: send a request, close the
      popover (`onClose`), go to a path, report a read to the badge
      (`onNotificationRead`), or fail with a thrown TypeError. */
  datatype Effect = Send(req: Request) | CloseDropdown | GoTo(path: string) | NotifyRead | Throws

  /** A JavaScript template literal's rendering of an optional value. */
  function Interpolate(v: Option<string>): string {
    v.GetOr("undefined")
  }

  /** Where a click leads: like and comment go to the post, follow to the
      sender's profile (reading `username` of a missing `fromUser` throws),
      any other kind stays put. */
  function Destination(it: Item): (r: seq<Effect>)
    ensures (it.kind == "like" || it.kind == "comment") ==> r == [GoTo("/posts/" + Interpolate(it.postId))]
    ensures it.kind == "follow" && it.fromUser.Some? ==> r == [GoTo("/profile/" + it.fromUser.value)]
    ensures r == [Throws] <==> it.kind == "follow" && it.fromUser.None?
    ensures r == [] <==> it.kind !in {"like", "comment", "follow"}
  {
    if it.kind == "like" || it.kind == "comment" then [GoTo("/posts/" + Interpolate(it.postId))]
    else if it.kind == "follow" then
      (match it.fromUser
       case Some(name) => [GoTo("/profile/" + name)]
       case None => [Throws])
    else []
  }

  /** The fixed openings of the like and comment lines. */
  const LikedPrefix := "liked your post \""
  const CommentedPrefix := "commented on your post \""

  /** The line under the sender's name. React renders an undefined
      `message` as nothing. */
  function Text(it: Item): (r: string)
    ensures it.kind == "like" ==> r == LikedPrefix + Interpolate(it.postTitle) + "\""
    ensures it.kind == "comment" ==> r == CommentedPrefix + Interpolate(it.postTitle) + "\""
    ensures it.kind == "follow" ==> r == "started following you"
    ensures it.kind !in {"like", "comment", "follow"} ==> r == it.message.GetOr("")
  {
    if it.kind == "like" then LikedPrefix + Interpolate(it.postTitle) + "\""
    else if it.kind == "comment" then CommentedPrefix + Interpolate(it.postTitle) + "\""
    else if it.kind == "follow" then "started following you"
    else it.message.GetOr("")
  }

  /** The title quoted in a like or comment line, read back off the text. */
  function QuotedTitle(line: string): Option<string> {
    var prefix := if Strings.StartsWith(line, LikedPrefix) then LikedPrefix
                  else if Strings.StartsWith(line, CommentedPrefix) then CommentedPrefix
                  else "";
    if |prefix| > 0 && |line| > |prefix| && line[|line| - 1] == '"' then Some(line[|prefix|..|line| - 1])
    else None
  }

  /** A like or comment line names its post: the title it renders can be
      read back from it. */
  lemma TextQuotesTitle(it: Item)
    requires it.kind == "like" || it.kind == "comment"
    ensures QuotedTitle(Text(it)) == Some(Interpolate(it.postTitle))
  {
    var t := Interpolate(it.postTitle);
    var prefix := if it.kind == "like" then LikedPrefix else CommentedPrefix;
    var line := prefix + t + "\"";
    assert line[..|prefix|] == prefix;
    assert line[|prefix|..|line| - 1] == t;
    if it.kind == "comment" {
      assert line[0] != LikedPrefix[0];
    }
  }

  /** As written the list is loaded without any post title, so every like and
      comment line quotes the word undefined. */
  lemma AsWrittenText(n: Notification)
    ensures n.kind == Like ==> Text(LoadAsWritten(n)) == "liked your post \"undefined\""
    ensures n.kind == Comment ==> Text(LoadAsWritten(n)) == "commented on your post \"undefined\""
    ensures n.kind == Follow ==> Text(LoadAsWritten(n)) == "started following you"
    ensures n.kind == Mention ==> Text(LoadAsWritten(n)) == ""
  {
  }

  /** The component's state: the list and the two spinners. */
  datatype State = State(items: seq<Item>, loading: bool, markingAll: bool)

  /** What can happen: the popover opens; the list fetch settles (`None` for a
      non-ok response or a throw); an item is clicked; a mark request settles
      (`reached` is false when `fetch` threw); the mark-all control is
      clicked and its request settles; the view-all button is clicked. */
  datatype Event =
    | Opened
    | ListReply(items: Option<seq<Item>>)
    | Click(item: Item)
    | MarkSettled(id: Id, reached: bool)
    | MarkAllClick
    | MarkAllSettled(reached: bool)
    | ViewAll

  function Step(s: State, e: Event): (r: (State, seq<Effect>))
    // opening fetches; a fetch that settles replaces the list or keeps it
    ensures e == Opened ==> r.0.loading && r.1 == [Send(ListRequest)]
    ensures e.ListReply? ==> !r.0.loading && r.0.items == e.items.GetOr(s.items) && r.1 == []
    // a click on an unread item asks to mark it; every click closes the popover
    ensures e.Click? ==> r.0 == s && CloseDropdown in r.1
    ensures e.Click? ==> (Send(MarkOneRequest(e.item.id)) in r.1 <==> ShownUnread(e.item))
    ensures e.Click? && !ShownUnread(e.item) ==> forall q :: Send(q) !in r.1
    ensures e.Click? ==> r.1[|r.1| - |Destination(e.item)|..] == Destination(e.item)
    // the local mark and the badge refetch follow only a request that reached the server
    ensures e.MarkSettled? ==> r.0.items == (if e.reached then MarkLocal(s.items, e.id) else s.items)
    ensures e.MarkSettled? ==> (r.1 == [NotifyRead] <==> e.reached) && (r.1 == [] <==> !e.reached)
    ensures e == MarkAllClick ==> r.0.markingAll && r.1 == [Send(MarkAllRequest)]
    ensures e.MarkAllSettled? ==> !r.0.markingAll
    ensures e.MarkAllSettled? && e.reached ==> UnreadCount(r.0.items) == 0 && r.1 == [NotifyRead]
    ensures e.MarkAllSettled? && !e.reached ==> r.0.items == s.items && r.1 == []
    ensures e == ViewAll ==> r == (s, [CloseDropdown, GoTo("/notifications")])
    // the list only changes by a fetch or a local mark
    ensures |r.0.items| != |s.items| ==> e.ListReply?
  {
    match e
    case Opened => (s.(loading := true), [Send(ListRequest)])
    case ListReply(reply) => (s.(items := reply.GetOr(s.items), loading := false), [])
    case Click(it) =>
      var mark := if ShownUnread(it) then [Send(MarkOneRequest(it.id))] else [];
      (s, mark + [CloseDropdown] + Destination(it))
    case MarkSettled(id, reached) =>
      if reached then (s.(items := MarkLocal(s.items, id)), [NotifyRead]) else (s, [])
    case MarkAllClick => (s.(markingAll := true), [Send(MarkAllRequest)])
    case MarkAllSettled(reached) =>
      if reached then
        MarkAllClearsCount(s.items);
        (s.(items := MarkAllLocal(s.items), markingAll := false), [NotifyRead])
      else (s.(markingAll := false), [])
    case ViewAll => (s, [CloseDropdown, GoTo("/notifications")])
  }

  /** The item the component holds for a row of the listing, as the client is
      written: the row's keys are `read`, `post`, `sender` and `content`, so
      every key the component reads beyond `_id` and `type` is missing. */
  function LoadAsWritten(n: Notification): (it: Item)
    ensures it.id == n.id && it.kind == KindName(n.kind)
    ensures it.isRead.None? && it.postId.None? && it.fromUser.None? && it.postTitle.None? && it.message.None?
  {
    Item(n.id, KindName(n.kind), None, None, None, None, None)
  }

  /** The evidently intended read mark: the row's `read` field. (The other
      keys are left as the client reads them.) */
  function Load(n: Notification): (it: Item)
    ensures it.id == n.id && it.kind == KindName(n.kind)
    ensures ShownUnread(it) <==> !n.read
  {
    Item(n.id, KindName(n.kind), Some(n.read), None, None, None, None)
  }

  function LoadAllAsWritten(rows: seq<Notification>): (r: seq<Item>)
    ensures |r| == |rows| && forall i :: 0 <= i < |rows| ==> r[i] == LoadAsWritten(rows[i])
  {
    seq(|rows|, i requires 0 <= i < |rows| => LoadAsWritten(rows[i]))
  }

  function LoadAll(rows: seq<Notification>): (r: seq<Item>)
    ensures |r| == |rows| && forall i :: 0 <= i < |rows| ==> r[i] == Load(rows[i])
  {
    seq(|rows|, i requires 0 <= i < |rows| => Load(rows[i]))
  }

  /** As written, every fetched item shows as unread, read or not. */
  lemma AsWrittenAllUnread(rows: seq<Notification>)
    ensures UnreadCount(LoadAllAsWritten(rows)) == |rows|
  {
    FilterAll(LoadAllAsWritten(rows), ShownUnread);
  }

  /** The input that shows it: one row, already read, is counted as unread
      and offers mark-all. */
  lemma AsWrittenCountsReadRow(n: Notification)
    requires n.read
    ensures UnreadCount(LoadAllAsWritten([n])) == 1 && ShowMarkAll(LoadAllAsWritten([n]))
    ensures UnreadCount(LoadAll([n])) == 0 && !ShowMarkAll(LoadAll([n]))
  {
    AsWrittenAllUnread([n]);
    FilterNone(LoadAll([n]), ShownUnread);
  }

  /** `(n: Notification) => !n.read`. */
  function NotRead(n: Notification): bool {
    !n.read
  }

  /** With the intended read mark, the derived count is the number of unread
      rows in the list. */
  lemma {:induction false} LoadedUnread(rows: seq<Notification>)
    ensures UnreadCount(LoadAll(rows)) == |Filter(rows, NotRead)|
    decreases |rows|
  {
    if |rows| > 0 {
      LoadedUnread(rows[1..]);
      assert LoadAll(rows)[1..] == LoadAll(rows[1..]);
    }
  }

  /** With the intended read mark, a user with at most 50 notifications sees
      in the dropdown header exactly the unread count the server keeps. */
  lemma DropdownMatchesServer(s: Store, caller: Id)
    requires |Rows(s, caller)| <= RecentLimit
    ensures UnreadCount(LoadAll(ListRecent(s, caller))) == Unread(s, caller)
  {
    var rows := ListRecent(s, caller);
    LoadedUnread(rows);
    FilterPermutation(rows, Rows(s, caller), NotRead);
    FilterFilter(s, OfUser(caller), NotRead, UnreadOf(caller));
  }

  /** The mark requests as the client sends them: POST. */
  function MarkOneRequestAsWritten(id: Id): (req: Request)
    ensures req.verb == Post && req.segments == [id, "read"]
  {
    Request(Post, [id, "read"], None, None, None)
  }

  const MarkAllRequestAsWritten: Request := Request(Post, ["read-all"], None, None, None)

  /** Neither router binds POST, so as written every mark request is a 404,
      the store is untouched, and the item's server-side `read` stays false;
      the client still marks it locally because `fetch` resolves on a 404. */
  lemma AsWrittenMarksAreLost(s: Store, caller: Id, id: Id)
    ensures Serve(InlineRoutes, MarkOneRequestAsWritten(id), s, Some(caller)) == (s, Status(404))
    ensures Serve(InlineRoutes, MarkAllRequestAsWritten, s, Some(caller)) == (s, Status(404))
    ensures Serve(ControllerRoutes, MarkOneRequestAsWritten(id), s, Some(caller)) == (s, Status(404))
    ensures Serve(ControllerRoutes, MarkAllRequestAsWritten, s, Some(caller)) == (s, Status(404))
  {
    assert forall j :: 0 <= j < |InlineRoutes| ==> InlineRoutes[j].verb != Post;
    assert forall j :: 0 <= j < |ControllerRoutes| ==> ControllerRoutes[j].verb != Post;
  }

  /** With PUT, the requests reach the inline handlers: clicking an unread
      item marks the caller's row on the server, and mark-all leaves the
      caller nothing unread. */
  lemma MarkRequestsReachServer(s: Store, caller: Id, id: Id)
    requires id != ""
    ensures Serve(InlineRoutes, MarkOneRequest(id), s, Some(caller)) == (MarkOne(s, caller, id).0, Succeeded)
    ensures Serve(InlineRoutes, MarkAllRequest, s, Some(caller)).1 == Succeeded
    ensures Unread(Serve(InlineRoutes, MarkAllRequest, s, Some(caller)).0, caller) == 0
  {
    PutReadResolves(id, s, caller);
    PutReadAllResolves(s, caller);
  }
}

=== FILE: like_model.dfy ===
/** The like document: one row per (post, user) pair, enforced by a unique
    compound index. */
module LikeModel {
  import opened Common

  datatype Like = Like(post: Id, user: Id, createdAt: nat)

  /** The (post, user) key the unique index is built on. */
  function Key(l: Like): (Id, Id) {
    (l.post, l.user)
  }

  /** The (post, user) pairs that currently like something. */
  function Keys(likes: seq<Like>): set<(Id, Id)> {
    if |likes| == 0 then {} else {Key(likes[0])} + Keys(likes[1..])
  }

  /** `Like.findOne({ post, user })` finds a row. */
  predicate Has(likes: seq<Like>, post: Id, user: Id) {
    (post, user) in Keys(likes)
  }

  /** The unique index holds: no two rows share a (post, user) key. */
  predicate Unique(likes: seq<Like>) {
    |likes| == 0 || (Key(likes[0]) !in Keys(likes[1..]) && Unique(likes[1..]))
  }

  /** Appending a row adds exactly its key. */
  lemma {:induction false} KeysAppend(likes: seq<Like>, l: Like)
    ensures Keys(likes + [l]) == Keys(likes) + {Key(l)}
    ensures Unique(likes) && Key(l) !in Keys(likes) ==> Unique(likes + [l])
  {
    if |likes| > 0 {
      assert (likes + [l])[1..] == likes[1..] + [l];
      KeysAppend(likes[1..], l);
    }
  }

  /** `Like.create({ post, user })`: a duplicate key is rejected by the index. */
  function Insert(likes: seq<Like>, post: Id, user: Id, now: nat): (r: Result<seq<Like>>)
    ensures r.Ok? <==> !Has(likes, post, user)
    ensures r.Ok? ==> Keys(r.value) == Keys(likes) + {(post, user)}
    ensures r.Ok? && Unique(likes) ==> Unique(r.value)
    ensures r.Ok? ==> |r.value| == |likes| + 1 && r.value[..|likes|] == likes
  {
    if Has(likes, post, user) then Err("E11000 duplicate key error collection: likes")
    else
      KeysAppend(likes, Like(post, user, now));
      assert (likes + [Like(post, user, now)])[..|likes|] == likes;
      Ok(likes + [Like(post, user, now)])
  }

  /** `l => l.post == post && l.user == user`. */
  function KeyIs(post: Id, user: Id): Like -> bool {
    (l: Like) => Key(l) == (post, user)
  }

  /** `findOne` followed by `findByIdAndDelete`: drops the first row with the
      key and keeps everything else in order. */
  function Remove(likes: seq<Like>, post: Id, user: Id): (r: seq<Like>)
    ensures |r| == if Has(likes, post, user) then |likes| - 1 else |likes|
    ensures !Has(likes, post, user) ==> r == likes
    ensures Keys(r) <= Keys(likes)
    ensures var k := Position(likes, KeyIs(post, user)); k < |likes| ==> r == likes[..k] + likes[k + 1..]
  {
    if |likes| == 0 then []
    else if Key(likes[0]) == (post, user) then
      assert likes[..0] + likes[1..] == likes[1..];
      likes[1..]
    else
      var t, rest := likes[1..], Remove(likes[1..], post, user);
      var k := Position(t, KeyIs(post, user));
      DropAfterHead(likes, k);
      [likes[0]] + rest
  }


  /** Under the unique index, removing a key takes exactly that key away and
      keeps the index unique. */
  lemma {:induction false} KeysRemove(likes: seq<Like>, post: Id, user: Id)
    requires Unique(likes)
    ensures Keys(Remove(likes, post, user)) == Keys(likes) - {(post, user)}
    ensures Unique(Remove(likes, post, user))
  {
    if |likes| > 0 && Key(likes[0]) != (post, user) {
      KeysRemove(likes[1..], post, user);
      var rest := Remove(likes[1..], post, user);
      assert ([likes[0]] + rest)[1..] == rest;
    }
  }

  /** Removing the key of a row just appended under a fresh key gives back
      the collection as it was. */
  lemma {:induction false} RemoveAppended(likes: seq<Like>, l: Like)
    requires !Has(likes, l.post, l.user)
    ensures Remove(likes + [l], l.post, l.user) == likes
  {
    if |likes| > 0 {
      assert (likes + [l])[1..] == likes[1..] + [l];
      RemoveAppended(likes[1..], l);
    }
  }

  /** `p => p.post == post`: rows about one post. */
  function OnPost(post: Id): Like -> bool {
    (l: Like) => l.post == post
  }

  /** How many likes a post has, as the like collection records it. */
  function CountOn(likes: seq<Like>, post: Id): nat {
    |Filter(likes, OnPost(post))|
  }


  /** Removing an existing like takes one off its post's count and leaves every
      other post's count alone. */
  lemma {:induction false} CountRemove(likes: seq<Like>, post: Id, user: Id, q: Id)
    requires Has(likes, post, user)
    ensures CountOn(Remove(likes, post, user), q) == CountOn(likes, q) - (if q == post then 1 else 0)
  {
    assert likes == [likes[0]] + likes[1..];
    FilterAppend([likes[0]], likes[1..], OnPost(q));
    if Key(likes[0]) != (post, user) {
      CountRemove(likes[1..], post, user, q);
      FilterAppend([likes[0]], Remove(likes[1..], post, user), OnPost(q));
    }
  }
}

=== FILE: notification_model.dfy ===
/** The notification document: who is told what, by whom, about which post or
    comment, and whether it has been read. */
module NotificationModel {
  import opened Common

  /** The closed set of notification kinds (the schema's `enum`). */
  datatype Kind = Like | Comment | Follow | Mention

  /** The stored spelling of a kind. */
  function KindName(k: Kind): string {
    match k
    case Like => "like"
    case Comment => "comment"
    case Follow => "follow"
    case Mention => "mention"
  }

  /** Enum validation: the kind a stored spelling names, if any. */
  function ParseKind(s: string): (r: Option<Kind>)
    ensures r.Some? ==> KindName(r.value) == s
  {
    if s == "like" then Some(Like)
    else if s == "comment" then Some(Comment)
    else if s == "follow" then Some(Follow)
    else if s == "mention" then Some(Mention)
    else None
  }

  /** Every kind's spelling passes enum validation and names that kind, so
      spelling and parsing are mutually inverse on the enum. */
  lemma ParseKindName(k: Kind)
    ensures ParseKind(KindName(k)) == Some(k)
  {
  }

  /** A stored notification. `createdAt` is the schema's creation timestamp. */
  datatype Notification = Notification(
    id: Id,
    recipient: Id,
    sender: Id,
    kind: Kind,
    post: Option<Id>,
    comment: Option<Id>,
    read: bool,
    content: string,
    createdAt: nat)

  /** The fields handed to `Notification.create`; absent fields are `None`. */
  datatype Draft = Draft(
    recipient: Option<Id>,
    sender: Option<Id>,
    kind: Option<string>,
    post: Option<Id>,
    comment: Option<Id>,
    content: Option<string>)

  /** Schema validation and defaults: recipient, sender and kind are required,
      the kind must be in the enum, `read` starts false and `content` defaults
      to the empty string. `id` and `now` are supplied by the database. */
  function Create(d: Draft, id: Id, now: nat): (r: Result<Notification>)
    ensures r.Ok? <==> d.recipient.Some? && d.sender.Some? && d.kind.Some? && ParseKind(d.kind.value).Some?
    ensures r.Ok? ==>
      && r.value.id == id
      && Some(r.value.recipient) == d.recipient
      && Some(r.value.sender) == d.sender
      && d.kind == Some(KindName(r.value.kind))
      && r.value.post == d.post
      && r.value.comment == d.comment
      && !r.value.read
      && r.value.content == d.content.GetOr("")
      && r.value.createdAt == now
  {
    if d.recipient.None? then Err("notification validation failed: recipient: Path `recipient` is required.")
    else if d.sender.None? then Err("notification validation failed: sender: Path `sender` is required.")
    else if d.kind.None? then Err("notification validation failed: type: Path `type` is required.")
    else match ParseKind(d.kind.value)
      case None => Err("notification validation failed: type: not a valid enum value.")
      case Some(k) =>
        Ok(Notification(id, d.recipient.value, d.sender.value, k, d.post, d.comment,
                        false, d.content.GetOr(""), now))
  }
}

=== FILE: notification_routes.dfy ===
/** The notification HTTP endpoints. `routes/notifications.js` holds two
    versions of the router one after the other: one binds the controller
    operations, the other carries its own inline handlers (a recent-50
    listing, mark-one and mark-all). As one module the file redeclares its
    `const`s and does not load; each version is modelled here as a route table
    of its own over the same store. */
module NotificationRoutes {
  import opened Common
  import opened Sorting
  import opened NotificationModel
  import opened NotificationStore
  import Text

  /** The inline listing's cap. */
  const RecentLimit: nat := 50

  /** GET / of the inline block: the caller's rows newest first, at most 50.
      When the caller has no more than 50 rows, that is all of them. */
  function ListRecent(s: Store, caller: Id): (r: seq<Notification>)
    ensures forall i :: 0 <= i < |r| ==> r[i].recipient == caller
    ensures SortedDesc(r, CreatedAt)
    ensures |r| == if |Rows(s, caller)| < RecentLimit then |Rows(s, caller)| else RecentLimit
    ensures forall i :: 0 <= i < |r| ==> i < |NewestFirst(s, caller)| && r[i] == NewestFirst(s, caller)[i]
    ensures |Rows(s, caller)| <= RecentLimit ==> r == NewestFirst(s, caller)
  {
    RowsLength(s, caller);
    var r := PageOfRows(s, caller, 0, RecentLimit);
    assert r == Page(NewestFirst(s, caller), 0, RecentLimit);
    r
  }

  /** PUT /:id/read: `findOneAndUpdate({ _id: id, recipient: caller }, { read: true })`
      marks the first row matching both, and no other. */
  function MarkOne(s: Store, caller: Id, id: Id): (r: (Store, Reply))
    ensures |r.0| == |s|
    ensures forall i :: 0 <= i < |s| ==>
      r.0[i] == s[i] || (s[i].id == id && s[i].recipient == caller && r.0[i] == s[i].(read := true))
    ensures forall i, j :: 0 <= i < j < |s| && r.0[i] != s[i] ==> r.0[j] == s[j]
    ensures !HasRow(s, caller, id) ==> r.0 == s
  {
    (MarkFirst(s, caller, id), Success)
  }

  /** Sets `read` on the first row with id `id` and recipient `caller`. */
  function MarkFirst(s: Store, caller: Id, id: Id): (r: Store)
    ensures |r| == |s|
    ensures forall i :: 0 <= i < |s| ==>
      r[i] == s[i] || (s[i].id == id && s[i].recipient == caller && r[i] == s[i].(read := true))
    ensures forall i, j :: 0 <= i < j < |s| && r[i] != s[i] ==> r[j] == s[j]
    ensures !HasRow(s, caller, id) ==> r == s
  {
    if |s| == 0 then []
    else if s[0].id == id && s[0].recipient == caller then [s[0].(read := true)] + s[1..]
    else
      var rest := MarkFirst(s[1..], caller, id);
      assert forall i :: 1 <= i < |s| ==> ([s[0]] + rest)[i] == rest[i - 1];
      [s[0]] + rest
  }

  /** An id the store does not hold is not marked by a list mark-read. */
  lemma {:induction false} MarkWhereAbsentId(s: Store, caller: Id, id: Id)
    requires id !in Ids(s)
    ensures MarkWhere(s, Selected(caller, Some([id]))) == s
  {
    if |s| > 0 {
      MarkWhereAbsentId(s[1..], caller, id);
    }
  }

  /** With unique ids, marking one row is the controller's mark-read with a
      one-element id list: the two endpoints agree. */
  lemma {:induction false} MarkOneIsMarkAsRead(s: Store, caller: Id, id: Id)
    requires UniqueIds(s)
    ensures MarkOne(s, caller, id).0 == MarkAsRead(s, caller, Some([id])).0
  {
    if |s| > 0 {
      if s[0].id == id && s[0].recipient == caller {
        MarkWhereAbsentId(s[1..], caller, id);
      } else {
        MarkOneIsMarkAsRead(s[1..], caller, id);
      }
    }
  }

  /** Stores that agree, row by row, on recipients, and on every row not
      addressed to `caller`, list the same rows for everyone else. */
  lemma UntouchedRows(s: Store, t: Store, caller: Id, other: Id)
    requires other != caller && |s| == |t|
    requires forall i :: 0 <= i < |s| ==> t[i].recipient == s[i].recipient
    requires forall i :: 0 <= i < |s| && s[i].recipient != caller ==> t[i] == s[i]
    ensures Rows(t, other) == Rows(s, other)
  {
    FilterPointwise(s, t, OfUser(other));
  }

  /** PUT /read-all: `updateMany({ recipient: caller, read: false }, { read: true })`.
      Afterwards the caller has nothing unread, and every other user's rows
      and count are as before. */
  function MarkAll(s: Store, caller: Id): (r: (Store, Reply))
    ensures |r.0| == |s| && Ids(r.0) == Ids(s)
    ensures Unread(r.0, caller) == 0
    ensures forall i :: 0 <= i < |s| && s[i].recipient == caller ==> r.0[i] == s[i].(read := true)
    ensures forall i :: 0 <= i < |s| && s[i].recipient != caller ==> r.0[i] == s[i]
    ensures forall other :: other != caller ==> Unread(r.0, other) == Unread(s, other)
  {
    var t := MarkAsRead(s, caller, None).0;
    MarkAllClearsUnread(s, caller);
    forall other | other != caller ensures Unread(t, other) == Unread(s, other) {
      MarkAsReadKeepsOthersCount(s, caller, None, other);
    }
    (t, Success)
  }

  /** HTTP verbs the routers bind. */
  datatype Verb = Get | Post | Put | Patch | Delete

  /** What a route runs once matched. */
  datatype Handler =
    | ControllerList | ControllerMarkRead | ControllerUnreadCount | ControllerDelete
    | RecentList | MarkOneRead | MarkAllRead

  /** A route: verb, path pattern as segments (`:name` binds a parameter),
      handler. Every route verifies the token as its own middleware, so only
      after it has matched. */
  datatype Route = Route(verb: Verb, pattern: seq<string>, handler: Handler)

  /** The router that binds the controller operations. */
  const ControllerRoutes: seq<Route> := [
    Route(Get, [], ControllerList),
    Route(Patch, ["mark-read"], ControllerMarkRead),
    Route(Get, ["unread-count"], ControllerUnreadCount),
    Route(Delete, [":notificationId"], ControllerDelete)]

  /** The router with inline handlers. */
  const InlineRoutes: seq<Route> := [
    Route(Get, [], RecentList),
    Route(Put, [":id", "read"], MarkOneRead),
    Route(Put, ["read-all"], MarkAllRead)]

  predicate IsParam(pat: string) {
    |pat| > 0 && pat[0] == ':'
  }

  /** One pattern segment against one path segment: a parameter takes any
      non-empty segment, a literal only itself up to case, since an Express
      router matches paths case-insensitively by default. Every literal of
      both tables is lower-case ASCII, so lower-casing the path's ASCII
      letters decides it exactly. */
  predicate SegmentMatches(pat: string, seg: string) {
    if IsParam(pat) then seg != "" else Text.ToLower(seg) == pat
  }

  predicate Matches(rt: Route, verb: Verb, segs: seq<string>) {
    && rt.verb == verb
    && |rt.pattern| == |segs|
    && forall i :: 0 <= i < |segs| ==> SegmentMatches(rt.pattern[i], segs[i])
  }

  /** The parameters a matched pattern binds, by name without the colon. */
  function Params(pattern: seq<string>, segs: seq<string>): (m: map<string, string>)
    requires |pattern| == |segs|
    ensures forall i :: 0 <= i < |pattern| && IsParam(pattern[i]) ==> pattern[i][1..] in m
  {
    if |pattern| == 0 then map[]
    else
      var rest := Params(pattern[1..], segs[1..]);
      if IsParam(pattern[0]) then rest[pattern[0][1..] := segs[0]] else rest
  }

  /** `req.params[name]`; `undefined` (here "") when unbound. */
  function Param(m: map<string, string>, name: string): string {
    if name in m then m[name] else ""
  }

  /** Express dispatch: the index of the first route that matches, if any. */
  function Resolve(table: seq<Route>, verb: Verb, segs: seq<string>): (r: Option<nat>)
    ensures r.Some? ==> r.value < |table| && Matches(table[r.value], verb, segs)
    ensures r.Some? ==> forall j :: 0 <= j < r.value ==> !Matches(table[j], verb, segs)
    ensures r.None? <==> forall j :: 0 <= j < |table| ==> !Matches(table[j], verb, segs)
  {
    ResolveFrom(table, verb, segs, 0)
  }

  function ResolveFrom(table: seq<Route>, verb: Verb, segs: seq<string>, k: nat): (r: Option<nat>)
    requires k <= |table|
    requires forall j :: 0 <= j < k ==> !Matches(table[j], verb, segs)
    ensures r.Some? ==> k <= r.value < |table| && Matches(table[r.value], verb, segs)
    ensures r.Some? ==> forall j :: 0 <= j < r.value ==> !Matches(table[j], verb, segs)
    ensures r.None? <==> forall j :: 0 <= j < |table| ==> !Matches(table[j], verb, segs)
    decreases |table| - k
  {
    if k == |table| then None
    else if Matches(table[k], verb, segs) then Some(k)
    else ResolveFrom(table, verb, segs, k + 1)
  }

  /** A request as the router sees it: verb, path segments below the mount
      point, the body's `notificationIds`, and the `page`/`limit` query. */
  datatype Request = Request(verb: Verb, segments: seq<string>, ids: Option<seq<Id>>, page: Option<nat>, limit: Option<nat>)

  /** Response bodies: a listing, a bare list, a count, `{ success: true }`,
      or an error status. */
  datatype Response =
    | Listed(listing: Listing)
    | Recent(items: seq<Notification>)
    | Count(count: nat)
    | Succeeded
    | Status(code: nat)
    | AppPage

  /** The answer to a request no route matches: the router passes it on, a
      GET reaches the application's catch-all that serves the React build,
      and anything else gets Express's default 404. */
  function Unmatched(verb: Verb): Response {
    if verb == Get then AppPage else Status(404)
  }

  /** Run a matched handler for an authenticated caller. Nothing but the
      caller's own rows ever changes. */
  function Run(h: Handler, params: map<string, string>, req: Request, s: Store, caller: Id): (r: (Store, Response))
    ensures h in {ControllerList, ControllerUnreadCount, RecentList} ==> r.0 == s
    ensures forall other :: other != caller ==> Rows(r.0, other) == Rows(s, other)
    ensures h == ControllerUnreadCount ==> r.1 == Count(Unread(s, caller))
    ensures h in {ControllerMarkRead, ControllerDelete, MarkOneRead, MarkAllRead} ==> r.1 == Succeeded
    ensures h == MarkAllRead ==> Unread(r.0, caller) == 0
  {
    match h
    case ControllerList =>
      (match GetUserNotifications(s, caller, req.page, req.limit)
       case Ok(l) => (s, Listed(l))
       case Err(_) => (s, Status(500)))
    case ControllerMarkRead =>
      var t := MarkAsRead(s, caller, req.ids).0;
      forall other | other != caller ensures Rows(t, other) == Rows(s, other) {
        UntouchedRows(s, t, caller, other);
      }
      (t, Succeeded)
    case ControllerUnreadCount => (s, Count(Unread(s, caller)))
    case ControllerDelete =>
      var id := Param(params, "notificationId");
      forall other | other != caller ensures Rows(DeleteNotification(s, caller, id).0, other) == Rows(s, other) {
        DeleteKeepsOthers(s, caller, id, other);
      }
      (DeleteNotification(s, caller, id).0, Succeeded)
    case RecentList => (s, Recent(ListRecent(s, caller)))
    case MarkOneRead =>
      var t := MarkOne(s, caller, Param(params, "id")).0;
      forall other | other != caller ensures Rows(t, other) == Rows(s, other) {
        UntouchedRows(s, t, caller, other);
      }
      (t, Succeeded)
    case MarkAllRead =>
      var t := MarkAll(s, caller).0;
      forall other | other != caller ensures Rows(t, other) == Rows(s, other) {
        UntouchedRows(s, t, caller, other);
      }
      (t, Succeeded)
  }

  /** One request through a router. Token verification is per-route
      middleware, so it runs only once a route has matched: a request that
      matches no route is passed on whoever sends it, and a matched one
      without a user is refused (401). Neither touches the store. */
  function Serve(table: seq<Route>, req: Request, s: Store, caller: Option<Id>): (r: (Store, Response))
    ensures Resolve(table, req.verb, req.segments).None? ==> r == (s, Unmatched(req.verb))
    ensures Resolve(table, req.verb, req.segments).Some? && caller.None? ==> r == (s, Status(401))
    ensures caller.None? ==> r.0 == s
    ensures caller.Some? ==> forall other :: other != caller.value ==> Rows(r.0, other) == Rows(s, other)
  {
    match Resolve(table, req.verb, req.segments)
    case None => (s, Unmatched(req.verb))
    case Some(k) =>
      if caller.None? then (s, Status(401))
      else Run(table[k].handler, Params(table[k].pattern, req.segments), req, s, caller.value)
  }

  /** Authentication comes after routing: without a user, a POST that no
      inline route binds is Express's 404 and a GET that no controller route
      binds reaches the catch-all; only a matched route answers 401. */
  lemma UnmatchedSkipsAuth(s: Store)
    ensures Serve(InlineRoutes, Request(Post, ["x", "read"], None, None, None), s, None) == (s, Status(404))
    ensures Serve(ControllerRoutes, Request(Get, ["x"], None, None, None), s, None) == (s, AppPage)
    ensures Serve(InlineRoutes, Request(Put, ["read-all"], None, None, None), s, None) == (s, Status(401))
  {
    assert !Matches(InlineRoutes[1], Post, ["x", "read"]);
    UnknownGetUnmatched();
    PutReadAllResolves(s, "");
  }

  /** No controller route takes GET /x. */
  lemma UnknownGetUnmatched()
    ensures Resolve(ControllerRoutes, Get, ["x"]).None?
  {
    assert !Matches(ControllerRoutes[2], Get, ["x"]) by {
      assert |Text.ToLower("x")| == 1 != |"unread-count"|;
      assert !SegmentMatches(ControllerRoutes[2].pattern[0], "x");
    }
  }

  /** The path with every segment's ASCII letters lower-cased. */
  function LowerAll(segs: seq<string>): (r: seq<string>)
    ensures |r| == |segs|
    ensures forall i :: 0 <= i < |segs| ==> r[i] == Text.ToLower(segs[i])
  {
    seq(|segs|, i requires 0 <= i < |segs| => Text.ToLower(segs[i]))
  }

  /** Routing ignores the case of the path: a path and its lower-cased form
      resolve to the same route, on any table. */
  lemma ResolveIgnoresCase(table: seq<Route>, verb: Verb, segs: seq<string>)
    ensures Resolve(table, verb, segs) == Resolve(table, verb, LowerAll(segs))
  {
    var low := LowerAll(segs);
    forall rt: Route ensures Matches(rt, verb, segs) <==> Matches(rt, verb, low) {
      forall i | 0 <= i < |segs| && i < |rt.pattern|
        ensures SegmentMatches(rt.pattern[i], segs[i]) <==> SegmentMatches(rt.pattern[i], low[i])
      {
        Text.ToLowerIdempotent(segs[i]);
      }
    }
    var a, b := Resolve(table, verb, segs), Resolve(table, verb, low);
    if a.Some? && b.Some? {
      assert !(a.value < b.value) && !(b.value < a.value);
    }
  }

  /** The controller router's count route, requested in capitals. */
  lemma UpperCaseCountResolves(s: Store, caller: Id)
    ensures Resolve(ControllerRoutes, Get, ["UNREAD-COUNT"]) == Some(2)
    ensures Serve(ControllerRoutes, Request(Get, ["UNREAD-COUNT"], None, None, None), s, Some(caller)) ==
            (s, Count(Unread(s, caller)))
  {
    UpperCaseCountRoute();
  }

  lemma UpperCaseCountRoute()
    ensures Resolve(ControllerRoutes, Get, ["UNREAD-COUNT"]) == Some(2)
  {
    LowerCountPath();
    ResolveIgnoresCase(ControllerRoutes, Get, ["UNREAD-COUNT"]);
    CountRouteResolves();
  }

  lemma LowerCountPath()
    ensures LowerAll(["UNREAD-COUNT"]) == ["unread-count"]
  {
    Text.LowerWord("UNREAD-COUNT", "unread-count");
  }

  /** PUT /:id/read through the inline router reaches mark-one with the id
      from the path. */
  lemma PutReadResolves(id: Id, s: Store, caller: Id)
    requires id != ""
    ensures Resolve(InlineRoutes, Put, [id, "read"]) == Some(1)
    ensures Serve(InlineRoutes, Request(Put, [id, "read"], None, None, None), s, Some(caller)) ==
            (MarkOne(s, caller, id).0, Succeeded)
  {
    assert Matches(InlineRoutes[1], Put, [id, "read"]);
    assert !IsParam("read") && ":id"[1..] == "id";
    assert Params(["read"], ["read"]) == map[];
    assert [":id", "read"][1..] == ["read"] && [id, "read"][1..] == ["read"];
    assert Params([":id", "read"], [id, "read"]) == map["id" := id];
  }

  /** PUT /read-all through the inline router reaches mark-all. No id makes
      PUT /read-all and PUT /:id/read ambiguous, because the patterns differ
      in length. */
  lemma PutReadAllResolves(s: Store, caller: Id)
    ensures Resolve(InlineRoutes, Put, ["read-all"]) == Some(2)
    ensures Serve(InlineRoutes, Request(Put, ["read-all"], None, None, None), s, Some(caller)) ==
            (MarkAll(s, caller).0, Succeeded)
  {
    assert !Matches(InlineRoutes[1], Put, ["read-all"]);
    assert Matches(InlineRoutes[2], Put, ["read-all"]);
  }

  lemma LowerCountLiteral()
    ensures Text.ToLower("unread-count") == "unread-count"
  {
    Text.ToLowerKeepsLower("unread-count");
  }

  /** GET /unread-count is not taken for the listing or the mark route. */
  lemma CountRouteResolves()
    ensures Resolve(ControllerRoutes, Get, ["unread-count"]) == Some(2)
  {
    LowerCountLiteral();
    assert !Matches(ControllerRoutes[0], Get, ["unread-count"]);
    assert !Matches(ControllerRoutes[1], Get, ["unread-count"]);
    assert Matches(ControllerRoutes[2], Get, ["unread-count"]);
  }

  /** DELETE /:notificationId takes any non-empty id. */
  lemma DeleteRouteResolves(id: Id)
    requires id != ""
    ensures Resolve(ControllerRoutes, Delete, [id]) == Some(3)
    ensures Params(ControllerRoutes[3].pattern, [id]) == map["notificationId" := id]
  {
    assert Matches(ControllerRoutes[3], Delete, [id]);
    assert ":notificationId"[1..] == "notificationId";
  }

  /** In the controller router, `unread-count` is taken by its own GET route,
      and DELETE /:notificationId deletes the named row. */
  lemma ControllerRoutesResolve(id: Id, s: Store, caller: Id)
    requires id != ""
    ensures Serve(ControllerRoutes, Request(Get, ["unread-count"], None, None, None), s, Some(caller)) ==
            (s, Count(Unread(s, caller)))
    ensures Serve(ControllerRoutes, Request(Delete, [id], None, None, None), s, Some(caller)) ==
            (DeleteNotification(s, caller, id).0, Succeeded)
  {
    CountRouteResolves();
    DeleteRouteResolves(id);
  }
}

=== FILE: notification_store.dfy ===
/** The notification collection and the controller operations over it:
    listing with paging, scoped mark-read, the unread count and scoped delete.
    The collection is a sequence in insertion order; every query is a filter
    over it. */
module NotificationStore {
  import opened Common
  import opened Sorting
  import opened NotificationModel

  type Store = seq<Notification>

  /** The ids present in the store. */
  function Ids(s: Store): set<Id> {
    if |s| == 0 then {} else {s[0].id} + Ids(s[1..])
  }

  /** No two rows share an id. */
  predicate UniqueIds(s: Store) {
    |s| == 0 || (s[0].id !in Ids(s[1..]) && UniqueIds(s[1..]))
  }

  /** Appending a row adds exactly its id, and keeps ids unique when fresh. */
  lemma {:induction false} IdsAppend(s: Store, n: Notification)
    ensures Ids(s + [n]) == Ids(s) + {n.id}
    ensures UniqueIds(s) && n.id !in Ids(s) ==> UniqueIds(s + [n])
  {
    if |s| > 0 {
      assert (s + [n])[1..] == s[1..] + [n];
      IdsAppend(s[1..], n);
    }
  }

  /** `{ recipient: user }`. */
  function OfUser(user: Id): Notification -> bool {
    (n: Notification) => n.recipient == user
  }

  /** `{ recipient: user, read: false }`. */
  function UnreadOf(user: Id): Notification -> bool {
    (n: Notification) => n.recipient == user && !n.read
  }

  /** A user's rows, in store order. */
  function Rows(s: Store, user: Id): seq<Notification> {
    Filter(s, OfUser(user))
  }

  /** The unread count: how many of the user's rows are unread. */
  function Unread(s: Store, user: Id): nat {
    |Filter(s, UnreadOf(user))|
  }

  /** `getUnreadCount`: `countDocuments({ recipient, read: false })`, a scan
      over the collection. */
  method GetUnreadCount(s: Store, caller: Id) returns (count: nat)
    ensures count == Unread(s, caller)
  {
    count := 0;
    var i := 0;
    while i < |s|
      invariant 0 <= i <= |s|
      invariant count == |Filter(s[..i], UnreadOf(caller))|
    {
      assert s[..i + 1] == s[..i] + [s[i]];
      FilterAppend(s[..i], [s[i]], UnreadOf(caller));
      if s[i].recipient == caller && !s[i].read {
        count := count + 1;
      }
      i := i + 1;
    }
    assert s[..i] == s;
  }

  /** The sort key of `.sort({ createdAt: -1 })`. */
  function CreatedAt(n: Notification): int {
    n.createdAt
  }

  /** A user's rows, newest first. */
  function NewestFirst(s: Store, user: Id): (r: seq<Notification>)
    ensures SortedDesc(r, CreatedAt)
    ensures multiset(r) == multiset(Rows(s, user))
  {
    SortDesc(Rows(s, user), CreatedAt)
  }

  /** The body of a `getUserNotifications` reply. */
  datatype Listing = Listing(notifications: seq<Notification>, total: nat, hasMore: bool)

  /** The page size and page number after defaults (`page = 1`,
      `limit = 20`). */
  function PageOf(page: Option<nat>): nat { page.GetOr(1) }
  function LimitOf(limit: Option<nat>): nat { limit.GetOr(20) }

  /** One page of the caller's rows, newest first. */
  function PageOfRows(s: Store, caller: Id, skip: nat, limit: nat): (items: seq<Notification>)
    ensures forall i :: 0 <= i < |items| ==> items[i].recipient == caller
    ensures SortedDesc(items, CreatedAt)
    ensures limit > 0 ==> |items| <= limit
    ensures |items| == PageLength(|Rows(s, caller)|, skip, limit)
    ensures multiset(items) <= multiset(Rows(s, caller))
    ensures |items| > 0 <==> skip < |Rows(s, caller)|
    ensures forall i :: 0 <= i < |items| ==> skip + i < |Rows(s, caller)| && items[i] == NewestFirst(s, caller)[skip + i]
  {
    var sorted := NewestFirst(s, caller);
    RowsLength(s, caller);
    PageSorted(sorted, skip, limit, CreatedAt);
    PageSubMultiset(sorted, skip, limit);
    OfUserClosed(Page(sorted, skip, limit), Rows(s, caller), caller);
    Page(sorted, skip, limit)
  }

  /** Sorting keeps the number of rows. */
  lemma RowsLength(s: Store, caller: Id)
    ensures |NewestFirst(s, caller)| == |Rows(s, caller)|
  {
    assert |multiset(NewestFirst(s, caller))| == |multiset(Rows(s, caller))|;
  }

  /** Whatever is drawn from a user's rows belongs to that user. */
  lemma OfUserClosed(xs: seq<Notification>, rows: seq<Notification>, caller: Id)
    requires multiset(xs) <= multiset(rows)
    requires forall j :: 0 <= j < |rows| ==> rows[j].recipient == caller
    ensures forall i :: 0 <= i < |xs| ==> xs[i].recipient == caller
  {
    forall i | 0 <= i < |xs| ensures xs[i].recipient == caller {
      assert xs[i] in multiset(xs);
      assert xs[i] in rows;
    }
  }

  /** `getUserNotifications`: the caller's rows newest first, skipping
      `(page - 1) * limit` and returning at most `limit` (0 means no limit);
      `total` counts all the caller's rows and `hasMore` says whether
      `total > page * limit`. A negative skip is rejected by the database and
      reported as a 500. */
  function GetUserNotifications(s: Store, caller: Id, page: Option<nat>, limit: Option<nat>): (r: Result<Listing>)
    ensures r.Err? <==> PageOf(page) == 0 && LimitOf(limit) > 0
    ensures r.Ok? ==>
      var items := r.value.notifications;
      && (forall i :: 0 <= i < |items| ==> items[i].recipient == caller)
      && SortedDesc(items, CreatedAt)
      && (LimitOf(limit) > 0 ==> |items| <= LimitOf(limit))
      && 0 <= Skip(PageOf(page), LimitOf(limit))
      && |items| == PageLength(|Rows(s, caller)|, Skip(PageOf(page), LimitOf(limit)), LimitOf(limit))
      && multiset(items) <= multiset(Rows(s, caller))
      && r.value.total == |Rows(s, caller)|
      && (|items| > 0 <==> Skip(PageOf(page), LimitOf(limit)) < |Rows(s, caller)|)
      && (forall i :: 0 <= i < |items| ==>
            var k := Skip(PageOf(page), LimitOf(limit)) + i;
            0 <= k < |Rows(s, caller)| && items[i] == NewestFirst(s, caller)[k])
      && (r.value.hasMore <==> |Rows(s, caller)| > Through(PageOf(page), LimitOf(limit)))
  {
    var p, l := PageOf(page), LimitOf(limit);
    var skip := Skip(p, l);
    if skip < 0 then Err("BadValue: skip value must be non-negative")
    else
      var total := |Rows(s, caller)|;
      Ok(Listing(PageOfRows(s, caller, skip, l), total, total > Through(p, l)))
  }

  /** A page is a sub-multiset of what it pages over. */
  lemma PageSubMultiset<T>(xs: seq<T>, skip: nat, limit: nat)
    ensures multiset(Page(xs, skip, limit)) <= multiset(xs)
  {
    var r := Page(xs, skip, limit);
    if skip < |xs| {
      var e := if limit == 0 || skip + limit >= |xs| then |xs| else skip + limit;
      assert r == xs[skip..e];
      assert xs == xs[..skip] + xs[skip..e] + xs[e..];
    }
  }

  /** `hasMore` is accurate: with a page size, it holds exactly when the next
      page is non-empty. */
  lemma HasMoreIffNextPage(s: Store, caller: Id, page: nat, limit: nat)
    requires page >= 1 && limit >= 1
    ensures GetUserNotifications(s, caller, Some(page), Some(limit)).Ok?
    ensures GetUserNotifications(s, caller, Some(page + 1), Some(limit)).Ok?
    ensures GetUserNotifications(s, caller, Some(page), Some(limit)).value.hasMore <==>
            |GetUserNotifications(s, caller, Some(page + 1), Some(limit)).value.notifications| > 0
  {
    var here := GetUserNotifications(s, caller, Some(page), Some(limit));
    var next := GetUserNotifications(s, caller, Some(page + 1), Some(limit));
    ListingShape(s, caller, page, limit);
    ListingShape(s, caller, page + 1, limit);
    NextSkip(page, limit);
    assert here.Ok? && next.Ok?;
    assert here.value.hasMore <==> |next.value.notifications| > 0;
  }

  /** What one page's reply says about its size and `hasMore`. */
  lemma ListingShape(s: Store, caller: Id, page: nat, limit: nat)
    requires page >= 1
    ensures var r := GetUserNotifications(s, caller, Some(page), Some(limit));
            && r.Ok?
            && (r.value.hasMore <==> |Rows(s, caller)| > Through(page, limit))
            && (|r.value.notifications| > 0 <==> Skip(page, limit) < |Rows(s, caller)|)
  {
    assert PageOf(Some(page)) == page && LimitOf(Some(limit)) == limit;
  }

  /** The reply to a mark-read request; it reports success however many rows
      matched. */
  datatype Reply = Success

  /** `updateMany(filter, { read: true })`. */
  function MarkWhere(s: Store, sel: Notification -> bool): (r: Store)
    ensures |r| == |s|
    ensures forall i :: 0 <= i < |s| ==> r[i] == if sel(s[i]) then s[i].(read := true) else s[i]
  {
    if |s| == 0 then [] else [if sel(s[0]) then s[0].(read := true) else s[0]] + MarkWhere(s[1..], sel)
  }

  /** The rows a mark-read request selects: with a non-empty id list, the
      caller's rows with those ids; otherwise the caller's unread rows. */
  function Selected(caller: Id, ids: Option<seq<Id>>): Notification -> bool {
    if ids.Some? && |ids.value| > 0 then
      (n: Notification) => n.id in ids.value && n.recipient == caller
    else
      UnreadOf(caller)
  }

  /** `markAsRead`: the ids named in the body, scoped to the caller; an
      absent or empty list marks all of the caller's unread rows. Only the
      `read` flag ever changes, it only goes from false to true, and other
      recipients' rows are untouched. */
  function MarkAsRead(s: Store, caller: Id, ids: Option<seq<Id>>): (r: (Store, Reply))
    ensures |r.0| == |s| && Ids(r.0) == Ids(s)
    ensures forall i :: 0 <= i < |s| ==> r.0[i] == s[i].(read := r.0[i].read)
    ensures forall i :: 0 <= i < |s| ==> s[i].read ==> r.0[i].read
    ensures forall i :: 0 <= i < |s| && s[i].recipient != caller ==> r.0[i] == s[i]
    ensures ids.Some? && |ids.value| > 0 ==>
      forall i :: 0 <= i < |s| ==> (r.0[i].read <==> s[i].read || (s[i].id in ids.value && s[i].recipient == caller))
    ensures ids.None? || |ids.value| == 0 ==>
      forall i :: 0 <= i < |s| ==> (r.0[i].read <==> s[i].read || s[i].recipient == caller)
  {
    var t := MarkWhere(s, Selected(caller, ids));
    IdsSameShape(s, t);
    (t, Success)
  }

  /** Two stores that agree row by row on ids have the same id set. */
  lemma {:induction false} IdsSameShape(s: Store, t: Store)
    requires |s| == |t|
    requires forall i :: 0 <= i < |s| ==> t[i].id == s[i].id
    ensures Ids(t) == Ids(s)
    ensures UniqueIds(s) ==> UniqueIds(t)
  {
    if |s| > 0 {
      IdsSameShape(s[1..], t[1..]);
    }
  }

  /** Marking is idempotent: repeating a request changes nothing. */
  lemma MarkAsReadIdempotent(s: Store, caller: Id, ids: Option<seq<Id>>)
    ensures MarkAsRead(MarkAsRead(s, caller, ids).0, caller, ids).0 == MarkAsRead(s, caller, ids).0
  {
    var once := MarkAsRead(s, caller, ids).0;
    var twice := MarkAsRead(once, caller, ids).0;
    forall i | 0 <= i < |s| ensures twice[i] == once[i] {
    }
  }

  /** After marking all, the caller has no unread rows. */
  lemma MarkAllClearsUnread(s: Store, caller: Id)
    ensures Unread(MarkAsRead(s, caller, None).0, caller) == 0
  {
    var t := MarkAsRead(s, caller, None).0;
    FilterNone(t, UnreadOf(caller));
  }

  /** Marking only touches the caller's rows, so every other user's unread
      count is unchanged. */
  lemma MarkAsReadKeepsOthersCount(s: Store, caller: Id, ids: Option<seq<Id>>, other: Id)
    requires other != caller
    ensures Unread(MarkAsRead(s, caller, ids).0, other) == Unread(s, other)
  {
    var t := MarkAsRead(s, caller, ids).0;
    FilterPointwise(s, t, UnreadOf(other));
  }

  /** Ids that belong to other recipients select nothing: the store and the
      caller's count are unchanged. */
  lemma MarkForeignIdsNoop(s: Store, caller: Id, ids: seq<Id>)
    requires |ids| > 0
    requires forall i :: 0 <= i < |s| && s[i].id in ids ==> s[i].recipient != caller
    ensures MarkAsRead(s, caller, Some(ids)).0 == s
  {
    var t := MarkAsRead(s, caller, Some(ids)).0;
    assert forall i :: 0 <= i < |s| ==> t[i] == s[i];
  }

  /** Two stores that agree on the rows a predicate selects filter alike. */
  lemma {:induction false} FilterPointwise(s: Store, t: Store, p: Notification -> bool)
    requires |s| == |t|
    requires forall i :: 0 <= i < |s| ==> (p(s[i]) || p(t[i]) ==> s[i] == t[i])
    ensures Filter(s, p) == Filter(t, p)
  {
    if |s| > 0 {
      FilterPointwise(s[1..], t[1..], p);
    }
  }

  /** Some row has id `id` and recipient `caller`. */
  predicate HasRow(s: Store, caller: Id, id: Id) {
    |s| > 0 && ((s[0].id == id && s[0].recipient == caller) || HasRow(s[1..], caller, id))
  }

  /** `findOneAndDelete({ _id: id, recipient: caller })`: removes the first
      row matching both, if any. */
  function DeleteNotification(s: Store, caller: Id, id: Id): (r: (Store, Reply))
    ensures |r.0| == if HasRow(s, caller, id) then |s| - 1 else |s|
    ensures !HasRow(s, caller, id) ==> r.0 == s
    ensures Ids(r.0) <= Ids(s)
    ensures var k := Position(s, RowIs(caller, id)); k < |s| ==> r.0 == s[..k] + s[k + 1..]
  {
    DeleteFirstAt(s, caller, id);
    (DeleteFirst(s, caller, id), Success)
  }

  /** Drops the first row with id `id` and recipient `caller`. */
  function DeleteFirst(s: Store, caller: Id, id: Id): (r: Store)
    ensures |r| == if HasRow(s, caller, id) then |s| - 1 else |s|
    ensures !HasRow(s, caller, id) ==> r == s
    ensures Ids(r) <= Ids(s)
  {
    if |s| == 0 then []
    else if s[0].id == id && s[0].recipient == caller then s[1..]
    else
      assert ([s[0]] + DeleteFirst(s[1..], caller, id))[1..] == DeleteFirst(s[1..], caller, id);
      [s[0]] + DeleteFirst(s[1..], caller, id)
  }

  /** The row `DeleteFirst` removes is the first one with that id and that
      recipient; every other row stays, in order. */
  lemma {:induction false} DeleteFirstAt(s: Store, caller: Id, id: Id)
    ensures var k := Position(s, RowIs(caller, id)); k < |s| ==> DeleteFirst(s, caller, id) == s[..k] + s[k + 1..]
  {
    if |s| > 0 {
      if s[0].id == id && s[0].recipient == caller {
        assert s[..0] + s[1..] == s[1..];
      } else {
        DeleteFirstAt(s[1..], caller, id);
        DropAfterHead(s, Position(s[1..], RowIs(caller, id)));
      }
    }
  }

  /** `{ _id: id, recipient: caller }` as a row predicate. */
  function RowIs(caller: Id, id: Id): Notification -> bool {
    (n: Notification) => n.id == id && n.recipient == caller
  }


  /** Deleting never touches another recipient's rows. */
  lemma {:induction false} DeleteKeepsOthers(s: Store, caller: Id, id: Id, other: Id)
    requires other != caller
    ensures Rows(DeleteNotification(s, caller, id).0, other) == Rows(s, other)
  {
    if |s| > 0 {
      assert s == [s[0]] + s[1..];
      FilterAppend([s[0]], s[1..], OfUser(other));
      if !(s[0].id == id && s[0].recipient == caller) {
        DeleteKeepsOthers(s[1..], caller, id, other);
        FilterAppend([s[0]], DeleteFirst(s[1..], caller, id), OfUser(other));
      }
    }
  }

  /** Under unique ids, the deleted row is gone for good and ids stay unique. */
  lemma {:induction false} DeleteRemovesRow(s: Store, caller: Id, id: Id)
    requires UniqueIds(s)
    ensures UniqueIds(DeleteNotification(s, caller, id).0)
    ensures !HasRow(DeleteNotification(s, caller, id).0, caller, id)
  {
    if |s| > 0 {
      if s[0].id == id && s[0].recipient == caller {
        NotInIdsNoRow(s[1..], caller, id);
      } else {
        DeleteRemovesRow(s[1..], caller, id);
        var rest := DeleteFirst(s[1..], caller, id);
        assert ([s[0]] + rest)[1..] == rest;
      }
    }
  }

  /** A row can only be found under an id the store holds. */
  lemma {:induction false} NotInIdsNoRow(s: Store, caller: Id, id: Id)
    requires id !in Ids(s)
    ensures !HasRow(s, caller, id)
  {
    if |s| > 0 {
      NotInIdsNoRow(s[1..], caller, id);
    }
  }
}

=== FILE: post_card.dfy ===
/** A post in the feed as the client shows it: the like and save toggles
    applied optimistically and rolled back when the request throws, the
    two-step delete, and the in-place editor whose reply is merged over the
    shown post. Requests are effects; their outcomes are events. */
module PostCard {
  import opened Common
  import PostModel
  import LikeModel
  import NotificationStore
  import opened Database
  import opened PostRoutes
  import opened Producer

  /** The post object the card was given. Optional keys are `None` when the
      object lacks them; `fields` holds the other displayed keys (title,
      content, image, tags, ...) that an edit may overwrite. */
  datatype CardPost = CardPost(
    id: Id,
    posterId: Id,
    posterName: string,
    likeCount: Option<int>,
    isLiked: Option<bool>,
    isSaved: Option<bool>,
    fields: map<string, string>)

  /** The card's state. `user` is the id `isLoggedIn()` yields, if any: the
      object it returns carries `id` and nothing else. `hasRemove` says
      whether the parent passed `removePost`. */
  datatype State = State(
    post: CardPost,
    user: Option<Id>,
    hasRemove: bool,
    editing: bool,
    loading: bool,
    confirm: bool,
    liked: bool,
    saved: bool,
    likeCount: int)

  /** The initial state: `liked`, `saved` and `likeCount` come from the post
      (`|| false`, `|| 0`); nothing is being edited, loaded or confirmed. */
  function Init(p: CardPost, user: Option<Id>, hasRemove: bool): (s: State)
    ensures s.post == p && s.user == user && !s.editing && !s.loading && !s.confirm
    ensures s.liked == (p.isLiked == Some(true)) && s.saved == (p.isSaved == Some(true))
    ensures s.likeCount == p.likeCount.GetOr(0)
  {
    State(p, user, hasRemove, false, false, false,
          p.isLiked.GetOr(false), p.isSaved.GetOr(false), p.likeCount.GetOr(0))
  }

  /** The `username` of the object `isLoggedIn()` returns: it has none. */
  const TokenUsername: Option<string> := None

  /** `isAuthor` as written: `user && user.username === post.poster.username`.
      The logged-in object has no `username`, and the populated poster always
      has one, so the comparison is `undefined === name`. */
  predicate IsAuthorAsWritten(s: State) {
    s.user.Some? && TokenUsername == Some(s.post.posterName)
  }

  /** The evidently intended check: the logged-in id is the poster's id. */
  predicate IsAuthor(s: State) {
    s.user == Some(s.post.posterId)
  }

  /** The author check a card runs with: as written, or as intended. */
  predicate Author(s: State, asWritten: bool) {
    if asWritten then IsAuthorAsWritten(s) else IsAuthor(s)
  }

  /** As written no card ever shows its edit and delete controls, not even
      to the post's own author. */
  lemma AsWrittenNobodyIsAuthor(s: State)
    ensures !IsAuthorAsWritten(s)
    ensures IsAuthor(s) ==> IsAuthor(s) != IsAuthorAsWritten(s)
  {
  }

  /** How the edit request settled: a 2xx reply carrying the updated fields, a
      non-2xx reply, or a thrown `fetch`. */
  datatype SubmitOutcome = Updated(fields: map<string, string>) | NotOk | Threw

  /** What can happen on the card. A `...Failed` event is the rollback in the
      request's `catch`; `captured` is the `liked`/`saved` value the click
      handler closed over. */
  datatype Event =
    | LikeClick
    | LikeFailed(captured: bool)
    | SaveClick
    | SaveFailed(captured: bool)
    | DeleteClick
    | DeleteSettled(reached: bool)
    | CancelDelete
    | EditToggle
    | Submit(content: string, userId: Id)
    | SubmitSettled(outcome: SubmitOutcome)

  /** Requests the card sends and the two ways it leaves after a delete. */
  datatype Effect =
    | SendLike(post: Id)
    | SendSave(post: Id)
    | SendDelete(post: Id)
    | SendEdit(post: Id, content: string, userId: Id)
    | RemoveFromList
    | GoHome

  /** `{ ...post, ...updatedPost }`: every key of the reply wins, every other
      key is kept. */
  function Merge(current: map<string, string>, updated: map<string, string>): (r: map<string, string>)
    ensures r.Keys == current.Keys + updated.Keys
    ensures forall k :: k in updated ==> r[k] == updated[k]
    ensures forall k :: k in current && k !in updated ==> r[k] == current[k]
  {
    current + updated
  }

  /** One event, with the author check run as written or as intended. */
  function Step(s: State, e: Event, asWritten: bool): (r: (State, seq<Effect>))
    // like and save: nothing without a user; otherwise flip now, send, undo on a throw
    ensures s.user.None? && (e == LikeClick || e == SaveClick) ==> r == (s, [])
    ensures s.user.Some? && e == LikeClick ==>
      && r.0 == s.(liked := !s.liked, likeCount := if s.liked then s.likeCount - 1 else s.likeCount + 1)
      && r.1 == [SendLike(s.post.id)]
    ensures e.LikeFailed? ==>
      r.0 == s.(liked := e.captured, likeCount := if e.captured then s.likeCount + 1 else s.likeCount - 1) && r.1 == []
    ensures s.user.Some? && e == SaveClick ==> r == (s.(saved := !s.saved), [SendSave(s.post.id)])
    ensures e.SaveFailed? ==> r == (s.(saved := e.captured), [])
    // delete: the first click only arms the confirmation; a delete is sent only when it is armed
    ensures (exists p :: SendDelete(p) in r.1) <==> e == DeleteClick && s.confirm && !s.loading
    ensures e == DeleteClick && !s.confirm && Author(s, asWritten) && !s.loading ==> r == (s.(confirm := true), [])
    ensures e == DeleteClick && s.confirm && !s.loading ==> r == (s.(loading := true), [SendDelete(s.post.id)])
    ensures e == CancelDelete && s.confirm && !s.loading ==> r == (s.(confirm := false), [])
    ensures e.DeleteSettled? && e.reached ==> !r.0.loading && r.1 == [if s.hasRemove then RemoveFromList else GoHome]
    // edit: only the author opens the editor; a 2xx merges and closes, a non-2xx closes
    ensures e == EditToggle ==> r.0.editing == (if Author(s, asWritten) && !s.loading then !s.editing else s.editing)
    ensures e.Submit? ==> r == (s.(loading := true), [SendEdit(s.post.id, e.content, e.userId)])
    ensures e.SubmitSettled? ==> !r.0.loading && r.1 == []
    ensures e.SubmitSettled? && e.outcome.Updated? ==>
      !r.0.editing && r.0.post.fields == Merge(s.post.fields, e.outcome.fields)
    ensures e.SubmitSettled? && e.outcome.NotOk? ==> !r.0.editing && r.0.post == s.post
    ensures e.SubmitSettled? && e.outcome.Threw? ==> r.0 == s.(loading := false)
    // the shown post changes only by a merged edit
    ensures r.0.post != s.post ==> e.SubmitSettled? && e.outcome.Updated?
  {
    match e
    case LikeClick =>
      if s.user.None? then (s, [])
      else (s.(liked := !s.liked, likeCount := if s.liked then s.likeCount - 1 else s.likeCount + 1),
            [SendLike(s.post.id)])
    case LikeFailed(captured) =>
      (s.(liked := captured, likeCount := if captured then s.likeCount + 1 else s.likeCount - 1), [])
    case SaveClick =>
      if s.user.None? then (s, []) else (s.(saved := !s.saved), [SendSave(s.post.id)])
    case SaveFailed(captured) => (s.(saved := captured), [])
    case DeleteClick =>
      if s.loading then (s, [])
      else if s.confirm then (s.(loading := true), [SendDelete(s.post.id)])
      else if Author(s, asWritten) then (s.(confirm := true), [])
      else (s, [])
    case DeleteSettled(reached) =>
      if reached then (s.(loading := false), [if s.hasRemove then RemoveFromList else GoHome])
      else (s, [])
    case CancelDelete =>
      if s.confirm && !s.loading then (s.(confirm := false), []) else (s, [])
    case EditToggle =>
      if Author(s, asWritten) && !s.loading then (s.(editing := !s.editing), []) else (s, [])
    case Submit(content, userId) => (s.(loading := true), [SendEdit(s.post.id, content, userId)])
    case SubmitSettled(outcome) =>
      (match outcome
       case Updated(fields) =>
         (s.(post := s.post.(fields := Merge(s.post.fields, fields)), editing := false, loading := false), [])
       case NotOk => (s.(editing := false, loading := false), [])
       case Threw => (s.(loading := false), []))
  }

  /** Only a card passing the author check arms a delete or opens the editor,
      and no event changes who is logged in or who posted. */
  lemma StepGuards(s: State, e: Event, asWritten: bool)
    ensures var r := Step(s, e, asWritten);
            && (r.0.confirm && !s.confirm ==> e == DeleteClick && Author(s, asWritten))
            && (r.0.editing && !s.editing ==> e == EditToggle && Author(s, asWritten))
            && r.0.user == s.user && r.0.post.id == s.post.id
            && r.0.post.posterId == s.post.posterId && r.0.post.posterName == s.post.posterName
  {
  }

  /** A like whose request throws leaves the card exactly as before the
      click; so does a save. */
  lemma LikeRollsBack(s: State, asWritten: bool)
    requires s.user.Some?
    ensures Step(Step(s, LikeClick, asWritten).0, LikeFailed(s.liked), asWritten).0 == s
    ensures Step(Step(s, SaveClick, asWritten).0, SaveFailed(s.saved), asWritten).0 == s
  {
  }

  /** Two successful like clicks restore the flag and the count. */
  lemma LikeTwiceRestores(s: State, asWritten: bool)
    requires s.user.Some?
    ensures Step(Step(s, LikeClick, asWritten).0, LikeClick, asWritten).0 == s
  {
  }

  /** Two quick clicks whose requests both throw, rolled back in the order
      they were sent, restore the count but leave `liked` flipped: each
      rollback writes back the flag its own handler saw. */
  lemma DoubleFailureLeavesFlagFlipped(s: State, asWritten: bool)
    requires s.user.Some?
    ensures var once := Step(s, LikeClick, asWritten).0;
            var twice := Step(once, LikeClick, asWritten).0;
            var undo1 := Step(twice, LikeFailed(s.liked), asWritten).0;
            var undo2 := Step(undo1, LikeFailed(once.liked), asWritten).0;
            undo2.likeCount == s.likeCount && undo2.liked == !s.liked
  {
  }

  /** The state after a sequence of events, and every effect along the way. */
  function Run(s: State, es: seq<Event>, asWritten: bool): (r: (State, seq<Effect>))
    decreases |es|
  {
    if |es| == 0 then (s, [])
    else
      var step := Step(s, es[0], asWritten);
      var rest := Run(step.0, es[1..], asWritten);
      (rest.0, step.1 + rest.1)
  }

  /** The number of delete requests in a trace. */
  function Deletes(effects: seq<Effect>): (n: nat)
    ensures n <= |effects|
    ensures n == 0 <==> forall i :: 0 <= i < |effects| ==> !effects[i].SendDelete?
  {
    if |effects| == 0 then 0
    else (if effects[0].SendDelete? then 1 else 0) + Deletes(effects[1..])
  }

  lemma {:induction false} DeletesAppend(a: seq<Effect>, b: seq<Effect>)
    ensures Deletes(a + b) == Deletes(a) + Deletes(b)
  {
    if |a| > 0 {
      assert (a + b)[1..] == a[1..] + b;
      DeletesAppend(a[1..], b);
    } else {
      assert a + b == b;
    }
  }

  /** Delete is two-step for the post's author (by the intended check): from
      an unarmed card, one click sends nothing, the second sends exactly one
      delete; a cancel in between means the second click only re-arms. */
  lemma TwoStepDelete(s: State)
    requires IsAuthor(s) && !s.confirm && !s.loading
    ensures Deletes(Run(s, [DeleteClick], false).1) == 0
    ensures Deletes(Run(s, [DeleteClick, DeleteClick], false).1) == 1
    ensures Deletes(Run(s, [DeleteClick, CancelDelete, DeleteClick], false).1) == 0
    ensures Run(s, [DeleteClick, CancelDelete, DeleteClick], false).0.confirm
  {
    var armed := s.(confirm := true);
    assert [DeleteClick][1..] == [];
    assert Step(s, DeleteClick, false) == (armed, []);
    assert Run(armed, [], false) == (armed, []);
    assert Run(s, [DeleteClick], false).1 == [];
    assert [DeleteClick, DeleteClick][1..] == [DeleteClick];
    assert Step(armed, DeleteClick, false).1 + [] == [SendDelete(s.post.id)];
    assert Run(armed, [DeleteClick], false) == (armed.(loading := true), [SendDelete(s.post.id)]);
    assert [DeleteClick, CancelDelete, DeleteClick][1..] == [CancelDelete, DeleteClick];
    assert [CancelDelete, DeleteClick][1..] == [DeleteClick];
  }

  /** A card whose author check fails never sends a delete and never opens
      the editor, whatever is clicked. */
  lemma {:induction false} OthersNeverDelete(s: State, es: seq<Event>, asWritten: bool)
    requires !Author(s, asWritten) && !s.confirm && !s.editing
    ensures Deletes(Run(s, es, asWritten).1) == 0
    ensures !Run(s, es, asWritten).0.editing
    decreases |es|
  {
    if |es| > 0 {
      var step := Step(s, es[0], asWritten);
      StepGuards(s, es[0], asWritten);
      OthersNeverDelete(step.0, es[1..], asWritten);
      DeletesAppend(step.1, Run(step.0, es[1..], asWritten).1);
    }
  }

  /** As written every card is one whose author check fails: starting from
      the initial state, no card ever sends a delete or opens its editor, the
      post's own author included. */
  lemma AsWrittenNeverDeletes(p: CardPost, user: Option<Id>, hasRemove: bool, es: seq<Event>)
    ensures Deletes(Run(Init(p, user, hasRemove), es, true).1) == 0
    ensures !Run(Init(p, user, hasRemove), es, true).0.editing
  {
    OthersNeverDelete(Init(p, user, hasRemove), es, true);
  }

  /** The optimistic update predicts the server: if the card agreed with the
      database before the click (same `liked`, same counter), then after the
      click it shows exactly what the like endpoint answers and stores. */
  lemma OptimisticLikeMatchesServer(s: State, db: Db, userId: Id, now: nat, nid: Id, fault: Fault)
    requires Consistent(db)
    requires nid !in NotificationStore.Ids(db.notifications)
    requires s.user.Some? && FindPost(db.posts, s.post.id).Some?
    requires s.liked == LikeModel.Has(db.likes, s.post.id, userId)
    requires s.likeCount == FindPost(db.posts, s.post.id).value.likeCount
    ensures var card := Step(s, LikeClick, false).0;
            var r := ToggleLike(db, s.post.id, userId, now, nid, fault);
            && r.1 == Liked(card.liked)
            && FindPost(r.0.posts, s.post.id).Some?
            && card.likeCount == FindPost(r.0.posts, s.post.id).value.likeCount
  {
    var card := Step(s, LikeClick, false).0;
    assert card.liked == !s.liked && card.likeCount == if s.liked then s.likeCount - 1 else s.likeCount + 1;
    ToggleMovesCount(db, s.post.id, userId, now, nid, fault);
  }

  /** As written the card's like state comes from `post.isLiked`, which no
      route sends: the listing and the single-post route answer stored posts.
      So a card starts unliked, and after a click it agrees with the like
      endpoint exactly when the user had not liked the post. For a post the
      user had liked the card shows a filled heart and one more like, while
      the endpoint unlikes and stores one fewer. */
  lemma AsWrittenLikeAgreesOnlyIfUnliked(p: CardPost, hasRemove: bool, db: Db, userId: Id,
                                         now: nat, nid: Id, fault: Fault)
    requires Consistent(db)
    requires nid !in NotificationStore.Ids(db.notifications)
    requires FindPost(db.posts, p.id).Some?
    requires p.isLiked.None?
    requires p.likeCount == Some(FindPost(db.posts, p.id).value.likeCount)
    ensures var card := Step(Init(p, Some(userId), hasRemove), LikeClick, true).0;
            var r := ToggleLike(db, p.id, userId, now, nid, fault);
            var had := LikeModel.Has(db.likes, p.id, userId);
            && card.liked
            && (r.1 == Liked(card.liked) <==> !had)
            && FindPost(r.0.posts, p.id).Some?
            && card.likeCount == FindPost(r.0.posts, p.id).value.likeCount + (if had then 2 else 0)
  {
    ToggleMovesCount(db, p.id, userId, now, nid, fault);
  }

  /** The evidently intended card: given the user's like state with the post,
      a fresh card agrees with the database, so after a click it shows exactly
      what the like endpoint answers and stores. */
  lemma InformedLikeMatchesServer(p: CardPost, hasRemove: bool, db: Db, userId: Id,
                                  now: nat, nid: Id, fault: Fault)
    requires Consistent(db)
    requires nid !in NotificationStore.Ids(db.notifications)
    requires FindPost(db.posts, p.id).Some?
    requires p.isLiked == Some(LikeModel.Has(db.likes, p.id, userId))
    requires p.likeCount == Some(FindPost(db.posts, p.id).value.likeCount)
    ensures var card := Step(Init(p, Some(userId), hasRemove), LikeClick, true).0;
            var r := ToggleLike(db, p.id, userId, now, nid, fault);
            && r.1 == Liked(card.liked)
            && FindPost(r.0.posts, p.id).Some?
            && card.likeCount == FindPost(r.0.posts, p.id).value.likeCount
  {
    OptimisticLikeMatchesServer(Init(p, Some(userId), hasRemove), db, userId, now, nid, fault);
    assert Step(Init(p, Some(userId), hasRemove), LikeClick, true).0
        == Step(Init(p, Some(userId), hasRemove), LikeClick, false).0;
  }
}

=== FILE: post_controller.dfy ===
/** `createPost` and `updatePost`: body validation, the per-user posting
    cooldown, tag parsing, defaults, the authorisation check on edits, and
    the create route that binds the author to the authenticated user. */
module PostController {
  import opened Common
  import opened Text
  import opened PostModel
  import Upload
  import LikeModel
  import CommentModel
  import opened Database

  /** How long a user stays in the cooldown set after posting, in ms. The
      expiry is an explicit event, `Expire`. */
  const CooldownMs: nat := 60000

  /** The users currently barred from posting. The key is whatever the body's
      `userId` was, including absent. */
  type Cooldown = set<Option<Id>>

  /** The `setTimeout` callback firing for `user`. */
  function Expire(cooldown: Cooldown, user: Option<Id>): (r: Cooldown)
    ensures user !in r
    ensures forall u :: u != user ==> (u in r <==> u in cooldown)
  {
    cooldown - {user}
  }

  /** The request body fields both controllers read. */
  datatype Body = Body(
    title: Option<string>,
    content: Option<string>,
    location: Option<string>,
    tags: Option<string>,
    userId: Option<Id>,
    isAdmin: bool)

  /** `tag => tag.trim()` as a filter predicate. */
  function NonBlank(): string -> bool {
    (t: string) => !IsBlank(t)
  }

  /** The fallback when the tags string is not JSON: split on single spaces,
      keep every piece that is not blank, unchanged and in order. */
  function SplitTags(tags: string): (r: seq<string>)
    ensures forall i :: 0 <= i < |r| ==> !IsBlank(r[i]) && ' ' !in r[i]
    ensures forall i :: 0 <= i < |r| ==> r[i] in Split(tags, ' ')
    ensures forall i :: 0 <= i < |Split(tags, ' ')| && !IsBlank(Split(tags, ' ')[i]) ==> Split(tags, ' ')[i] in r
  {
    Filter(Split(tags, ' '), NonBlank())
  }

  /** The fallback read piece by piece: a first piece free of spaces becomes
      the first tag unless it is blank, and the rest of the string yields the
      rest of the tags, in order and with repeats kept. */
  lemma SplitTagsCons(head: string, tail: string)
    requires ' ' !in head
    ensures SplitTags(head + [' '] + tail) == (if IsBlank(head) then [] else [head]) + SplitTags(tail)
  {
    SplitPrefix(head, tail, ' ');
    assert [head] + Split(tail, ' ') == [head] + Split(tail, ' ');
    assert Filter([head] + Split(tail, ' '), NonBlank())
        == Filter([head], NonBlank()) + Filter(Split(tail, ' '), NonBlank()) by {
      FilterAppend([head], Split(tail, ' '), NonBlank());
    }
  }

  /** The last piece: a string free of spaces is one tag, or none when blank. */
  lemma SplitTagsLast(word: string)
    requires ' ' !in word
    ensures SplitTags(word) == if IsBlank(word) then [] else [word]
  {
    SplitNoSep(word, ' ');
  }

  /** Each non-blank piece is kept as often as the split produces it, and
      blank pieces never appear. */
  lemma SplitTagsCount(tags: string, w: string)
    ensures multiset(SplitTags(tags))[w] == if IsBlank(w) then 0 else multiset(Split(tags, ' '))[w]
  {
    FilterMultiplicity(Split(tags, ' '), NonBlank(), w);
  }

  /** The tag list a request yields. `json` is what `JSON.parse` makes of the
      string when it is a JSON list of strings, and `None` when it throws. A
      falsy `tags` yields no tags. */
  function ParseTags(tags: Option<string>, json: Option<seq<string>>): (r: seq<string>)
    ensures !Truthy(tags) ==> r == []
    ensures Truthy(tags) && json.Some? ==> r == json.value
    ensures Truthy(tags) && json.None? ==> r == SplitTags(tags.value)
  {
    if !Truthy(tags) then []
    else match json
      case Some(list) => list
      case None => SplitTags(tags.value)
  }

  /** Tags written as words separated by single spaces come back as those
      words: the fallback inverts `join(' ')`. */
  lemma TagsRoundTrip(words: seq<string>)
    requires |words| >= 1
    requires forall i :: 0 <= i < |words| ==> !IsBlank(words[i]) && ' ' !in words[i]
    ensures ParseTags(Some(Join(words, ' ')), None) == words
  {
    SplitJoin(words, ' ');
    FilterAll(words, NonBlank());
    assert |Join(words, ' ')| >= |words[0]| > 0;
  }

  /** What a create leaves behind: the post collection, the cooldown set,
      and the reply (every error is a 400 carrying its message). */
  datatype Created = Created(posts: seq<Post>, cooldown: Cooldown, reply: Result<Post>)

  const MissingText := "Title and content are required"
  const TooFrequent := "You are posting too frequently. Please try again shortly."

  /** `createPost`. The body's title and content must both be truthy; then a
      user in the cooldown set is refused; otherwise the user enters the set
      before anything else can fail, and stays there whatever happens next.
      `image` is the outcome of resizing and saving the uploaded file (`None`
      when there is none), `json` the outcome of `JSON.parse(tags)`, and
      `id`, `now` what the database assigns. */
  function CreatePost(posts: seq<Post>, cooldown: Cooldown, body: Body, image: Option<Result<string>>,
                      json: Option<seq<string>>, id: Id, now: nat): (r: Created)
    requires id !in PostIds(posts)
    ensures r.reply.Err? ==> r.posts == posts
    ensures r.reply.Ok? ==> r.posts == posts + [r.reply.value]
    // validation comes before the cooldown, so a rejected body starts none
    ensures !(Truthy(body.title) && Truthy(body.content)) ==> r == Created(posts, cooldown, Err(MissingText))
    ensures Truthy(body.title) && Truthy(body.content) && body.userId in cooldown ==>
      r == Created(posts, cooldown, Err(TooFrequent))
    // once past the check, the marker is set, even if a later step fails
    ensures Truthy(body.title) && Truthy(body.content) && body.userId !in cooldown ==>
      r.cooldown == cooldown + {body.userId}
    ensures r.reply.Ok? <==>
      && Truthy(body.title) && Truthy(body.content) && body.userId !in cooldown
      && (image.None? || image.value.Ok?) && body.userId.Some?
      && CheckText(body.title.value, body.content.value).None?
    ensures r.reply.Ok? ==>
      var p := r.reply.value;
      && Valid(p) && p.id == id && p.createdAt == now
      && Some(p.poster) == body.userId
      && p.title == Trim(body.title.value) && p.content == body.content.value
      && p.location == (if Truthy(body.location) then body.location.value else "")
      && p.image == (if image.Some? then image.value.value else "")
      && p.tags == TrimAll(ParseTags(body.tags, json))
      && p.likeCount == 0 && p.commentCount == 0 && !p.edited
    ensures UniquePostIds(posts) ==> UniquePostIds(r.posts)
  {
    if !(Truthy(body.title) && Truthy(body.content)) then Created(posts, cooldown, Err(MissingText))
    else if body.userId in cooldown then Created(posts, cooldown, Err(TooFrequent))
    else
      var cooldown' := cooldown + {body.userId};
      if image.Some? && image.value.Err? then Created(posts, cooldown', Err(image.value.message))
      else
        var path := if image.Some? then image.value.value else "";
        var location := if Truthy(body.location) then body.location.value else "";
        var draft := Draft(body.title, body.content, Some(path), Some(location), ParseTags(body.tags, json), body.userId);
        match PostModel.Create(draft, id, now)
        case Err(msg) => Created(posts, cooldown', Err(msg))
        case Ok(p) =>
          assert UniquePostIds(posts) ==> UniquePostIds(posts + [p]) by {
            if UniquePostIds(posts) {
              AppendUnique(posts, p);
            }
          }
          Created(posts + [p], cooldown', Ok(p))
  }

  /** The cooldown window: after a request gets past the checks, a second
      valid request from the same user is refused and writes nothing until
      the timer fires; once it has fired, the same request gets past the
      check again (and sets the marker anew). */
  lemma CooldownWindow(posts: seq<Post>, cooldown: Cooldown, first: Body, second: Body,
                       image1: Option<Result<string>>, json1: Option<seq<string>>, id1: Id, now1: nat,
                       image2: Option<Result<string>>, json2: Option<seq<string>>, id2: Id, now2: nat)
    requires id1 !in PostIds(posts)
    requires Truthy(first.title) && Truthy(first.content) && first.userId !in cooldown
    requires Truthy(second.title) && Truthy(second.content) && second.userId == first.userId
    requires id2 !in PostIds(CreatePost(posts, cooldown, first, image1, json1, id1, now1).posts)
    ensures var after := CreatePost(posts, cooldown, first, image1, json1, id1, now1);
            CreatePost(after.posts, after.cooldown, second, image2, json2, id2, now2) ==
            Created(after.posts, after.cooldown, Err(TooFrequent))
    ensures var after := CreatePost(posts, cooldown, first, image1, json1, id1, now1);
            var expired := Expire(after.cooldown, first.userId);
            CreatePost(after.posts, expired, second, image2, json2, id2, now2).cooldown == expired + {first.userId}
  {
  }

  /** `post.poster != userId && !isAdmin` refuses the edit. */
  predicate MayEdit(p: Post, body: Body) {
    Some(p.poster) == body.userId || body.isAdmin
  }

  /** `post.save()` over the row with id `id`: that row is replaced, no other
      changes. */
  function Replace(posts: seq<Post>, id: Id, p: Post): (r: seq<Post>)
    ensures |r| == |posts|
    ensures forall i :: 0 <= i < |r| ==> r[i] == if posts[i].id == id then p else posts[i]
  {
    if |posts| == 0 then []
    else [if posts[0].id == id then p else posts[0]] + Replace(posts[1..], id, p)
  }

  /** A post after the edit's field assignments, before validation: every
      truthy field of the body overwrites the stored one, a new image
      replaces the old, and `edited` is set. */
  function Edited(p: Post, body: Body, path: Option<string>, json: Option<seq<string>>): Post {
    p.(title := if Truthy(body.title) then body.title.value else p.title,
       content := if Truthy(body.content) then body.content.value else p.content,
       location := if Truthy(body.location) then body.location.value else p.location,
       tags := if Truthy(body.tags) then ParseTags(body.tags, json) else p.tags,
       image := if path.Some? then path.value else p.image,
       edited := true)
  }

  const NoSuchPost := "Post does not exist"
  const NotAllowed := "Not authorized to update post"

  /** `updatePost`: a missing post or a caller who is neither its poster nor
      an admin is refused and nothing is saved. Otherwise the truthy fields
      overwrite the stored ones, `edited` becomes true, and the result is
      validated and saved in place. The identity, author, counters and
      creation time never change. */
  function UpdatePost(posts: seq<Post>, postId: Id, body: Body, image: Option<Result<string>>,
                      json: Option<seq<string>>): (r: (seq<Post>, Result<Post>))
    ensures FindPost(posts, postId).None? ==> r == (posts, Err(NoSuchPost))
    ensures FindPost(posts, postId).Some? && !MayEdit(FindPost(posts, postId).value, body) ==> r == (posts, Err(NotAllowed))
    ensures r.1.Err? ==> r.0 == posts
    ensures r.1.Ok? ==>
      var prev := FindPost(posts, postId).value;
      var p := r.1.value;
      && MayEdit(prev, body)
      && r.0 == Replace(posts, postId, p)
      && Valid(p) && p.edited
      && p.id == prev.id && p.poster == prev.poster && p.createdAt == prev.createdAt
      && p.likeCount == prev.likeCount && p.commentCount == prev.commentCount
      && p.title == Trim(if Truthy(body.title) then body.title.value else prev.title)
      && p.content == (if Truthy(body.content) then body.content.value else prev.content)
      && p.location == (if Truthy(body.location) then body.location.value else prev.location)
      && (image.Some? ==> image.value.Ok?)
      && p.tags == TrimAll(if Truthy(body.tags) then ParseTags(body.tags, json) else prev.tags)
      && p.image == (if image.Some? then image.value.value else prev.image)
    ensures (FindPost(posts, postId).Some? && MayEdit(FindPost(posts, postId).value, body)
             && image.Some? && image.value.Err?) ==> r == (posts, Err(image.value.message))
  {
    match FindPost(posts, postId)
    case None => (posts, Err(NoSuchPost))
    case Some(p) =>
      if !MayEdit(p, body) then (posts, Err(NotAllowed))
      else if image.Some? && image.value.Err? then (posts, Err(image.value.message))
      else
        var path := if image.Some? then Some(image.value.value) else None;
        match Save(Edited(p, body, path, json))
        case Err(msg) => (posts, Err(msg))
        case Ok(saved) => (Replace(posts, postId, saved), Ok(saved))
  }

  /** An edit keeps the counters, so a consistent database stays consistent. */
  lemma UpdateKeepsConsistent(db: Db, postId: Id, body: Body, image: Option<Result<string>>, json: Option<seq<string>>)
    requires Consistent(db)
    ensures Consistent(db.(posts := UpdatePost(db.posts, postId, body, image, json).0))
  {
    var r := UpdatePost(db.posts, postId, body, image, json);
    if r.1.Ok? {
      ReplaceKeepsConsistent(db, postId, r.1.value);
    }
  }

  /** Replacing a post by one with the same id and counters keeps the
      database consistent. */
  lemma ReplaceKeepsConsistent(db: Db, postId: Id, p: Post)
    requires Consistent(db)
    requires FindPost(db.posts, postId).Some?
    requires p.id == postId
    requires p.likeCount == FindPost(db.posts, postId).value.likeCount
    requires p.commentCount == FindPost(db.posts, postId).value.commentCount
    ensures Consistent(db.(posts := Replace(db.posts, postId, p)))
  {
    var posts := Replace(db.posts, postId, p);
    forall i | 0 <= i < |posts|
      ensures posts[i].id == db.posts[i].id
      ensures posts[i].likeCount == db.posts[i].likeCount && posts[i].commentCount == db.posts[i].commentCount
    {
      if db.posts[i].id == postId {
        FindUnique(db.posts, postId, i);
      }
    }
    SameIdsUnique(db.posts, posts);
  }

  /** Row-by-row equal ids keep the key unique. */
  lemma {:induction false} SameIdsUnique(a: seq<Post>, b: seq<Post>)
    requires |a| == |b|
    requires forall i :: 0 <= i < |a| ==> a[i].id == b[i].id
    ensures PostIds(a) == PostIds(b)
    ensures UniquePostIds(a) ==> UniquePostIds(b)
  {
    if |a| > 0 {
      SameIdsUnique(a[1..], b[1..]);
    }
  }

  /** POST / on the post router: the upload gate runs first (a refused file
      is a 400 and nothing else happens), then the body's `userId` is
      overwritten with the authenticated user before `createPost` runs, so
      whatever the body claimed, the post's author is the caller. `resize` is
      the outcome of processing the uploaded file, used only when there is
      one. */
  function RouteCreatePost(db: Db, cooldown: Cooldown, file: Option<Upload.File>, resize: Result<string>,
                           body: Body, caller: Id, json: Option<seq<string>>, id: Id, now: nat): (r: (Db, Cooldown, Result<Post>))
    requires id !in PostIds(db.posts)
    ensures Upload.Check(file).Some? ==> r == (db, cooldown, Err(Upload.Message(Upload.Check(file).value)))
    ensures r.2.Ok? ==> r.2.value.poster == caller
    ensures r.2.Ok? ==> r.2.value.image == (if file.Some? && resize.Ok? then resize.value else "")
    ensures r.2.Ok? ==> r.0 == db.(posts := db.posts + [r.2.value])
    ensures r.2.Err? ==> r.0 == db
    ensures Upload.Check(file).None? && Truthy(body.title) && Truthy(body.content) && Some(caller) !in cooldown ==>
      r.1 == cooldown + {Some(caller)}
    ensures Consistent(db) && LikeModel.CountOn(db.likes, id) == 0 && CommentModel.CountOn(db.comments, id) == 0 ==>
      Consistent(r.0)
  {
    match Upload.Check(file)
    case Some(e) => (db, cooldown, Err(Upload.Message(e)))
    case None =>
      var image := if file.Some? then Some(resize) else None;
      var c := CreatePost(db.posts, cooldown, body.(userId := Some(caller)), image, json, id, now);
      assert Consistent(db) && LikeModel.CountOn(db.likes, id) == 0 && CommentModel.CountOn(db.comments, id) == 0 ==>
             Consistent(db.(posts := c.posts)) by {
        if Consistent(db) && LikeModel.CountOn(db.likes, id) == 0 && CommentModel.CountOn(db.comments, id) == 0 && c.reply.Ok? {
          AppendPostConsistent(db, c.reply.value);
        }
      }
      (db.(posts := c.posts), c.cooldown, c.reply)
  }
}

=== FILE: post_model.dfy ===
/** The post document and its schema constraints. */
module PostModel {
  import opened Common
  import opened Text

  const TitleMaxLength: nat := 200
  const ContentMaxLength: nat := 2000

  /** A stored post. `likeCount` and `commentCount` are denormalised counters
      kept beside the like and comment collections. */
  datatype Post = Post(
    id: Id,
    title: string,
    content: string,
    image: string,
    poster: Id,
    tags: seq<string>,
    location: string,
    likeCount: int,
    commentCount: int,
    edited: bool,
    createdAt: nat)

  /** What the schema guarantees of every stored post. */
  predicate Valid(p: Post) {
    && p.title == Trim(p.title) && 0 < Utf16Length(p.title) <= TitleMaxLength
    && 0 < Utf16Length(p.content) <= ContentMaxLength
    && (forall i :: 0 <= i < |p.tags| ==> p.tags[i] == Trim(p.tags[i]))
  }

  /** The fields handed to `Post.create`; absent fields are `None`. */
  datatype Draft = Draft(
    title: Option<string>,
    content: Option<string>,
    image: Option<string>,
    location: Option<string>,
    tags: seq<string>,
    poster: Option<Id>)

  /** The tag list as the schema casts it: every element trimmed. */
  function TrimAll(tags: seq<string>): (r: seq<string>)
    ensures |r| == |tags|
    ensures forall i :: 0 <= i < |r| ==> r[i] == Trim(tags[i])
  {
    if |tags| == 0 then [] else [Trim(tags[0])] + TrimAll(tags[1..])
  }

  /** The title/content checks shared by create and save: title is trimmed,
      required and at most 200 UTF-16 code units; content is required (not
      trimmed) and at most 2000. */
  function CheckText(title: string, content: string): (r: Option<string>)
    ensures r.None? <==> 0 < Utf16Length(Trim(title)) <= TitleMaxLength && 0 < Utf16Length(content) <= ContentMaxLength
  {
    var t := Trim(title);
    if |t| == 0 then Some("post validation failed: title: Path `title` is required.")
    else if Utf16Length(t) > TitleMaxLength then Some("post validation failed: title: longer than the maximum allowed length (200).")
    else if |content| == 0 then Some("post validation failed: content: Path `content` is required.")
    else if Utf16Length(content) > ContentMaxLength then Some("post validation failed: content: longer than the maximum allowed length (2000).")
    else None
  }

  /** Schema validation and defaults for a new post: image and location default
      to "", counters to 0 and `edited` to false. */
  function Create(d: Draft, id: Id, now: nat): (r: Result<Post>)
    ensures r.Ok? <==>
      && d.title.Some? && d.content.Some? && d.poster.Some?
      && CheckText(d.title.value, d.content.value).None?
    ensures r.Ok? ==>
      && Valid(r.value)
      && r.value.id == id
      && r.value.title == Trim(d.title.value)
      && Some(r.value.content) == d.content
      && Some(r.value.poster) == d.poster
      && r.value.image == d.image.GetOr("")
      && r.value.location == d.location.GetOr("")
      && r.value.tags == TrimAll(d.tags)
      && r.value.likeCount == 0 && r.value.commentCount == 0
      && !r.value.edited
      && r.value.createdAt == now
  {
    if d.title.None? then Err("post validation failed: title: Path `title` is required.")
    else if d.content.None? then Err("post validation failed: content: Path `content` is required.")
    else if d.poster.None? then Err("post validation failed: poster: Path `poster` is required.")
    else match CheckText(d.title.value, d.content.value)
      case Some(msg) => Err(msg)
      case None =>
        TrimIdempotent(d.title.value);
        TrimAllTrimmed(d.tags);
        Ok(Post(id, Trim(d.title.value), d.content.value, d.image.GetOr(""), d.poster.value,
                TrimAll(d.tags), d.location.GetOr(""), 0, 0, false, now))
  }

  /** The title limit counts UTF-16 code units: 150 emoji are 300 units and
      fail the 200-unit bound, though they are only 150 characters. */
  lemma WideTitleTooLong()
    ensures CheckText(seq(150, _ => '\U{1F600}'), "x").Some?
  {
    var t: string := seq(150, _ => '\U{1F600}');
    assert TrimStart(t) == t && TrimEnd(t) == t;
    Utf16LengthWide(t);
  }

  /** Trimmed tags are fixed points of trimming. */
  lemma TrimAllTrimmed(tags: seq<string>)
    ensures forall i :: 0 <= i < |tags| ==> TrimAll(tags)[i] == Trim(TrimAll(tags)[i])
  {
    forall i | 0 <= i < |tags| ensures TrimAll(tags)[i] == Trim(TrimAll(tags)[i]) {
      TrimIdempotent(tags[i]);
    }
  }

  /** `post.save()` after an edit: the same checks as creation, over the
      edited title, content and tags. */
  function Save(p: Post): (r: Result<Post>)
    ensures r.Ok? <==> CheckText(p.title, p.content).None?
    ensures r.Ok? ==> Valid(r.value)
    ensures r.Ok? ==> r.value == p.(title := Trim(p.title), tags := TrimAll(p.tags))
  {
    match CheckText(p.title, p.content)
    case Some(msg) => Err(msg)
    case None =>
      TrimIdempotent(p.title);
      TrimAllTrimmed(p.tags);
      Ok(p.(title := Trim(p.title), tags := TrimAll(p.tags)))
  }
}

=== FILE: post_routes.dfy ===
/** The post endpoints: the like/unlike toggle, deletion, and the paged
    listing. Each handler is one step over the shared database; notification
    side effects go through `createNotification`. */
module PostRoutes {
  import opened Common
  import opened Sorting
  import opened PostModel
  import LikeModel
  import NotificationStore
  import Rooms
  import opened Database
  import opened Producer

  /** Replies of POST /:id/like. */
  datatype LikeReply = LikeNotFound | Liked(liked: bool)

  /** The like rows and post counters after one toggle by `user` on an
      existing post: an existing like is removed and the counter drops by
      one, otherwise a like is created and the counter rises by one. The flag
      is the reply's `liked`. */
  function LikeStep(likes: seq<LikeModel.Like>, posts: seq<Post>, postId: Id, user: Id, now: nat): (r: (seq<LikeModel.Like>, seq<Post>, bool))
    ensures r.2 == !LikeModel.Has(likes, postId, user)
    ensures LikeModel.Unique(likes) ==> LikeModel.Has(r.0, postId, user) == r.2
    ensures r.0 == if r.2 then likes + [LikeModel.Like(postId, user, now)] else LikeModel.Remove(likes, postId, user)
    ensures r.1 == Adjust(posts, postId, if r.2 then 1 else -1, 0)
    ensures PostIds(r.1) == PostIds(posts)
    ensures forall q :: LikeModel.CountOn(r.0, q) == LikeModel.CountOn(likes, q) + (if q == postId then (if r.2 then 1 else -1) else 0)
    ensures LikeModel.Unique(likes) ==> LikeModel.Unique(r.0)
    ensures LikeModel.Unique(likes) ==>
      LikeModel.Keys(r.0) == (if r.2 then LikeModel.Keys(likes) + {(postId, user)} else LikeModel.Keys(likes) - {(postId, user)})
  {
    if LikeModel.Has(likes, postId, user) then
      var likes' := LikeModel.Remove(likes, postId, user);
      forall q ensures LikeModel.CountOn(likes', q) == LikeModel.CountOn(likes, q) + (if q == postId then -1 else 0) {
        LikeModel.CountRemove(likes, postId, user, q);
      }
      assert LikeModel.Unique(likes) ==> LikeModel.Unique(likes') && LikeModel.Keys(likes') == LikeModel.Keys(likes) - {(postId, user)} by {
        if LikeModel.Unique(likes) {
          LikeModel.KeysRemove(likes, postId, user);
        }
      }
      (likes', Adjust(posts, postId, -1, 0), false)
    else
      var likes' := LikeModel.Insert(likes, postId, user, now).value;
      forall q ensures LikeModel.CountOn(likes', q) == LikeModel.CountOn(likes, q) + (if q == postId then 1 else 0) {
        FilterSnoc(likes, LikeModel.Like(postId, user, now), LikeModel.OnPost(q));
      }
      (likes', Adjust(posts, postId, 1, 0), true)
  }

  /** Two consecutive toggles by the same user on an existing post restore
      the set of likes and every post's counters and answer `liked` then its
      opposite; like-then-unlike restores the like rows exactly. */
  lemma LikeStepTwice(likes: seq<LikeModel.Like>, posts: seq<Post>, postId: Id, user: Id, now1: nat, now2: nat)
    requires LikeModel.Unique(likes)
    ensures var first := LikeStep(likes, posts, postId, user, now1);
            var second := LikeStep(first.0, first.1, postId, user, now2);
            && LikeModel.Keys(second.0) == LikeModel.Keys(likes)
            && second.1 == posts
            && second.2 == !first.2
            && (first.2 ==> second.0 == likes)
  {
    var first := LikeStep(likes, posts, postId, user, now1);
    if first.2 {
      LikeThenUnlike(likes, posts, postId, user, now1, now2);
    } else {
      UnlikeThenLike(likes, posts, postId, user, now1, now2);
    }
    LikeStepTwicePosts(likes, posts, postId, user, now1, now2);
  }

  /** A like followed by an unlike removes the row it appended. */
  lemma LikeThenUnlike(likes: seq<LikeModel.Like>, posts: seq<Post>, postId: Id, user: Id, now1: nat, now2: nat)
    requires LikeModel.Unique(likes) && !LikeModel.Has(likes, postId, user)
    ensures var first := LikeStep(likes, posts, postId, user, now1);
            var second := LikeStep(first.0, first.1, postId, user, now2);
            second.0 == likes && !second.2
  {
    var first := LikeStep(likes, posts, postId, user, now1);
    assert first.0 == likes + [LikeModel.Like(postId, user, now1)];
    assert LikeModel.Has(first.0, postId, user);
    LikeModel.RemoveAppended(likes, LikeModel.Like(postId, user, now1));
  }

  /** An unlike followed by a like puts the key back. */
  lemma UnlikeThenLike(likes: seq<LikeModel.Like>, posts: seq<Post>, postId: Id, user: Id, now1: nat, now2: nat)
    requires LikeModel.Unique(likes) && LikeModel.Has(likes, postId, user)
    ensures var first := LikeStep(likes, posts, postId, user, now1);
            var second := LikeStep(first.0, first.1, postId, user, now2);
            LikeModel.Keys(second.0) == LikeModel.Keys(likes) && second.2
  {
    var first := LikeStep(likes, posts, postId, user, now1);
    var k := (postId, user);
    assert LikeModel.Unique(first.0) && LikeModel.Keys(first.0) == LikeModel.Keys(likes) - {k};
    assert !LikeModel.Has(first.0, postId, user);
  }

  /** Two toggles move the counter by one and back. */
  lemma LikeStepTwicePosts(likes: seq<LikeModel.Like>, posts: seq<Post>, postId: Id, user: Id, now1: nat, now2: nat)
    requires LikeModel.Unique(likes)
    ensures var first := LikeStep(likes, posts, postId, user, now1);
            LikeStep(first.0, first.1, postId, user, now2).1 == posts
  {
    var first := LikeStep(likes, posts, postId, user, now1);
    var dl := if first.2 then 1 else -1;
    assert first.1 == Adjust(posts, postId, dl, 0);
    assert LikeModel.Unique(first.0) && LikeModel.Has(first.0, postId, user) == first.2;
    assert LikeStep(first.0, first.1, postId, user, now2).1 == Adjust(first.1, postId, -dl, 0);
    AdjustUndo(posts, postId, dl);
  }

  /** POST /:id/like. A missing post is a 404 and nothing changes. Otherwise
      the like is toggled as `LikeStep` says, and a new like notifies the
      poster unless they liked their own post. `nid` and `now` are what the
      database assigns to new rows; `fault` is where `createNotification`
      fails, if it does (it never fails the request). */
  function ToggleLike(db: Db, postId: Id, user: Id, now: nat, nid: Id, fault: Fault): (r: (Db, LikeReply, seq<Rooms.Push>))
    requires nid !in NotificationStore.Ids(db.notifications)
    ensures FindPost(db.posts, postId).None? ==> r == (db, LikeNotFound, [])
    ensures r.0.comments == db.comments
    ensures FindPost(db.posts, postId).Some? ==>
      var step := LikeStep(db.likes, db.posts, postId, user, now);
      && r.1 == Liked(!LikeModel.Has(db.likes, postId, user))
      && r.0.likes == step.0 && r.0.posts == step.1
    // an unlike sends nothing
    ensures FindPost(db.posts, postId).Some? && LikeModel.Has(db.likes, postId, user) ==>
      r.0.notifications == db.notifications && r.2 == []
    // a like notifies the poster, and only when the liker is someone else
    ensures FindPost(db.posts, postId).Some? && !LikeModel.Has(db.likes, postId, user) ==>
      var poster := FindPost(db.posts, postId).value.poster;
      var o := CreateNotification(db.notifications, poster, user, "like", Some(postId), None, None, nid, now, fault);
      (r.0.notifications, r.2) == (o.store, o.pushes)
    ensures FindPost(db.posts, postId).Some? && FindPost(db.posts, postId).value.poster == user ==>
      r.0.notifications == db.notifications && r.2 == []
    ensures Consistent(db) ==> Consistent(r.0)
  {
    match FindPost(db.posts, postId)
    case None => (db, LikeNotFound, [])
    case Some(post) =>
      var step := LikeStep(db.likes, db.posts, postId, user, now);
      assert Consistent(db) ==> CountersAgree(step.1, step.0, db.comments) by {
        if Consistent(db) {
          AdjustKeepsAgreement(db.posts, db.likes, db.comments, step.0, db.comments, postId, if step.2 then 1 else -1, 0);
        }
      }
      var o := if step.2 && post.poster != user
               then CreateNotification(db.notifications, post.poster, user, "like", Some(postId), None, None, nid, now, fault)
               else Outcome(db.notifications, None, []);
      (db.(likes := step.0, posts := step.1, notifications := o.store), Liked(step.2), o.pushes)
  }

  /** Under the primary key, a toggle through the endpoint moves the post's
      stored like counter by exactly one, up for a like and down for an
      unlike, and the reply says which it was. */
  lemma ToggleMovesCount(db: Db, postId: Id, user: Id, now: nat, nid: Id, fault: Fault)
    requires UniquePostIds(db.posts)
    requires nid !in NotificationStore.Ids(db.notifications)
    requires FindPost(db.posts, postId).Some?
    ensures var r := ToggleLike(db, postId, user, now, nid, fault);
            var had := LikeModel.Has(db.likes, postId, user);
            var before := FindPost(db.posts, postId).value.likeCount;
            && r.1 == Liked(!had)
            && FindPost(r.0.posts, postId).Some?
            && FindPost(r.0.posts, postId).value.likeCount == if had then before - 1 else before + 1
  {
    LikeStepMovesCount(db.likes, db.posts, postId, user, now);
  }

  /** The same, for the toggle itself. */
  lemma LikeStepMovesCount(likes: seq<LikeModel.Like>, posts: seq<Post>, postId: Id, user: Id, now: nat)
    requires UniquePostIds(posts)
    requires FindPost(posts, postId).Some?
    ensures var r := LikeStep(likes, posts, postId, user, now).1;
            var before := FindPost(posts, postId).value.likeCount;
            && FindPost(r, postId).Some?
            && FindPost(r, postId).value.likeCount == if LikeModel.Has(likes, postId, user) then before - 1 else before + 1
  {
    FindAdjustedFound(posts, postId, if LikeModel.Has(likes, postId, user) then -1 else 1, 0);
  }

  /** Two consecutive toggles through the endpoint restore the set of likes
      and every post's counters. (A notification sent by the like stays.) */
  lemma ToggleTwiceRestores(db: Db, postId: Id, user: Id, now1: nat, nid1: Id, f1: Fault, now2: nat, nid2: Id, f2: Fault)
    requires LikeModel.Unique(db.likes)
    requires FindPost(db.posts, postId).Some?
    requires nid1 !in NotificationStore.Ids(db.notifications)
    requires nid2 !in NotificationStore.Ids(ToggleLike(db, postId, user, now1, nid1, f1).0.notifications)
    ensures var first := ToggleLike(db, postId, user, now1, nid1, f1);
            var second := ToggleLike(first.0, postId, user, now2, nid2, f2);
            && LikeModel.Keys(second.0.likes) == LikeModel.Keys(db.likes)
            && second.0.posts == db.posts
            && first.1 == Liked(!LikeModel.Has(db.likes, postId, user))
            && second.1 == Liked(LikeModel.Has(db.likes, postId, user))
  {
    var first := ToggleLike(db, postId, user, now1, nid1, f1);
    assert FindPost(first.0.posts, postId).Some?;
    LikeStepTwice(db.likes, db.posts, postId, user, now1, now2);
  }

  /** Replies of DELETE /:id. */
  datatype DeleteReply = PostNotFound | NotAuthorized | PostDeleted

  /** DELETE /:id: 404 for a missing post, 403 unless the caller is its
      poster; otherwise that post, and only it, is removed. Its likes and
      comments are not touched. */
  function DeletePost(db: Db, id: Id, caller: Id): (r: (Db, DeleteReply))
    ensures FindPost(db.posts, id).None? ==> r == (db, PostNotFound)
    ensures FindPost(db.posts, id).Some? && FindPost(db.posts, id).value.poster != caller ==> r == (db, NotAuthorized)
    ensures r.1 == PostDeleted <==> FindPost(db.posts, id).Some? && FindPost(db.posts, id).value.poster == caller
    ensures r.0.likes == db.likes && r.0.comments == db.comments && r.0.notifications == db.notifications
    ensures r.1 == PostDeleted ==> |r.0.posts| == |db.posts| - 1
    ensures Consistent(db) ==> Consistent(r.0)
    ensures Consistent(db) && r.1 == PostDeleted ==> r.0.posts == RemovePost(db.posts, id) && DeletedCleanly(db, id)
  {
    match FindPost(db.posts, id)
    case None => (db, PostNotFound)
    case Some(post) =>
      if post.poster != caller then (db, NotAuthorized)
      else
        var posts := RemovePost(db.posts, id);
        assert Consistent(db) ==> DeletedCleanly(db, id) by {
          if Consistent(db) {
            DeleteKeepsConsistent(db, id);
          }
        }
        (db.(posts := posts), PostDeleted)
  }

  /** After removing post `id`: the database is still consistent, the post is
      gone, and every other post is found as before. */
  ghost predicate DeletedCleanly(db: Db, id: Id) {
    var posts := RemovePost(db.posts, id);
    && Consistent(db.(posts := posts))
    && FindPost(posts, id).None?
    && forall q :: q != id ==> FindPost(posts, q) == FindPost(db.posts, q)
  }

  lemma DeleteKeepsConsistent(db: Db, id: Id)
    requires Consistent(db)
    ensures DeletedCleanly(db, id)
  {
    RemovePostExact(db.posts, id);
    CountersAgreeSubset(RemovePost(db.posts, id), db.posts, db.likes, db.comments);
  }

  /** The sort key of the listing. */
  function PostCreatedAt(p: Post): int {
    p.createdAt
  }

  /** The listing's page number and page size after defaults (`page = 1`,
      `limit = 10`). */
  function ListPage(page: Option<nat>): nat { page.GetOr(1) }
  function ListLimit(limit: Option<nat>): nat { limit.GetOr(10) }

  /** One page of the posts, newest first. */
  function PostsPage(posts: seq<Post>, skip: nat, limit: nat): (r: seq<Post>)
    ensures SortedDesc(r, PostCreatedAt)
    ensures limit > 0 ==> |r| <= limit
    ensures |r| == PageLength(|posts|, skip, limit)
    ensures multiset(r) <= multiset(posts)
    ensures forall i :: 0 <= i < |r| ==> skip + i < |posts| && r[i] == SortDesc(posts, PostCreatedAt)[skip + i]
  {
    var sorted := SortDesc(posts, PostCreatedAt);
    assert |multiset(sorted)| == |multiset(posts)|;
    PageSorted(sorted, skip, limit, PostCreatedAt);
    NotificationStore.PageSubMultiset(sorted, skip, limit);
    Page(sorted, skip, limit)
  }

  /** GET /: every post newest first, skipping `(page - 1) * limit` and
      returning at most `limit` (0 means no limit). A negative skip is
      rejected by the database and reported as a 500. */
  function ListPosts(posts: seq<Post>, page: Option<nat>, limit: Option<nat>): (r: Result<seq<Post>>)
    ensures r.Err? <==> ListPage(page) == 0 && ListLimit(limit) > 0
    ensures r.Ok? ==> SortedDesc(r.value, PostCreatedAt)
    ensures r.Ok? && ListLimit(limit) > 0 ==> |r.value| <= ListLimit(limit)
    ensures r.Ok? ==> 0 <= Skip(ListPage(page), ListLimit(limit))
                      && |r.value| == PageLength(|posts|, Skip(ListPage(page), ListLimit(limit)), ListLimit(limit))
    ensures r.Ok? ==> multiset(r.value) <= multiset(posts)
    ensures r.Ok? ==> forall i :: 0 <= i < |r.value| ==>
      var k := Skip(ListPage(page), ListLimit(limit)) + i;
      0 <= k < |posts| && r.value[i] == SortDesc(posts, PostCreatedAt)[k]
  {
    var p, l := ListPage(page), ListLimit(limit);
    var skip := Skip(p, l);
    if skip < 0 then Err("BadValue: skip value must be non-negative")
    else Ok(PostsPage(posts, skip, l))
  }

  /** Pages 1 to `pages` of the listing at `limit` posts a page, one after
      another. */
  function Pages(posts: seq<Post>, pages: nat, limit: nat): seq<Post>
    requires limit > 0
  {
    if pages == 0 then []
    else Pages(posts, pages - 1, limit) + ListPosts(posts, Some(pages), Some(limit)).value
  }

  /** Page `page` of the listing is the sorted posts paged at its skip. */
  lemma ListedPage(posts: seq<Post>, page: nat, limit: nat)
    requires page > 0 && limit > 0
    ensures ListPosts(posts, Some(page), Some(limit)).Ok?
    ensures ListPosts(posts, Some(page), Some(limit)).value
         == Page(SortDesc(posts, PostCreatedAt), Through(page - 1, limit), limit)
  {
    NextSkip(page - 1, limit);
  }

  /** Reading the listing page after page neither skips nor repeats a post:
      the first `pages` pages are the newest `pages * limit` posts, in order. */
  lemma {:induction false} PagesArePrefix(posts: seq<Post>, pages: nat, limit: nat)
    requires limit > 0
    ensures Pages(posts, pages, limit) == SortDesc(posts, PostCreatedAt)[..Cap(Through(pages, limit), |posts|)]
  {
    var sorted := SortDesc(posts, PostCreatedAt);
    if pages > 0 {
      PagesArePrefix(posts, pages - 1, limit);
      var skip := Through(pages - 1, limit);
      NextSkip(pages - 1, limit);
      ListedPage(posts, pages, limit);
      PageExtends(sorted, skip, limit);
    }
  }
}

=== FILE: producer.dfy ===
/** `createNotification`: record a notification for a triggering action and
    push it, with the recipient's refreshed unread count, into the recipient's
    room. Every step after the self-check may throw; the function catches
    everything and returns null, without undoing the steps already done. */
module Producer {
  import opened Common
  import opened NotificationModel
  import opened NotificationStore
  import opened Rooms

  /** The step at which the `try` block throws, if any: the insert, the
      lookup of the emitter module, the populate query, or the count query. */
  datatype Fault = NoFault | CreateFails | EmitterMissing | PopulateFails | CountFails

  /** What a call leaves behind: the store, the value returned to the caller
      (`null` is `None`) and the pushes made to rooms, in order. */
  datatype Outcome = Outcome(store: Store, result: Option<Notification>, pushes: seq<Push>)

  /** The row a call would insert; `post`, `comment` default to null and
      `content` to "". */
  function DraftOf(recipient: Id, sender: Id, kind: string, post: Option<Id>, comment: Option<Id>, content: Option<string>): Draft {
    Draft(Some(recipient), Some(sender), Some(kind), post, comment, Some(content.GetOr("")))
  }

  /** Appending an unread row for `user` raises that user's count by one and
      no one else's. */
  lemma UnreadAppend(s: Store, n: Notification, user: Id)
    ensures Unread(s + [n], user) == Unread(s, user) + (if n.recipient == user && !n.read then 1 else 0)
  {
    FilterAppend(s, [n], UnreadOf(user));
  }

  /** `createNotification(recipientId, senderId, type, postId, commentId, content)`.
      `id` and `now` are what the database assigns to the new row. */
  function CreateNotification(s: Store, recipient: Id, sender: Id, kind: string, post: Option<Id>,
                              comment: Option<Id>, content: Option<string>, id: Id, now: nat,
                              fault: Fault): (o: Outcome)
    requires id !in Ids(s)
    // self-suppression: nothing is written, nothing is pushed, null is returned
    ensures recipient == sender ==> o == Outcome(s, None, [])
    // at most one row is appended, and it is the requested unread row
    ensures o.store == s || (
      && |o.store| == |s| + 1 && o.store[..|s|] == s
      && var n := o.store[|s|];
      && n.id == id && n.recipient == recipient && n.sender == sender && n.recipient != n.sender
      && Some(KindName(n.kind)) == Some(kind) && n.post == post && n.comment == comment
      && n.content == content.GetOr("") && !n.read && n.createdAt == now)
    ensures o.store != s <==> recipient != sender && ParseKind(kind).Some? && fault != CreateFails
    ensures UniqueIds(s) ==> UniqueIds(o.store)
    // any failure yields null rather than an exception
    ensures fault != NoFault ==> o.result.None?
    ensures o.result.Some? <==> recipient != sender && ParseKind(kind).Some? && fault == NoFault
    ensures o.result.Some? ==> o.store == s + [o.result.value]
    // the recipient's count rises by one with the new row; nobody else's moves
    ensures o.store != s ==> Unread(o.store, recipient) == Unread(s, recipient) + 1
    ensures forall other :: other != recipient ==> Unread(o.store, other) == Unread(s, other)
    // pushes: the notification, then the count as recomputed from the store
    ensures forall i :: 0 <= i < |o.pushes| ==> o.pushes[i].room == recipient
    ensures o.result.Some? ==> o.pushes == [
      Push(recipient, NewNotification(o.result.value)),
      Push(recipient, UnreadCountUpdate(Unread(o.store, recipient)))]
    ensures fault == CountFails && o.store != s ==> o.pushes == [Push(recipient, NewNotification(o.store[|s|]))]
    ensures fault in {CreateFails, EmitterMissing, PopulateFails} ==> o.pushes == []
    // nothing is pushed about a row that was not written
    ensures o.store == s ==> o.pushes == []
  {
    if recipient == sender then Outcome(s, None, [])
    else match NotificationModel.Create(DraftOf(recipient, sender, kind, post, comment, content), id, now)
      case Err(_) => Outcome(s, None, [])
      case Ok(n) =>
        if fault == CreateFails then Outcome(s, None, [])
        else
          var s' := s + [n];
          assert s'[..|s|] == s;
          IdsAppend(s, n);
          UnreadAppend(s, n, recipient);
          assert forall other :: other != recipient ==> Unread(s', other) == Unread(s, other) by {
            forall other | other != recipient ensures Unread(s', other) == Unread(s, other) {
              UnreadAppend(s, n, other);
            }
          }
          var notify := EmitNotification(recipient, n);
          match fault
          case EmitterMissing => Outcome(s', None, [])
          case PopulateFails => Outcome(s', None, [])
          case CountFails => Outcome(s', None, [notify])
          case NoFault => Outcome(s', Some(n), [notify, EmitUnreadCount(recipient, Unread(s', recipient))])
  }
}

=== FILE: rooms.dfy ===
/** The real-time side of the server: socket rooms keyed by user id, and the
    two emitters that push into a user's room. A room's members are the
    sockets that sent `join` with that id and have not disconnected. */
module Rooms {
  import opened Common
  import opened NotificationModel

  /** A connected socket's id, generated by the transport at connect time. */
  type SocketId = string

  /** Room name to member sockets. */
  type Registry = map<string, set<SocketId>>

  /** The two server-to-client events. The notification payload is the
      populated document, treated as opaque data. */
  datatype Event = NewNotification(notification: Notification) | UnreadCountUpdate(count: nat)

  /** `io.to(room).emit(name, payload)` as requested by the server. */
  datatype Push = Push(room: string, event: Event)

  /** One event arriving on one socket. */
  datatype Delivery = Delivery(socket: SocketId, event: Event)

  /** The wire name of an event. */
  function EventName(e: Event): string {
    match e
    case NewNotification(_) => "new_notification"
    case UnreadCountUpdate(_) => "unread_count_update"
  }

  /** The sockets in a room; a room nobody joined is empty. */
  function Members(reg: Registry, room: string): set<SocketId> {
    if room in reg then reg[room] else {}
  }

  /** The `join` handler: `socket.join(userId)`. */
  function Join(reg: Registry, socket: SocketId, room: string): (r: Registry)
    ensures Members(r, room) == Members(reg, room) + {socket}
    ensures forall other :: other != room ==> Members(r, other) == Members(reg, other)
  {
    reg[room := Members(reg, room) + {socket}]
  }

  /** Joining a room one is already in changes nothing. */
  lemma JoinIdempotent(reg: Registry, socket: SocketId, room: string)
    ensures Join(Join(reg, socket, room), socket, room) == Join(reg, socket, room)
  {
  }

  /** Disconnect: the transport takes the socket out of every room. */
  function Disconnect(reg: Registry, socket: SocketId): (r: Registry)
    ensures forall room :: Members(r, room) == Members(reg, room) - {socket}
  {
    map room | room in reg :: reg[room] - {socket}
  }

  /** One socket leaving never affects another socket's membership. */
  lemma DisconnectKeepsOthers(reg: Registry, socket: SocketId, other: SocketId, room: string)
    requires other != socket
    ensures other in Members(Disconnect(reg, socket), room) <==> other in Members(reg, room)
  {
  }

  /** `emitNotification(recipientId, notification)`. */
  function EmitNotification(recipient: Id, n: Notification): (p: Push)
    ensures p.room == recipient && EventName(p.event) == "new_notification"
  {
    Push(recipient, NewNotification(n))
  }

  /** `emitUnreadCount(recipientId, count)`. */
  function EmitUnreadCount(recipient: Id, count: nat): (p: Push)
    ensures p.room == recipient && EventName(p.event) == "unread_count_update"
  {
    Push(recipient, UnreadCountUpdate(count))
  }

  /** What a push delivers: its event, once to each member of its room. */
  function Deliveries(reg: Registry, p: Push): (ds: set<Delivery>)
    ensures forall d :: d in ds <==> d.socket in Members(reg, p.room) && d.event == p.event
  {
    set s | s in Members(reg, p.room) :: Delivery(s, p.event)
  }

  /** Pushing into a room with no members delivers nothing. */
  lemma EmptyRoomDeliversNothing(reg: Registry, p: Push)
    requires Members(reg, p.room) == {}
    ensures Deliveries(reg, p) == {}
  {
  }

  /** The deliveries of a sequence of pushes. */
  function AllDeliveries(reg: Registry, ps: seq<Push>): set<Delivery> {
    if |ps| == 0 then {} else Deliveries(reg, ps[0]) + AllDeliveries(reg, ps[1..])
  }

  /** The deliveries in a log. */
  function Delivered(log: seq<Delivery>): set<Delivery> {
    set i | 0 <= i < |log| :: log[i]
  }

  /** A log's deliveries are those of its parts. */
  lemma DeliveredAppend(a: seq<Delivery>, b: seq<Delivery>)
    ensures Delivered(a + b) == Delivered(a) + Delivered(b)
  {
    forall d | d in Delivered(a + b) ensures d in Delivered(a) + Delivered(b) {
      var i :| 0 <= i < |a + b| && (a + b)[i] == d;
      if i >= |a| { assert b[i - |a|] == d; }
    }
    forall d | d in Delivered(a) + Delivered(b) ensures d in Delivered(a + b) {
      if d in Delivered(a) {
        var i :| 0 <= i < |a| && a[i] == d;
        assert (a + b)[i] == d;
      } else {
        var i :| 0 <= i < |b| && b[i] == d;
        assert (a + b)[|a| + i] == d;
      }
    }
  }

  /** A one-entry log delivers its entry. */
  lemma DeliveredOne(d: Delivery)
    ensures Delivered([d]) == {d}
  {
    assert [d][0] == d;
    assert d in Delivered([d]);
  }

  /** One more socket served: the fan-out so far stays one delivery per
      served socket, none twice. */
  lemma EmitOne(out: seq<Delivery>, done: set<SocketId>, s: SocketId, e: Event)
    requires s !in done
    requires |out| == |done|
    requires forall i :: 0 <= i < |out| ==> out[i].event == e && out[i].socket in done
    requires forall i, j :: 0 <= i < j < |out| ==> out[i].socket != out[j].socket
    requires Delivered(out) == set x | x in done :: Delivery(x, e)
    ensures var out' := out + [Delivery(s, e)];
            && |out'| == |done + {s}|
            && (forall i :: 0 <= i < |out'| ==> out'[i].event == e && out'[i].socket in done + {s})
            && (forall i, j :: 0 <= i < j < |out'| ==> out'[i].socket != out'[j].socket)
            && Delivered(out') == set x | x in done + {s} :: Delivery(x, e)
  {
    DeliveredAppend(out, [Delivery(s, e)]);
    DeliveredOne(Delivery(s, e));
  }

  /** The transport fan-out of one push: one delivery per member socket, no
      socket twice, no socket outside the room. */
  method Emit(reg: Registry, p: Push) returns (out: seq<Delivery>)
    ensures |out| == |Members(reg, p.room)|
    ensures forall i :: 0 <= i < |out| ==> out[i].event == p.event && out[i].socket in Members(reg, p.room)
    ensures forall i, j :: 0 <= i < j < |out| ==> out[i].socket != out[j].socket
    ensures Delivered(out) == Deliveries(reg, p)
  {
    var members := Members(reg, p.room);
    var rest := members;
    out := [];
    while rest != {}
      invariant rest <= members
      invariant |out| == |members - rest|
      invariant forall i :: 0 <= i < |out| ==> out[i].event == p.event && out[i].socket in members - rest
      invariant forall i, j :: 0 <= i < j < |out| ==> out[i].socket != out[j].socket
      invariant Delivered(out) == set s | s in members - rest :: Delivery(s, p.event)
      decreases rest
    {
      var s :| s in rest;
      assert members - (rest - {s}) == (members - rest) + {s};
      EmitOne(out, members - rest, s, p.event);
      out := out + [Delivery(s, p.event)];
      rest := rest - {s};
    }
  }

  /** The transport fan-out of the pushes a handler made, appended to the
      delivery log in push order. */
  method Dispatch(reg: Registry, ps: seq<Push>, log: seq<Delivery>) returns (log': seq<Delivery>)
    ensures |log'| >= |log| && log'[..|log|] == log
    ensures Delivered(log'[|log|..]) == AllDeliveries(reg, ps)
  {
    log' := log;
    var k := 0;
    while k < |ps|
      invariant 0 <= k <= |ps|
      invariant |log'| >= |log| && log'[..|log|] == log
      invariant Delivered(log'[|log|..]) + AllDeliveries(reg, ps[k..]) == AllDeliveries(reg, ps)
    {
      var out := Emit(reg, ps[k]);
      assert ps[k..][1..] == ps[k + 1..];
      assert (log' + out)[|log|..] == log'[|log|..] + out;
      DeliveredAppend(log'[|log|..], out);
      log' := log' + out;
      k := k + 1;
    }
    assert ps[k..] == [];
  }
}

=== FILE: sorting.dfy ===
/** Query shaping shared by every listing: `.sort({ createdAt: -1 })`,
    `.skip(n)` and `.limit(n)`. */
module Sorting {

  /** Non-increasing by `key`: newest first when the key is a creation time. */
  predicate SortedDesc<T>(xs: seq<T>, key: T -> int) {
    forall i, j :: 0 <= i < j < |xs| ==> key(xs[i]) >= key(xs[j])
  }

  /** Places `x` in front of the first element of `xs` whose key does not
      exceed its own. */
  function Insert<T(==)>(x: T, xs: seq<T>, key: T -> int): (r: seq<T>)
    requires SortedDesc(xs, key)
    ensures SortedDesc(r, key)
    ensures multiset(r) == multiset(xs) + multiset{x}
    ensures |r| == |xs| + 1 && (r[0] == x || (|xs| > 0 && r[0] == xs[0]))
  {
    if |xs| == 0 then [x]
    else if key(x) >= key(xs[0]) then [x] + xs
    else
      var tail := Insert(x, xs[1..], key);
      assert key(xs[0]) >= key(tail[0]);
      assert xs == [xs[0]] + xs[1..];
      [xs[0]] + tail
  }

  /** The elements of `xs` rearranged newest first. */
  function SortDesc<T(==)>(xs: seq<T>, key: T -> int): (r: seq<T>)
    ensures SortedDesc(r, key)
    ensures multiset(r) == multiset(xs)
    ensures |r| == |xs|
  {
    if |xs| == 0 then []
    else
      assert xs == [xs[0]] + xs[1..];
      Insert(xs[0], SortDesc(xs[1..], key), key)
  }

  /** How many of `n` rows `.skip(skip).limit(limit)` returns: none past the
      end, all that remain when the limit is 0 or reaches the end, else
      `limit`. */
  function PageLength(n: nat, skip: nat, limit: nat): nat {
    if skip >= n then 0 else if limit == 0 || skip + limit >= n then n - skip else limit
  }

  /** `.skip(skip).limit(limit)` on a result set; a limit of 0 means no limit,
      as in MongoDB. */
  function Page<T>(xs: seq<T>, skip: nat, limit: nat): (r: seq<T>)
    ensures limit > 0 ==> |r| <= limit
    ensures |r| == PageLength(|xs|, skip, limit)
    ensures forall i :: 0 <= i < |r| ==> skip + i < |xs| && r[i] == xs[skip + i]
  {
    var rest := if skip >= |xs| then [] else xs[skip..];
    if limit == 0 || limit >= |rest| then rest else rest[..limit]
  }

  /** The rows up to the end of page `page` at `limit` rows a page. Defined
      by repeated addition so that no product enters the proofs that use it;
      `ThroughIsProduct` shows it is `page * limit`. */
  function Through(page: nat, limit: nat): nat {
    if page == 0 then 0 else Through(page - 1, limit) + limit
  }

  lemma {:induction false} ThroughIsProduct(page: nat, limit: nat)
    ensures Through(page, limit) == page * limit
  {
    if page > 0 {
      ThroughIsProduct(page - 1, limit);
    }
  }

  /** The rows page `page` skips, `(page - 1) * limit`. It is negative
      exactly when page 0 is asked for with a page size, which the database
      refuses. */
  function Skip(page: nat, limit: nat): (r: int)
    ensures r < 0 <==> page == 0 && limit > 0
  {
    Through(page, limit) - limit
  }

  /** The page after `page` starts where `page` ends. */
  lemma NextSkip(page: nat, limit: nat)
    ensures Skip(page + 1, limit) == Through(page, limit)
  {
  }

  /** `n` capped at `bound`. */
  function Cap(n: nat, bound: nat): (r: nat)
    ensures r <= n && r <= bound && (r == n || r == bound)
  {
    if n <= bound then n else bound
  }

  /** The rows before `skip` followed by the page at `skip` are the rows
      before `skip + limit`: consecutive pages tile the result set. */
  lemma PageExtends<T>(xs: seq<T>, skip: nat, limit: nat)
    requires limit > 0
    ensures xs[..Cap(skip, |xs|)] + Page(xs, skip, limit) == xs[..Cap(skip + limit, |xs|)]
  {
    var r := Page(xs, skip, limit);
    var lhs := xs[..Cap(skip, |xs|)] + r;
    assert |lhs| == Cap(skip + limit, |xs|);
    forall i | 0 <= i < |lhs| ensures lhs[i] == xs[i] {
      if i >= Cap(skip, |xs|) {
        assert lhs[i] == r[i - skip];
      }
    }
  }

  /** A sorted sequence stays sorted when paged. */
  lemma PageSorted<T>(xs: seq<T>, skip: nat, limit: nat, key: T -> int)
    requires SortedDesc(xs, key)
    ensures SortedDesc(Page(xs, skip, limit), key)
  {
    var r := Page(xs, skip, limit);
    forall i, j | 0 <= i < j < |r| ensures key(r[i]) >= key(r[j]) {
      assert r[i] == xs[skip + i] && r[j] == xs[skip + j];
    }
  }
}

=== FILE: text.dfy ===
/** The JavaScript string primitives the source relies on: `trim`, `split` on a
    single character, `startsWith`, `length` and lower-casing. Strings are
    sequences of Unicode scalar values; `Utf16Length` gives the length
    JavaScript reports for them. */
module Text {

  /** The characters `String.prototype.trim` strips: the ECMAScript WhiteSpace
      and LineTerminator code points. */
  predicate IsSpace(c: char) {
    || c == '\t' || c == '\n' || c == '\U{0B}' || c == '\U{0C}' || c == '\r' || c == ' '
    || c == '\U{A0}' || c == '\U{1680}' || ('\U{2000}' <= c <= '\U{200A}')
    || c == '\U{2028}' || c == '\U{2029}' || c == '\U{202F}' || c == '\U{205F}'
    || c == '\U{3000}' || c == '\U{FEFF}'
  }

  /** `s` with its leading white space removed. */
  function TrimStart(s: string): (r: string)
    ensures |r| <= |s| && r == s[|s| - |r|..]
    ensures forall i :: 0 <= i < |s| - |r| ==> IsSpace(s[i])
    ensures |r| > 0 ==> !IsSpace(r[0])
  {
    if |s| > 0 && IsSpace(s[0]) then TrimStart(s[1..]) else s
  }

  /** `s` with its trailing white space removed. */
  function TrimEnd(s: string): (r: string)
    ensures |r| <= |s| && r == s[..|r|]
    ensures forall i :: |r| <= i < |s| ==> IsSpace(s[i])
    ensures |r| > 0 ==> !IsSpace(r[|r| - 1])
  {
    if |s| > 0 && IsSpace(s[|s| - 1]) then TrimEnd(s[..|s| - 1]) else s
  }

  /** `s.trim()`: the longest infix of `s` that neither starts nor ends with
      white space. */
  function Trim(s: string): (r: string)
    ensures |r| <= |s|
    ensures |r| > 0 ==> !IsSpace(r[0]) && !IsSpace(r[|r| - 1])
  {
    TrimEnd(TrimStart(s))
  }

  /** A string that trims to nothing (a falsy `tag.trim()`). */
  predicate IsBlank(s: string) {
    Trim(s) == ""
  }

  /** Trimming twice is trimming once. */
  lemma TrimIdempotent(s: string)
    ensures Trim(Trim(s)) == Trim(s)
  {
    var t := Trim(s);
    if |t| > 0 {
      assert TrimStart(t) == t;
      assert TrimEnd(t) == t;
    }
  }

  /** A string is blank exactly when every character of it is white space. */
  lemma {:induction false} BlankIffAllSpace(s: string)
    ensures IsBlank(s) <==> forall i :: 0 <= i < |s| ==> IsSpace(s[i])
  {
    var a := TrimStart(s);
    if !forall i :: 0 <= i < |s| ==> IsSpace(s[i]) {
      var k :| 0 <= k < |s| && !IsSpace(s[k]);
      assert |a| > 0;
      assert !IsSpace(a[0]);
    }
  }

  /** `s.startsWith(prefix)`. */
  predicate StartsWith(s: string, prefix: string) {
    |prefix| <= |s| && s[..|prefix|] == prefix
  }

  /** `s.split(sep)` for a one-character separator: the maximal runs between
      separators, including empty runs; `"".split(sep)` is `[""]`. */
  function Split(s: string, sep: char): (r: seq<string>)
    ensures |r| >= 1
    ensures forall i :: 0 <= i < |r| ==> sep !in r[i]
  {
    if |s| == 0 then [""]
    else if s[0] == sep then [""] + Split(s[1..], sep)
    else
      var rest := Split(s[1..], sep);
      [[s[0]] + rest[0]] + rest[1..]
  }

  /** `pieces.join(sep)`. */
  function Join(pieces: seq<string>, sep: char): string
    requires |pieces| >= 1
  {
    if |pieces| == 1 then pieces[0] else pieces[0] + [sep] + Join(pieces[1..], sep)
  }

  /** Splitting loses nothing: joining the pieces back gives the input. */
  lemma {:induction false} JoinSplit(s: string, sep: char)
    ensures Join(Split(s, sep), sep) == s
  {
    if |s| == 0 {
    } else if s[0] == sep {
      JoinSplit(s[1..], sep);
      assert s == [sep] + s[1..];
    } else {
      var rest := Split(s[1..], sep);
      JoinSplit(s[1..], sep);
      if |rest| == 1 {
        assert s == [s[0]] + s[1..];
      } else {
        assert Join(rest, sep) == rest[0] + [sep] + Join(rest[1..], sep);
        assert s == [s[0]] + s[1..];
      }
    }
  }

  /** Joining separator-free pieces and splitting again gives the pieces back. */
  lemma {:induction false} SplitJoin(pieces: seq<string>, sep: char)
    requires |pieces| >= 1
    requires forall i :: 0 <= i < |pieces| ==> sep !in pieces[i]
    ensures Split(Join(pieces, sep), sep) == pieces
  {
    if |pieces| == 1 {
      SplitNoSep(pieces[0], sep);
    } else {
      SplitJoin(pieces[1..], sep);
      SplitPrefix(pieces[0], Join(pieces[1..], sep), sep);
    }
  }

  /** A string free of the separator splits into itself. */
  lemma {:induction false} SplitNoSep(s: string, sep: char)
    requires sep !in s
    ensures Split(s, sep) == [s]
  {
    if |s| > 0 {
      SplitNoSep(s[1..], sep);
      assert s == [s[0]] + s[1..];
    }
  }

  /** A separator-free head followed by a separator becomes its own piece. */
  lemma {:induction false} SplitPrefix(head: string, tail: string, sep: char)
    requires sep !in head
    ensures Split(head + [sep] + tail, sep) == [head] + Split(tail, sep)
  {
    if |head| == 0 {
      assert head + [sep] + tail == [sep] + tail;
      assert ([sep] + tail)[1..] == tail;
    } else {
      var s := head + [sep] + tail;
      assert s[1..] == head[1..] + [sep] + tail;
      SplitPrefix(head[1..], tail, sep);
      assert [head[0]] + head[1..] == head;
    }
  }

  /** A character outside the Basic Multilingual Plane, which UTF-16 stores as
      a surrogate pair. */
  predicate IsWide(c: char) {
    c as int >= 0x1_0000
  }

  /** `s.length` in JavaScript: the number of UTF-16 code units, two for each
      wide character and one for every other. */
  function Utf16Length(s: string): (n: nat)
    ensures |s| <= n <= 2 * |s|
    ensures n == 0 <==> |s| == 0
  {
    if |s| == 0 then 0 else (if IsWide(s[0]) then 2 else 1) + Utf16Length(s[1..])
  }

  /** Without wide characters the code-unit count is the character count. */
  lemma {:induction false} Utf16LengthNarrow(s: string)
    requires forall i :: 0 <= i < |s| ==> !IsWide(s[i])
    ensures Utf16Length(s) == |s|
  {
    if |s| > 0 {
      Utf16LengthNarrow(s[1..]);
    }
  }

  /** A string of wide characters only is twice as long in code units. */
  lemma {:induction false} Utf16LengthWide(s: string)
    requires forall i :: 0 <= i < |s| ==> IsWide(s[i])
    ensures Utf16Length(s) == 2 * |s|
  {
    if |s| > 0 {
      Utf16LengthWide(s[1..]);
    }
  }

  /** ASCII lower-casing of one character. */
  function LowerChar(c: char): (r: char)
    ensures !('A' <= r <= 'Z')
    ensures !('A' <= c <= 'Z') ==> r == c
  {
    if 'A' <= c <= 'Z' then (c as int - 'A' as int + 'a' as int) as char else c
  }

  /** `s.toLowerCase()` restricted to ASCII letters; other characters are kept
      as they are. */
  function ToLower(s: string): (r: string)
    ensures |r| == |s|
    ensures forall i :: 0 <= i < |r| ==> r[i] == LowerChar(s[i])
  {
    if |s| == 0 then [] else [LowerChar(s[0])] + ToLower(s[1..])
  }

  /** A string without ASCII capitals is its own lower-cased form. */
  lemma ToLowerKeepsLower(s: string)
    requires forall i :: 0 <= i < |s| ==> !('A' <= s[i] <= 'Z')
    ensures ToLower(s) == s
  {
  }

  /** `low` is `up` lower-cased, checked one character at a time. */
  lemma LowerWord(up: string, low: string)
    requires |up| == |low|
    requires forall i :: 0 <= i < |up| ==> LowerChar(up[i]) == low[i]
    ensures ToLower(up) == low
  {
  }

  /** Lower-casing is idempotent. */
  lemma ToLowerIdempotent(s: string)
    ensures ToLower(ToLower(s)) == ToLower(s)
  {
  }
}

=== FILE: upload.dfy ===
/** The image upload gate: a file filter that admits only image mimetypes, a
    5 MiB size limit, and the two places an upload error becomes an HTTP
    status (the create-post route's own callback, and the application-wide
    error handler). */
module Upload {
  import opened Common
  import opened Text

  /** `limits.fileSize`: 5 * 1024 * 1024 bytes. */
  const MaxFileSize: nat := 5 * 1024 * 1024

  /** The parts of an uploaded file the gate looks at. */
  datatype File = File(mimetype: string, size: nat)

  /** Why an upload was refused: the filter's own error, or the multer
      `LIMIT_FILE_SIZE` error raised while the body streams in. */
  datatype UploadError = NotAnImage | FileTooLarge

  /** The error's `message`. */
  function Message(e: UploadError): string {
    match e
    case NotAnImage => "Only image files are allowed"
    case FileTooLarge => "File too large"
  }

  /** `upload.single('image')`. No file passes (the post then has no image).
      The filter runs on the headers, before any byte is counted, so a
      non-image is refused as such whatever its size; an image is refused
      only when it exceeds the limit. */
  function Check(file: Option<File>): (r: Option<UploadError>)
    ensures r.None? <==> file.None? || (StartsWith(file.value.mimetype, "image/") && file.value.size <= MaxFileSize)
    ensures r == Some(NotAnImage) <==> file.Some? && !StartsWith(file.value.mimetype, "image/")
    ensures r == Some(FileTooLarge) ==> file.Some? && file.value.size > MaxFileSize
  {
    match file
    case None => None
    case Some(f) =>
      if !StartsWith(f.mimetype, "image/") then Some(NotAnImage)
      else if f.size > MaxFileSize then Some(FileTooLarge)
      else None
  }

  /** An error as the application-wide handler receives it: a multer error
      with its code, or any other error. */
  datatype ServerError = MulterError(code: string, message: string) | OtherError(message: string)

  /** How each upload error reaches the handler. */
  function AsServerError(e: UploadError): (r: ServerError)
    ensures r.message == Message(e)
  {
    match e
    case NotAnImage => OtherError(Message(e))
    case FileTooLarge => MulterError("LIMIT_FILE_SIZE", Message(e))
  }

  /** An HTTP reply carrying `{ error: message }`. */
  datatype Reply = Reply(status: nat, error: string)

  /** The application-wide error handler: a multer size error is a 400 "File
      too large"; everything else is a 500 with the error's message. */
  function HandleError(e: ServerError): (r: Reply)
    ensures r.status == 400 <==> e.MulterError? && e.code == "LIMIT_FILE_SIZE"
    ensures r.status == 400 ==> r.error == "File too large"
    ensures r.status != 400 ==> r.status == 500 && r.error == e.message
  {
    if e.MulterError? && e.code == "LIMIT_FILE_SIZE" then Reply(400, "File too large")
    else Reply(500, e.message)
  }

  /** The create-post route handles the upload callback itself: every upload
      error is a 400 carrying the error's message, and the request goes no
      further. */
  function RouteUpload(file: Option<File>): (r: Option<Reply>)
    ensures r.None? <==> Check(file).None?
    ensures r.Some? ==> r.value.status == 400 && r.value.error == Message(Check(file).value)
  {
    match Check(file)
    case None => None
    case Some(e) => Some(Reply(400, Message(e)))
  }

  /** An oversized image is reported identically on both paths: 400 "File
      too large". A non-image is a 400 on the route's path but would be a 500
      at the application-wide handler. */
  lemma OversizeReportedAlike(f: File)
    requires StartsWith(f.mimetype, "image/") && f.size > MaxFileSize
    ensures RouteUpload(Some(f)) == Some(Reply(400, "File too large"))
    ensures HandleError(AsServerError(Check(Some(f)).value)) == Reply(400, "File too large")
  {
  }

  lemma NonImageStatus(f: File)
    requires !StartsWith(f.mimetype, "image/")
    ensures RouteUpload(Some(f)) == Some(Reply(400, "Only image files are allowed"))
    ensures HandleError(AsServerError(Check(Some(f)).value)) == Reply(500, "Only image files are allowed")
  {
  }

  /** The filter does not look at the size: any image of at most 5 MiB
      passes, and so does a request without a file. */
  lemma ImagesWithinLimitPass(mimetype: string, size: nat)
    requires StartsWith(mimetype, "image/") && size <= MaxFileSize
    ensures Check(Some(File(mimetype, size))).None?
    ensures Check(None).None?
  {
  }
}

=== FILE: user_model.dfy ===
/** The user document: normalised, length-checked profile fields with unique
    username and email. */
module UserModel {
  import opened Common
  import opened Text

  const UsernameMinLength: nat := 3
  const UsernameMaxLength: nat := 30
  const PasswordMinLength: nat := 6
  const BioMaxLength: nat := 500

  datatype User = User(
    id: Id,
    username: string,
    email: string,
    password: string,
    fullName: string,
    avatar: string,
    bio: string,
    followers: seq<Id>,
    following: seq<Id>,
    isAdmin: bool,
    createdAt: nat)

  /** What the schema guarantees of every stored user. */
  predicate Valid(u: User) {
    && u.username == Trim(u.username)
    && UsernameMinLength <= Utf16Length(u.username) <= UsernameMaxLength
    && u.email == ToLower(Trim(u.email)) && |u.email| > 0
    && Utf16Length(u.password) >= PasswordMinLength
    && u.fullName == Trim(u.fullName) && |u.fullName| > 0
    && Utf16Length(u.bio) <= BioMaxLength
  }

  /** The fields handed to `User.create`; absent fields are `None`. */
  datatype Draft = Draft(
    username: Option<string>,
    email: Option<string>,
    password: Option<string>,
    fullName: Option<string>,
    avatar: Option<string>,
    bio: Option<string>,
    isAdmin: Option<bool>)

  /** The email as stored: trimmed, then lower-cased (ASCII letters only). */
  function NormalEmail(e: string): string {
    ToLower(Trim(e))
  }

  /** The schema's per-field checks, in declaration order: the first failing
      one, or `None` when the draft is acceptable. */
  function Check(d: Draft): (r: Option<string>)
    ensures r.None? <==>
      && d.username.Some? && UsernameMinLength <= Utf16Length(Trim(d.username.value)) <= UsernameMaxLength
      && d.email.Some? && |Trim(d.email.value)| > 0
      && d.password.Some? && Utf16Length(d.password.value) >= PasswordMinLength
      && d.fullName.Some? && |Trim(d.fullName.value)| > 0
      && Utf16Length(d.bio.GetOr("")) <= BioMaxLength
  {
    if d.username.None? || |Trim(d.username.value)| == 0 then Some("user validation failed: username: Path `username` is required.")
    else if Utf16Length(Trim(d.username.value)) < UsernameMinLength then Some("user validation failed: username: shorter than the minimum allowed length (3).")
    else if Utf16Length(Trim(d.username.value)) > UsernameMaxLength then Some("user validation failed: username: longer than the maximum allowed length (30).")
    else if d.email.None? || |Trim(d.email.value)| == 0 then Some("user validation failed: email: Path `email` is required.")
    else if d.password.None? || |d.password.value| == 0 then Some("user validation failed: password: Path `password` is required.")
    else if Utf16Length(d.password.value) < PasswordMinLength then Some("user validation failed: password: shorter than the minimum allowed length (6).")
    else if d.fullName.None? || |Trim(d.fullName.value)| == 0 then Some("user validation failed: fullName: Path `fullName` is required.")
    else if Utf16Length(d.bio.GetOr("")) > BioMaxLength then Some("user validation failed: bio: longer than the maximum allowed length (500).")
    else None
  }

  /** Schema validation and defaults: avatar and bio default to "", `isAdmin`
      to false, the follow lists start empty. */
  function Create(d: Draft, id: Id, now: nat): (r: Result<User>)
    ensures r.Ok? <==> Check(d).None?
    ensures r.Ok? ==>
      && Valid(r.value)
      && r.value.username == Trim(d.username.value)
      && r.value.email == NormalEmail(d.email.value)
      && r.value.avatar == d.avatar.GetOr("")
      && r.value.bio == d.bio.GetOr("")
      && r.value.isAdmin == d.isAdmin.GetOr(false)
      && r.value.followers == [] && r.value.following == []
  {
    match Check(d)
    case Some(msg) => Err(msg)
    case None =>
      var u := User(id, Trim(d.username.value), NormalEmail(d.email.value), d.password.value,
                    Trim(d.fullName.value), d.avatar.GetOr(""), d.bio.GetOr(""), [], [],
                    d.isAdmin.GetOr(false), now);
      TrimIdempotent(d.username.value);
      TrimIdempotent(d.fullName.value);
      NormalEmailIdempotent(d.email.value);
      assert Valid(u);
      Ok(u)
  }

  /** ASCII lower-casing never creates or removes white space. */
  lemma LowerKeepsSpace(c: char)
    ensures IsSpace(LowerChar(c)) <==> IsSpace(c)
  {
  }

  /** Lower-casing a trimmed string leaves it trimmed. */
  lemma {:induction false} TrimOfLower(t: string)
    requires Trim(t) == t
    ensures Trim(ToLower(t)) == ToLower(t)
  {
    var l := ToLower(t);
    if |l| > 0 {
      LowerKeepsSpace(t[0]);
      LowerKeepsSpace(t[|t| - 1]);
      assert !IsSpace(t[0]) && !IsSpace(t[|t| - 1]);
      assert TrimStart(l) == l;
      assert TrimEnd(l) == l;
    }
  }

  /** Storing an already-stored email changes nothing. */
  lemma NormalEmailIdempotent(e: string)
    ensures NormalEmail(NormalEmail(e)) == NormalEmail(e)
    ensures |NormalEmail(e)| == |Trim(e)|
  {
    TrimIdempotent(e);
    TrimOfLower(Trim(e));
    ToLowerIdempotent(Trim(e));
  }

  /** The unique indexes on username and email hold. */
  predicate Unique(users: seq<User>) {
    forall i, j :: 0 <= i < j < |users| ==>
      users[i].username != users[j].username && users[i].email != users[j].email
  }

  /** Some stored user already holds `u`'s username or email. */
  predicate Taken(users: seq<User>, u: User) {
    exists i :: 0 <= i < |users| && (users[i].username == u.username || users[i].email == u.email)
  }

  /** `User.create` against the collection: validation first, then the unique
      indexes compare the normalised values. */
  function Register(users: seq<User>, d: Draft, id: Id, now: nat): (r: Result<seq<User>>)
    ensures r.Ok? <==> Create(d, id, now).Ok? && !Taken(users, Create(d, id, now).value)
    ensures r.Ok? ==> r.value == users + [Create(d, id, now).value]
    ensures Unique(users) && r.Ok? ==> Unique(r.value)
  {
    match Create(d, id, now)
    case Err(msg) => Err(msg)
    case Ok(u) =>
      if Taken(users, u) then Err("E11000 duplicate key error collection: users")
      else
        var r := users + [u];
        assert Unique(users) ==> Unique(r) by {
          if Unique(users) {
            forall i, j | 0 <= i < j < |r|
              ensures r[i].username != r[j].username && r[i].email != r[j].email
            {
              if j == |users| {
                assert r[i] == users[i];
              }
            }
          }
        }
        Ok(r)
  }
}
